=== FILE: README.md ===
# Polymarket BTC 15-minute bot — verified model of its decision core

This project models the decision logic of a trading bot for Polymarket's "Bitcoin Up or
Down" 15-minute markets, and proves properties of that model in Dafny. The bot works like
this:

- It watches the market that is open right now.
- It buys whichever side's price reaches the trigger price, with a fill-or-kill order at a
  fixed entry price.
- It watches its positions for stop-losses and for markets that have resolved.

The offline tools do three things: they collect price snapshots, they count how often a
side that reached a price threshold went on to lose (a "collapse"), and they total the
trade history.

Every HTTP, WebSocket, exchange-client and clock interaction becomes an input value:

- a post outcome (`Posted`, `Falsy` or `Raised`);
- a reply datatype;
- a map of slug replies;
- a `WallClock`;
- a list of connect outcomes.

Each module below follows one source file.

| module | source file | what it holds |
|---|---|---|
| `Config` | config.py, overbetted_test/config.py | the trading constants (trigger 0.96, entry 0.97, stop 0.8, 3 attempts, 5 shares, 2 concurrent positions) |
| `Clock` | monitor.py, overbetted_test/api.py | 12-hour clock times, the 24-hour conversion and the 15-minute span test |
| `Trader` | trader.py | `FastTrader`'s position table, tick-size cache and side choice |
| `RiskManager` | risk_manager.py | `FastRiskManager`'s stop prices and missing-price counters |
| `Monitor` | monitor.py | `MarketMonitor`'s slug search, question checks, token choice and market lock |
| `Bot` | main.py | `FastTradingBot`'s per-market attempt counters, stop-loss pass, redeem timer and sleep |
| `WsMonitor` | ws_monitor.py | the WebSocket price table, subscriptions, reconnect backoff and the hybrid monitor |
| `Collector` | data_collector.py | `DataCollector`'s snapshot state machine |
| `OverbettedApi` | overbetted_test/api.py | market validity, winner parsing and the paging loop |
| `Analysis` | overbetted_test/analysis.py | the per-threshold reached/collapsed tallies |
| `TradeHistory` | trade_history.py | the BTC trade filter and the BUY/SELL totals |

`Wrappers`, `Collections` and `Text` are small helper modules:

- an `Option` type;
- map agreement predicates;
- lower-casing, substring search, and decimal rendering and parsing of integers.

Prices are `real`. Monitor times are integer epoch seconds. The bot and collector clocks
are `real` seconds.

The model follows the code in three places where the program's own description says
otherwise:

- **A successful stop-loss does not remove the trader's position.** It clears only the
  risk manager's stop price and counter (risk_manager.py:120-126). So the same position is
  sold again at the next check (`RiskManager.StopLossRepeatsWhilePositionHeld`). The sell
  goes through `execute_presigned_stop_loss`, which trader.py does not define. Its outcome
  is the `sellOk` parameter. With the shipped trader.py the call raises, which is the
  failure outcome.
- **12PM converts to hour 0.** The conversion is `h % 12`, with 12 added only for PM hours
  other than 12 (monitor.py:209-213). So noon markets are placed at midnight, and
  11:45AM-12:00PM is not recognised as a 15-minute market.
- **The concurrent-position cap is never consulted.** Nothing in main.py calls
  `can_open_new_position`. A third position is opened while the cap says no
  (`Bot.ConcurrentCapNotConsulted`).

Two source problems are noted but not modelled:

- main.py:44 imports `FastMarketMonitor`, but monitor.py defines only `MarketMonitor`.
- data_collector.py imports `DATA_COLLECTOR_API_URL`, which config.py does not define.

The model treats both as if they resolved.

## Model

| member | source | states |
|---|---|---|
| Trader.Round2 | trader.py:150 | the rounded order price is within half a cent of the requested price |
| Trader.EntryPriceIsRounded | config.py:11 | worked example, not a general property: the configured entry price 0.97 is already a two-decimal price, so rounding leaves it at exactly 0.97 |
| Trader.GetTickSize | trader.py:99-116 | a cached token keeps its size. Otherwise the client's non-empty answer is used, or "0.01" without a client or answer. The answer is cached, and no other token and no position changes |
| Trader.TickSizeIsCached | trader.py:99-116 | after the first lookup, later lookups return the first result whatever the client says |
| Trader.PlaceBuyOrder | trader.py:119-195 | without a client nothing is sent and nothing changes. Otherwise a buy at the rounded price is sent. Exactly a truthy post records {side, shares = size, entry = rounded price} for the token, overwriting it and leaving other tokens alone. A falsy or raised post leaves the table unchanged |
| Trader.PlaceSellOrder | trader.py:197-249 | without a client nothing is sent. Otherwise a sell at the rounded price and size is sent. A truthy post removes exactly that token's position; any other outcome leaves the table unchanged |
| Trader.RemovePosition | trader.py:278-282 | the token is gone, every other position is unchanged, and removing an untracked token is a no-op |
| Trader.GetPosition | trader.py:268-271 | the tracked position of the token when there is one, and nothing exactly when the token is untracked |
| Trader.RemovePositionIdempotent | trader.py:278-282 | removing the same token twice is the same as removing it once |
| Trader.GetTradeSide | trader.py:284-298 | up exactly when the up price reaches the trigger (up wins a tie). Down exactly when only the down price does. No trade exactly when neither does |
| Trader.ShouldEnterTrade | trader.py:284-286 | defines entry: the price is at or above the trigger, a tie included. `Trader.GetTradeSide` is stated in its terms |
| RiskManager.SetStopLoss | risk_manager.py:48-51 | the token's stop price becomes the given one; other stops and all counters are unchanged |
| RiskManager.RemoveStopLoss | risk_manager.py:53-58 | the token's stop and counter are gone, other tokens' entries are unchanged, and it is a no-op when the token has neither |
| RiskManager.CleanupResolvedPosition | risk_manager.py:133-144 | the token's position, stop and counter are all removed and no sell is attempted |
| RiskManager.HandleNoPrice | risk_manager.py:99-108 | the miss counter goes up by exactly one and the position stays, until the count reaches 10. Then position, stop and counter are all removed. Never sells |
| RiskManager.ExecuteStopLoss | risk_manager.py:110-131 | exactly one sell attempt for the token. A success clears its stop and counter, a failure keeps them for a retry, and the trader's position is kept either way |
| RiskManager.CheckPosition | risk_manager.py:75-97 | one held token obeys the per-token rule (`TokenRule`) and nothing about any other token changes. The rule: the default stop is armed if missing and never overwrites one; a missing price counts a miss; a present price resets the counter; a sell is attempted iff the price is at or below the stop |
| RiskManager.TokenRule | risk_manager.py:75-108 | defines the per-token rule the checks are stated against. Without a price: no sell, one more miss, and at the 10th miss position, stop and counter are removed. With a price: the counter restarts at 0 and a sell is attempted iff the price is at or below the stop (default 0.8, `STOP_LOSS_PRICE`, when unset); a successful sell clears stop and counter but keeps the position |
| RiskManager.CheckTokens | risk_manager.py:75-97 | over the snapshot order, each listed token obeys the per-token rule against its own entries as if checked alone. Unlisted tokens are untouched, and every attempted sell is for a listed token, at most once |
| RiskManager.PositionChecksOnly | risk_manager.py:75-97 | checking one token changes only that token's entries, and only as the per-token rule allows |
| RiskManager.ChecksCompose | risk_manager.py:75-97 | checking one token and then the others in order obeys the per-token rule for every token in the list |
| RiskManager.CheckStopLosses | risk_manager.py:60-97 | with stop-loss disabled, nothing changes and nothing is sold. Enabled, every held token obeys the per-token rule and every unheld token is untouched, whatever the iteration order |
| RiskManager.CheckTakeProfit | risk_manager.py:146-179 | no position, or a price below the target, means no sell and false. Otherwise a FOK sell of that token's position shares is sent at the current price exactly when a client exists, and the bookkeeping is cleared exactly when the sell succeeds |
| RiskManager.CanOpenNewPosition | risk_manager.py:181-189 | false exactly when the open-position count is at least `MAX_CONCURRENT_POSITIONS` |
| RiskManager.SnapshotOrder | risk_manager.py:70-73 | some list of the snapshot's tokens, each exactly once |
| RiskManager.UnheldStaysUntouched | risk_manager.py:70-97 | over any run of checks, a token without a position is never changed and never sold |
| RiskManager.OneMissingCheck | risk_manager.py:84-108 | one check without a price adds exactly one miss while below the threshold, keeping position and stop. At the threshold it removes all three. No sell either way |
| RiskManager.MissingPriceRun | risk_manager.py:84-141 | over consecutive checks without a price, the counter equals the number of checks while it stays below 10 and the position is held. Once it reaches 10, position, stop and counter are gone. No sell is ever attempted |
| RiskManager.NoSellWithoutPrice | risk_manager.py:84-88 | a token that gets no price in any check is never sold, held or not |
| RiskManager.MissesBelowThreshold | risk_manager.py:84-108 | while the misses stay below 10, each check without a price adds one miss and keeps the position and its stop |
| RiskManager.MissesReachThreshold | risk_manager.py:84-141 | once the misses reach 10, the position, stop and counter are removed and stay removed |
| RiskManager.SurvivesNineMissesGoneOnTenth | risk_manager.py:99-108 | a fresh position survives 9 missing-price checks and is removed, unsold, on the 10th |
| RiskManager.StopLossRepeatsWhilePositionHeld | risk_manager.py:120-126 | a successful stop-loss leaves the position held, so the next check at the same price sells it again |
| Bot.MarketId | main.py:148 | the market id is a prefix of the condition id of length 10, or the whole id when it is shorter |
| Bot.NoteMarket | main.py:148-155 | a new market id clears all attempt counters and becomes the last id; the same id changes nothing |
| Bot.CheckOpportunity | main.py:143-198 | several facts about one opportunity check. A buy is submitted iff neither token is held, the counter is below 3 and a side triggers. It is for the triggering side's token at 0.97, 5 shares, FOK, never the observed price. No buy leaves trader and risk state unchanged. An unfilled buy leaves the counter one higher. A fill sets the counter to 3 and arms a stop at 0.8 on the bought token |
| Bot.OpportunityUsesBudget | main.py:166-191 | each check either submits nothing or uses at least one unit of the market's remaining attempt budget |
| Bot.RunOpportunities | main.py:143-198 | a run of checks submits at most one buy per check |
| Bot.AtMostMaxAttemptsPerMarket | main.py:166-181 | however many checks of one market run, with any fills and any trader state, at most `MAX_ATTEMPTS_PER_MARKET` buys are submitted for it |
| Bot.ConcurrentCapNotConsulted | main.py:143-198 | with two positions already open (so `can_open_new_position` is false), a triggering market still opens a third |
| Bot.BuildPriceMap | main.py:206-209 | the price map holds exactly the tokens of the listed markets. The last market's prices win, down over up when they share a token |
| Bot.PriceMapLastWriteWins | main.py:206-209 | a token's price comes from the last market that lists it |
| Bot.StopLossPass | main.py:200-219 | the bot's stop-loss pass is the risk manager's check applied to the map built from all current markets' prices |
| Bot.PeriodicRedeem | main.py:221-232 | redeem runs exactly when strictly more than 3600 s have passed since the last check, and then the last check becomes now |
| Bot.RedeemAtMostOncePerInterval | main.py:223-232 | after a redeem, none runs again within the next 3600 s |
| Bot.SleepTime | main.py:113 | the sleep is never negative, never above the poll interval for a non-negative latency, and tops the loop up to exactly the poll interval when it can |
| Clock.Resolve | monitor.py:136-151 | the one-period format applies its AM/PM to both times; the two-period format keeps each time's own |
| Clock.Hour24 | monitor.py:209-219 | AM hours below 12 stay, PM hours below 12 gain 12, and hour 12 becomes 0 in both AM and PM (the noon quirk). The result is a 24-hour hour |
| Clock.MinutesOfDay | monitor.py:153-159 | a clock time's minute of the day is its 24-hour hour times 60 plus its minutes |
| Clock.FifteenMinuteSpanIsModular | monitor.py:153-166 | the duration test (difference, plus a day when negative, equals 15) is exactly "difference mod 1440 is 15" |
| Clock.FivePmIsSeventeen | monitor.py:209-211 | worked example of the conversion: 5PM converts to hour 17 |
| Clock.NoonIsMidnight | monitor.py:209-213 | 12PM and 12AM both convert to hour 0, so 12:00PM is minute 0 of the day |
| Clock.NoonBoundaryMarketsRejected | monitor.py:153-166 | the noon quirk rejects 11:45AM-12:00PM and 12:45PM-1:00PM. It accepts 12:00PM-12:15PM and the midnight-wrapping 11:45PM-12:00AM |
| Monitor.BucketMinute | monitor.py:46-47 | the bucket minute is a multiple of 15, at most the current minute and within 15 of it |
| Monitor.BucketStartIsFloor | monitor.py:46-48 | with a whole-hour time-zone offset, the bucket start is the current epoch second floored to a multiple of 900 |
| Monitor.CandidateSlugs | monitor.py:52-57 | exactly four candidates, at offsets -1, 0, +1, +2 quarter hours (900 s apart), each slug "btc-updown-15m-" followed by its timestamp |
| Monitor.SlugForInjective | monitor.py:55-56 | different timestamps give different slugs |
| Monitor.CandidateSlugsDistinct | monitor.py:52-57 | the four candidate slugs are pairwise different |
| Monitor.EventMarket | monitor.py:72-96 | a slug contributes a market iff its reply has a first event that is active, not closed, has both times with start <= now <= end, and has markets. The market contributed is that event's first |
| Monitor.CollectMarkets | monitor.py:62-100 | the markets found are exactly those the candidates' replies contribute, at most one per candidate |
| Monitor.CollectMarketsAppend | monitor.py:62-100 | collecting over two lists of candidates gives the first list's markets followed by the second's, so each candidate's market sits at its candidate's place and appears once |
| Monitor.CollectMarketsFirst | monitor.py:62-100 | the first market found is the market of the earliest candidate that contributes one; every earlier candidate contributes nothing |
| Monitor.CollectFour | monitor.py:62-100 | over four candidates, the result is the first candidate's market (if any), then the second's, the third's and the fourth's |
| Monitor.GetActiveBtc15MinMarkets | monitor.py:33-107 | the markets of the slugs for the previous, current, next and following quarter hour, in that order, one per contributing slug, so at most four. The first market, which `update_active_markets` locks, comes from the earliest contributing slug |
| Monitor.IsFifteenMinuteDuration | monitor.py:128-166 | no parsed times means false. Otherwise true iff the end is 15 minutes after the start modulo a day, with the single AM/PM applied to both times in the one-period format |
| Monitor.IsBtc15MinMarket | monitor.py:109-126 | defines a live candidate: the lower-cased question mentions bitcoin, up and down, the order book is enabled, the span is 15 minutes and the window contains now |
| Monitor.SecondOfDay | monitor.py:209-236 | a time with valid minutes gives its 24-hour second of the day; minutes of 60 or more fail, as `datetime` does |
| Monitor.QuestionWindow | monitor.py:177-236 | a window exists iff the question's times resolve, a date is known and both minutes are valid. Its start and end are the date's midnight plus each time's 24-hour hour × 3600 + minute × 60, so both lie on that date |
| Monitor.IsMarketActiveNow | monitor.py:168-255 | true iff the question gives a window and now lies within it, both ends included |
| Monitor.NoonWindowIsAtMidnight | monitor.py:209-242 | a 12:00PM-12:15PM market's window is placed at midnight, so it is not active at noon |
| Monitor.ExtractMarketEndTime | monitor.py:396-445 | an end time exists iff the question has an end time with valid minutes and a date. It is that 24-hour time on that date |
| Monitor.SelectTokens | monitor.py:279-292 | fewer than two token ids (or no outcome) gives none. The up index is 0 iff the first outcome lowercases to "up", the down token is at the other index, and distinct ids give distinct tokens |
| Monitor.GetOrderBook | monitor.py:366-393 | a book exists iff the request succeeded, both bids and asks are non-empty, and both first levels' prices convert. Best bid and ask are those prices, and bid + spread = ask |
| Monitor.GetCurrentPrices | monitor.py:257-328 | the tokens are the selected pair. Both midpoints are used when both exist, and then a result always exists. Otherwise the outcome prices at the selected indices are used: a result exists whenever there are two of them and both convert, and only then. Buy and sell prices are the up book's ask and bid when there is a book |
| Monitor.UpdateActiveMarkets | monitor.py:447-493 | while now is before the locked end time, the locked market alone is active and no search runs. Otherwise a search runs: it locks onto its first result with that market's end time, or clears the lock when nothing is found |
| Monitor.IsCurrentMarketStillActive | monitor.py:447-456 | defines the lock test: a market and its end time are both set and now is strictly before the end. `Monitor.UpdateActiveMarkets` and `Monitor.LockHoldsUntilEnd` are stated in its terms |
| Monitor.LockHoldsUntilEnd | monitor.py:447-472 | after locking onto a market with an end time, every update before that end time returns the same market without searching |
| WsMonitor.ProcessEvent | ws_monitor.py:181-208 | only a `last_trade_price` event with non-empty asset and price writes the table. It maps exactly that asset to the parsed price, and notifies exactly when the stored value changes. Other events change nothing, and an unparsable price raises |
| WsMonitor.ProcessItems | ws_monitor.py:170-173 | processing a list's elements changes only the price table |
| WsMonitor.HandleMessage | ws_monitor.py:158-179 | invalid JSON changes nothing. Any other message bumps the message count. A non-list, non-object value changes nothing else. An object that does not raise is handled by `ProcessEvent`: a trade event sets its token's price and every other token keeps its price. For a list whose elements do not raise, each token ends with the price of the last trade event for it, or its old price when there is none |
| WsMonitor.ProcessItemsLastWriteWins | ws_monitor.py:170-193 | after a list message that raises nowhere, each token's price is its last trade price in the list, or its old price when the list has none |
| WsMonitor.RaiseDropsRest | ws_monitor.py:170-179 | an element that raises ends the message: the elements after it are never processed |
| WsMonitor.GetPrices | ws_monitor.py:249-251 | exactly the requested ids present in the table, with their table prices |
| WsMonitor.RemoveFirst | ws_monitor.py:116-117 | `list.remove` drops one occurrence when present and nothing otherwise; on a duplicate-free list, exactly that token goes |
| WsMonitor.Subscribe | ws_monitor.py:70-100 | when connected and the send succeeds, the subscribed list becomes the given ids; otherwise nothing changes |
| WsMonitor.RemoveEach | ws_monitor.py:115-119 | every given id is dropped from the table, and from a duplicate-free subscribed list, with everything else kept |
| WsMonitor.Unsubscribe | ws_monitor.py:102-122 | when disconnected or the send fails, nothing changes. Otherwise the given ids leave both the subscribed list and the price table, and nothing else is removed |
| WsMonitor.UnsubscribeAllClearsSubscription | ws_monitor.py:102-122 | unsubscribing a copy of the whole subscribed list leaves no token subscribed and none of them priced |
| WsMonitor.IterRemove | ws_monitor.py:115-119 | removing from the list being iterated never grows it |
| WsMonitor.UnsubscribeOwnList | ws_monitor.py:115-119 | passing the subscription list itself: when disconnected or the send fails nothing changes. On a repeat-free list, exactly the odd-positioned tokens stay subscribed, the even-positioned ones lose their prices and the odd-positioned ones keep theirs. No price is ever added or changed |
| WsMonitor.RemoveFirstSkipsPrefix | ws_monitor.py:116-117 | removing a token that is not in a prefix only touches the suffix |
| WsMonitor.IterRemoveStep | ws_monitor.py:115-119 | one loop step removes the current element and moves the iterator past the next one |
| WsMonitor.IterRemoveKeepsOdds | ws_monitor.py:115-119 | iterating over the subscribed list while removing from it removes exactly the even-indexed tokens. The odd-indexed ones stay subscribed and keep their prices |
| WsMonitor.EvenSetByIndex | ws_monitor.py:115-119 | on a list without repeats, a token is among the removed ones exactly when it sits at an even position |
| WsMonitor.OwnListWalk | ws_monitor.py:115-119 | the self-referential walk over the whole list leaves the odd-positioned tokens and drops the even-positioned ones from the table |
| WsMonitor.OwnListUnsubscribeLeavesStalePrice | ws_monitor.py:287-288 | with old tokens [a, b], unsubscribing the list itself leaves b subscribed with its old price, while unsubscribing a copy removes both |
| WsMonitor.DelayAfter | ws_monitor.py:225-229 | after any failed attempt the doubled delay is at most 30 s |
| WsMonitor.DelayAfterBounds | ws_monitor.py:225-229 | from a delay in [1, 30] the delay stays in [1, 30], and after 5 failures it is pinned at 30 |
| WsMonitor.Connect | ws_monitor.py:52-68 | a successful connect resets the delay to 1 s; a failed one keeps it. Table and subscriptions are unchanged |
| WsMonitor.Reconnect | ws_monitor.py:211-229 | attempts stop at the first success, which resets the delay to 1 s. The i-th sleep is the starting delay doubled i times, capped at 30. All-failed attempts leave it disconnected with the fully doubled delay |
| WsMonitor.HybridGetPrices | ws_monitor.py:321-339 | a result exists iff both current tokens are set and priced. It then has exactly those two keys with their table prices |
| WsMonitor.GetPricesWithFallback | ws_monitor.py:341-358 | the WebSocket pair when available, else the HTTP answer when both tokens are set, else nothing |
| WsMonitor.SubscribeToMarket | ws_monitor.py:281-319 | as written: the new tokens become current and, when the subscribe is sent, the whole subscription. Of the previous tokens only the even-positioned ones lose their prices; the odd-positioned ones keep theirs and stay subscribed when the subscribe fails. Other prices are untouched. The HTTP seed writes both new tokens from one reply or neither |
| WsMonitor.SeedPrices | ws_monitor.py:307-317 | a table holding both new prices is left alone. Otherwise both are written from one HTTP reply that has both, or neither is written. No other token's price changes |
| WsMonitor.SubscribeToMarketIntended | ws_monitor.py:281-319 | as evidently intended, unsubscribing a copy of the list: every previous token other than the new pair loses its price. Otherwise as `WsMonitor.SubscribeToMarket` |
| WsMonitor.MarketSwitchLeavesStalePrice | ws_monitor.py:287-288 | leaving a market subscribed as [a, b]: as written, b keeps its old price in the table; with the intended unsubscribe, b has no price |
| WsMonitor.SeededMarketIsReadable | ws_monitor.py:308-339 | after a successful HTTP seed, the hybrid read returns both new tokens |
| Collector.StartMarket | data_collector.py:78-101 | a new market with no snapshots and no winner is installed, and the record timer restarts at 0 |
| Collector.RecordPrice | data_collector.py:105-130 | without a market, false and no change. A snapshot is appended (exactly one, at the end, with the given prices) and the timer set to now iff at least 1 s has passed. Otherwise nothing changes |
| Collector.HasActiveMarket | data_collector.py:199-201 | defines collecting: a current market is set. `Collector.RecordPrice` does nothing without one |
| Collector.StartMarketIsSpaced | data_collector.py:92-101 | a newly started market satisfies the spacing invariant |
| Collector.RecordPriceKeepsSpacing | data_collector.py:114-130 | recording keeps consecutive snapshot times at least 1 s apart, with the timer at the last one |
| Collector.GetSnapshotCount | data_collector.py:193-197 | the count is 0 without a market |
| Collector.PayloadSnapshots | data_collector.py:160-168 | the payload lists the snapshots in recording order with unchanged times and prices |
| Collector.SaveMarket | data_collector.py:132-191 | without a market or snapshots, nothing is posted and false is returned. Otherwise the payload carries the market's condition id, question, start and end times, both token ids and the given winner, with every snapshot's time and prices in order. Success, clearing the market, happens exactly on a 200 reply with `snapshots_saved`. Any other outcome keeps the market (with the winner noted) and returns false |
| Collector.FailedSaveCanBeRetried | data_collector.py:175-191 | after a failed save, a second save posts the same payload and succeeds exactly when its reply does |
| OverbettedApi.IsFifteenMinuteDuration | overbetted_test/api.py:118-144 | needs AM/PM after both times, then accepts iff the end is 15 minutes after the start modulo a day |
| OverbettedApi.IsValidBtc15MinMarket | overbetted_test/api.py:80-115 | defines a valid historical market: the lower-cased question mentions bitcoin, up and down, the order book is enabled, the outcome prices decode and contain "1", and the span is 15 minutes |
| OverbettedApi.AgreesWithMonitor | overbetted_test/api.py:118-144 | agrees with the live monitor's check on two-period questions. The monitor alone accepts the one-period form "3:00-3:15PM" |
| OverbettedApi.IndexOf | overbetted_test/api.py:194 | the first index of the value, or -1 exactly when it is absent |
| OverbettedApi.ParseMarketData | overbetted_test/api.py:165-205 | fails iff a decode or the volume conversion fails. The winner index is the first '1' in the prices, else -1. The loser index is 1 − winner, or -1 without a winner. Each name is the outcome at that index when in range, else 'Unknown' |
| OverbettedApi.ValidMarketHasWinner | overbetted_test/api.py:194-202 | a market that passes the validity filter always has a winner, and with two outcomes the winner and loser are the two names |
| OverbettedApi.WinnerPastSecondHasNoLoser | overbetted_test/api.py:194-202 | a winner at index 2 gives loser index -1, named 'Unknown' |
| OverbettedApi.GetBtc15MinMarkets | overbetted_test/api.py:12-77 | the result is exactly the first `max_markets` of the valid markets of the fetched pages, in page order, where fetching stops at the first failed or empty page or after 10 requests (`OverbettedApi.AllValid`). The number of requests is `OverbettedApi.RequestsFrom`: one per page until the loop stops or `max_markets` markets are held. Offsets are 0, 100, 200, …, and every returned market is valid |
| OverbettedApi.ScanPage | overbetted_test/api.py:55-61 | after one page, the held markets are the first `max_markets` of the earlier ones followed by the page's valid markets in page order |
| OverbettedApi.FetchFrom | overbetted_test/api.py:30-71 | from any batch reached by the loop, the markets kept and the requests made are those of the whole fetch |
| OverbettedApi.FetchStep | overbetted_test/api.py:30-61 | a non-empty page with room left leads to the next batch with that page's valid markets appended |
| OverbettedApi.FetchStop | overbetted_test/api.py:44-51 | a failed or empty page is the last request, and the markets held are the final result |
| OverbettedApi.FetchFull | overbetted_test/api.py:30-32 | once `max_markets` markets are held, no further request is made and the result is complete |
| OverbettedApi.OffsetsUpTo | overbetted_test/api.py:34 | the n-th request is at offset n × 100 |
| Analysis.Prices | overbetted_test/analysis.py:78-79 | a price is extracted iff some history point carries it, and extraction fails iff some carried price does not convert |
| Analysis.PricesAppend | overbetted_test/analysis.py:78-79 | extracting from two pieces of a history and joining the results is extracting from the whole, so the prices come out in history order |
| Analysis.MaxOrDefault | overbetted_test/analysis.py:81-87 | a side without prices counts as 0.5; otherwise the maximum of its prices |
| Analysis.NoDupOccursAtMostOnce | overbetted_test/analysis.py:90 | a threshold listed once is tallied at most once per market |
| Analysis.StepTally | overbetted_test/analysis.py:90-113 | for one threshold, `reached` goes up iff either side's maximum reaches it, and `collapsed` iff a reaching side lost. Other thresholds are untouched |
| Analysis.StepExamples | overbetted_test/analysis.py:115-116 | a collapse stores an example only while the threshold has fewer than 10; other thresholds' examples are untouched |
| Analysis.TallyLoop | overbetted_test/analysis.py:90-113 | after all thresholds, each listed threshold's reached and collapsed counts have grown by its outcome times its number of listings. Every other threshold's entry is untouched |
| Analysis.TalliedCompose | overbetted_test/analysis.py:90-113 | tallying one threshold and then the rest gives the tally of the whole list |
| Analysis.TalliedGrowth | overbetted_test/analysis.py:90-113 | tallying never lowers a count, adds no more collapses than reaches, and adds at most one reach per listing |
| Analysis.ExampleLoop | overbetted_test/analysis.py:90-124 | no threshold that had at most 10 examples exceeds 10 after the loop |
| Analysis.ProcessMarket | overbetted_test/analysis.py:54-135 | a market without a winner or two tokens changes nothing. A counted market adds one up win iff "Up" won, and one down win iff "Down" won. It adds one to the history count iff either history is non-empty. When both histories convert, every listed threshold is tallied against the two maxima and the winner (`Tallied`); otherwise tallies and examples are unchanged. Collapses never outgrow reaches |
| Analysis.ExtendCounts | overbetted_test/analysis.py:54-113 | the reference counts of a list with one more market grow by that market's own win, history, reach and collapse |
| Analysis.TallyAtStep | overbetted_test/analysis.py:90-113 | one market adds its number of listings to a threshold's reach count when it reaches the threshold, and as much to the collapse count when the reaching side lost |
| Analysis.MarketStep | overbetted_test/analysis.py:54-113 | one market's additions keep the results equal to the reference counts of the markets so far |
| Analysis.MatchesStep | overbetted_test/analysis.py:54-113 | processing one more market keeps the results equal to the reference counts |
| Analysis.BoundedStep | overbetted_test/analysis.py:54-124 | processing one more market keeps the bounds: wins and history within the market count, collapses within reaches, at most 10 examples per threshold |
| Analysis.ProgressEnd | overbetted_test/analysis.py:54-113 | the loop's invariant gives each count as its reference count |
| Analysis.CollapseRate | overbetted_test/analysis.py:137-142 | the rate is collapsed/reached, 0 when nothing reached, and lies in [0, 1] |
| Analysis.AnalyzeCollapses | overbetted_test/analysis.py:11-144 | the up wins, down wins and markets with history are the numbers of counted markets won by Up, won by Down and with some history. Each threshold's reached and collapsed counts are the numbers of markets reaching it and collapsing at it, times its number of listings. Also up wins + down wins <= total markets, collapsed <= reached, reached <= markets with history when thresholds are distinct, at most 10 examples per threshold, and every rate in [0, 1] |
| TradeHistory.FilterBtcTrades | trade_history.py:45-52 | keeps exactly the trades whose outcome is "Up" or "Down" |
| TradeHistory.FilterDistributes | trade_history.py:45-52 | filtering a concatenation filters each part and keeps their order |
| TradeHistory.FilterIdempotent | trade_history.py:45-52 | filtering twice is filtering once |
| TradeHistory.CountsWithinLength | trade_history.py:74-87 | buy count + sell count never exceeds the number of trades |
| TradeHistory.CalculateTotals | trade_history.py:65-97 | fails iff some price or size does not convert. Otherwise the counts, USD totals (Σ price·size) and volumes (Σ size) are those of the BUY and SELL trades, net P&L = sells − buys, and an empty list gives all zeros |
| Text.DecimalRoundTrip | monitor.py:55 | rendering a natural number in decimal and reading it back gives the number |
| Text.IntRoundTrip | monitor.py:55 | rendering an integer (`str(timestamp)`) and parsing it back gives the integer |
| Text.IntToDecimalInjective | monitor.py:55 | different integers render differently |

## Left out

- Network I/O, WebSocket receive/ping loops (`listen`), asyncio tasks, sleeps, thread pools and locks. Their outcomes are parameters.
- Signing and posting through the exchange client. Only the outcome is modelled: truthy, falsy or raised.
- `PreSignedOrderCache`. Its `warm_up` calls `calculate_shares_fast`, which does not exist.
- `execute_presigned_stop_loss` is not defined in trader.py. It is the `sellOk` parameter of the stop-loss check.
- `_trading_iteration`, `get_all_market_prices`, `get_position_summary` and `close`/`shutdown` are left out. They are orchestration and reporting around the modelled pieces; each `Bot.Step` record carries the price data those produce.
- `get_all_positions` is not separately modelled: it returns a copy of the position table, which is the `positions` map itself.
- Time zones, `dateutil` date parsing and the "current year" assumption. The question's date is an input `dayStart` (epoch second of its midnight in ET); events' start/end times are already-parsed epoch seconds.
- Regex matching. Captured groups are datatype fields (`TimeMatch`, `ClockTime`). JSON decodes and `float()` conversions that can raise are `Option` fields.
- Python float arithmetic. Prices are exact `real`s.
- Trader.Round2: rounds halves up, whereas Python's `round` rounds binary floats to even. It is stated only to within half a cent.
- WsMonitor.ProcessEvent: the float equality before notifying is exact `real` equality.
- WsMonitor.SubscribeToMarket: prices arriving over the WebSocket during the 3-second wait (ws_monitor.py:294-306) are not modelled. The table is read once after subscribing, then the HTTP seed applies.
- WsMonitor.Reconnect: the `running` flag is a finite list of attempt outcomes, one per loop pass. Its contract gives each sleep as `DelayAfter` of the starting delay but does not repeat the [1, 30] range, which `WsMonitor.DelayAfterBounds` states for every `DelayAfter` value.
- The analysis printing, the CSV export, the `format_timestamp` and `main` functions, and the CLI scripts are left out. So are chainlink_price.py, redeem.py, auth.py, set_allowances.py and test_order.py, which are thin wrappers over external SDKs.
- Analysis.AnalyzeCollapses: `reached <= markets with history` is stated only for thresholds listed once. A threshold listed twice is counted twice per market, as the source does.
- Analysis.ProcessMarket: an exception mid-market (a price that does not convert) is modelled as skipping the tallies of that market. Wins and the history count already made stay counted.
- Monitor.IsBtc15MinMarket: the live search in `get_active_btc_15min_markets` does not call it, so no operation's contract is stated in its terms.
- Text.Lower: lower-cases ASCII letters only. Python's `str.lower` is Unicode-aware and can change a string's length; the questions and outcome names the model compares are ASCII.
- Collector.RecordPrice: one `now` stands for both `time.time()` in the rate-limit test (data_collector.py:114) and `datetime.now()` in the snapshot timestamp (data_collector.py:122). The two clocks are read microseconds apart; `Collector.RecordPriceKeepsSpacing` relies on their being the same instant.
- Collector.GetSnapshotCount: besides the no-market case, the count is the snapshot list's length, which is its definition.

## Findings

| source | as written | input that shows it | evidently intended | confidence | as-written member | corrected member |
|---|---|---|---|---|---|---|
| ws_monitor.py:287-288 with 115-119 | `subscribe_to_market` passes `self.ws_monitor.subscribed_tokens` itself to `unsubscribe`. That method removes each token from the same list while iterating over it, so the iteration skips every element after a removed one. Only the even-indexed tokens leave the list and the price table | previous subscription [old_up, old_down] with both priced: old_down keeps its stale price in `prices` for good. It also stays in `subscribed_tokens` until the following `subscribe([up, down])` succeeds and replaces the list | unsubscribe every previous token, as when a copy of the list is passed | not executed; high (list mutation during iteration is defined behaviour in Python) | WsMonitor.SubscribeToMarket, built on WsMonitor.UnsubscribeOwnList (shown by WsMonitor.MarketSwitchLeavesStalePrice, WsMonitor.OwnListUnsubscribeLeavesStalePrice and WsMonitor.IterRemoveKeepsOdds) | WsMonitor.SubscribeToMarketIntended, built on WsMonitor.Unsubscribe applied to a copy (WsMonitor.UnsubscribeAllClearsSubscription) |

=== FILE: analysis.dfy ===
/** The counting core of `analyze_collapses` (overbetted_test/analysis.py): per market, the
    win tallies, whether either side's price history reached each threshold, and whether the
    side that reached it went on to lose (a "collapse").

    The two price histories of each market are inputs (an empty list when the request
    failed); printing and the rate-limit sleep are left out. */
module Analysis {
  import opened Wrappers
  import opened Collections
  import opened Text
  import opened OverbettedApi

  /** One point of a price history: without a `p` key, or with one whose `float()` gives a
      value (`None` when it raises). */
  datatype HistoryPoint = NoPrice | Price(value: Option<real>)

  datatype MarketInput = MarketInput(market: ApiMarket, upHistory: seq<HistoryPoint>, downHistory: seq<HistoryPoint>)

  datatype Tally = Tally(reached: nat, collapsed: nat)

  datatype Example = Example(question: string, threshold: real, collapseSide: string,
                             maxPrice: real, winner: string, volume: real)

  datatype Results = Results(
    totalMarkets: nat, withHistory: nat, upWins: nat, downWins: nat,
    tallies: map<real, Tally>, examples: seq<Example>)

  const MaxExamplesPerThreshold: nat := 10
  const NoHistoryPrice: real := 0.5

  /** The prices of the points that carry a `p`; `None` when one of them does not convert. */
  function Prices(h: seq<HistoryPoint>): (r: Option<seq<real>>)
    ensures r.Some? ==> |r.value| <= |h|
    ensures r.None? <==> exists i :: 0 <= i < |h| && h[i] == Price(None)
    ensures r.Some? ==> forall p :: p in r.value <==> exists i :: 0 <= i < |h| && h[i] == Price(Some(p))
  {
    if |h| == 0 then Some([])
    else
      var rest := Prices(h[1..]);
      assert forall i :: 0 < i < |h| ==> h[1..][i - 1] == h[i];
      assert forall p :: (exists i :: 0 <= i < |h| && h[i] == Price(Some(p)))
                         <==> h[0] == Price(Some(p)) || exists i :: 0 <= i < |h[1..]| && h[1..][i] == Price(Some(p)) by {
        forall p ensures (exists i :: 0 <= i < |h| && h[i] == Price(Some(p)))
                         <==> h[0] == Price(Some(p)) || exists i :: 0 <= i < |h[1..]| && h[1..][i] == Price(Some(p)) {
          if exists i :: 0 <= i < |h| && h[i] == Price(Some(p)) {
            var i :| 0 <= i < |h| && h[i] == Price(Some(p));
            if i > 0 { assert h[1..][i - 1] == Price(Some(p)); }
          }
        }
      }
      match h[0]
      case NoPrice => rest
      case Price(None) => None
      case Price(Some(p)) => if rest.None? then None else Some([p] + rest.value)
  }

  /** Extracting prices from two pieces of a history and joining them is extracting from
      the whole history: the prices come out in history order. */
  lemma {:induction false} PricesAppend(a: seq<HistoryPoint>, b: seq<HistoryPoint>)
    ensures Prices(a + b)
            == if Prices(a).Some? && Prices(b).Some? then Some(Prices(a).value + Prices(b).value) else None
  {
    if |a| == 0 {
      assert a + b == b;
      if Prices(b).Some? {
        assert Prices(a).value + Prices(b).value == Prices(b).value;
      }
    } else {
      assert (a + b)[1..] == a[1..] + b;
      assert (a + b)[0] == a[0];
      PricesAppend(a[1..], b);
      match a[0]
      case NoPrice =>
      case Price(None) =>
      case Price(Some(p)) =>
        if Prices(a[1..]).Some? && Prices(b).Some? {
          assert [p] + Prices(a[1..]).value + Prices(b).value == [p] + (Prices(a[1..]).value + Prices(b).value);
        }
    }
  }

  /** `max(prices)`, with 0.5 standing in for a side with no price points. */
  function MaxOrDefault(ps: seq<real>): (r: real)
    ensures |ps| == 0 ==> r == NoHistoryPrice
    ensures |ps| > 0 ==> r in ps && forall p :: p in ps ==> p <= r
  {
    if |ps| == 0 then NoHistoryPrice
    else if |ps| == 1 then ps[0]
    else
      var m := MaxOrDefault(ps[1..]);
      assert forall p :: p in ps ==> p == ps[0] || p in ps[1..];
      if ps[0] >= m then ps[0] else m
  }

  function TallyOf(m: map<real, Tally>, t: real): Tally {
    if t in m then m[t] else Tally(0, 0)
  }

  /** Occurrences of `t` in `ts`. */
  function Occurrences(ts: seq<real>, t: real): (r: nat)
    ensures r <= |ts|
    ensures t !in ts ==> r == 0
  {
    if |ts| == 0 then 0 else (if ts[0] == t then 1 else 0) + Occurrences(ts[1..], t)
  }

  lemma {:induction false} NoDupOccursAtMostOnce(ts: seq<real>, t: real)
    requires NoDup(ts)
    ensures Occurrences(ts, t) <= 1
  {
    if |ts| > 0 {
      assert NoDup(ts[1..]);
      NoDupOccursAtMostOnce(ts[1..], t);
      if ts[0] == t {
        assert t !in ts[1..];
      }
    }
  }

  /** The stored examples for threshold `t`. */
  function ExamplesFor(ex: seq<Example>, t: real): (r: nat)
    ensures r <= |ex|
  {
    if |ex| == 0 then 0 else ExamplesFor(ex[..|ex| - 1], t) + (if ex[|ex| - 1].threshold == t then 1 else 0)
  }

  /** Whether the side that reached `t` lost: the up side when it reached `t` and "Down"
      won, else the down side when it reached `t` and "Up" won. */
  predicate Reached(upMax: real, downMax: real, t: real) {
    upMax >= t || downMax >= t
  }

  predicate Collapsed(upMax: real, downMax: real, t: real, winner: string) {
    (upMax >= t && winner == "Down") || (downMax >= t && winner == "Up")
  }

  /** One threshold's tally update: reached, and collapsed when the reaching side lost. */
  function StepTally(tallies: map<real, Tally>, t: real, upMax: real, downMax: real, winner: string): (r: map<real, Tally>)
    ensures r.Keys == tallies.Keys + {t}
    ensures TallyOf(r, t).reached == TallyOf(tallies, t).reached + (if Reached(upMax, downMax, t) then 1 else 0)
    ensures TallyOf(r, t).collapsed == TallyOf(tallies, t).collapsed + (if Collapsed(upMax, downMax, t, winner) then 1 else 0)
    ensures forall u :: u != t ==> TallyOf(r, u) == TallyOf(tallies, u)
  {
    var before := TallyOf(tallies, t);
    var reached := Reached(upMax, downMax, t);
    var collapse := reached && Collapsed(upMax, downMax, t, winner);
    tallies[t := Tally(before.reached + (if reached then 1 else 0), before.collapsed + (if collapse then 1 else 0))]
  }

  /** One threshold's example: stored only for a collapse, and only while fewer than ten
      are stored for that threshold. */
  function StepExamples(ex: seq<Example>, t: real, upMax: real, downMax: real, d: ParsedMarket): (r: seq<Example>)
    ensures ExamplesFor(ex, t) <= MaxExamplesPerThreshold ==> ExamplesFor(r, t) <= MaxExamplesPerThreshold
    ensures forall u :: u != t ==> ExamplesFor(r, u) == ExamplesFor(ex, u)
    ensures Collapsed(upMax, downMax, t, d.winner) && ExamplesFor(ex, t) < MaxExamplesPerThreshold ==>
              ExamplesFor(r, t) == ExamplesFor(ex, t) + 1
  {
    if Collapsed(upMax, downMax, t, d.winner) && ExamplesFor(ex, t) < MaxExamplesPerThreshold then
      var upSide := upMax >= t && d.winner == "Down";
      var r := ex + [Example(Prefix(d.question, 60), t, if upSide then "Up" else "Down",
                             if upSide then upMax else downMax, d.winner, d.volume)];
      assert r[..|r| - 1] == ex;
      r
    else ex
  }

  /** `after` is `before` with every threshold listed in `ts` tallied once per listing:
      reached when either side's maximum reaches it, collapsed when a reaching side lost. */
  ghost predicate Tallied(before: map<real, Tally>, after: map<real, Tally>, ts: seq<real>,
                          upMax: real, downMax: real, winner: string) {
    && after.Keys == before.Keys + (set t | t in ts)
    && forall t :: t in after ==>
         && TallyOf(after, t).reached == TallyOf(before, t).reached + (if Reached(upMax, downMax, t) then Occurrences(ts, t) else 0)
         && TallyOf(after, t).collapsed == TallyOf(before, t).collapsed + (if Collapsed(upMax, downMax, t, winner) then Occurrences(ts, t) else 0)
  }

  lemma StepTallied(tallies: map<real, Tally>, t0: real, upMax: real, downMax: real, winner: string)
    ensures Tallied(tallies, StepTally(tallies, t0, upMax, downMax, winner), [t0], upMax, downMax, winner)
  {
    assert forall t :: Occurrences([t0], t) == if t == t0 then 1 else 0 by {
      assert [t0][1..] == [];
    }
    assert (set t | t in [t0]) == {t0};
  }

  /** Tallying one threshold and then the rest is tallying them all. */
  lemma TalliedCompose(a: map<real, Tally>, b: map<real, Tally>, c: map<real, Tally>, t0: real, rest: seq<real>,
                       upMax: real, downMax: real, winner: string)
    requires Tallied(a, b, [t0], upMax, downMax, winner)
    requires Tallied(b, c, rest, upMax, downMax, winner)
    ensures Tallied(a, c, [t0] + rest, upMax, downMax, winner)
  {
    var ts := [t0] + rest;
    assert ts[1..] == rest && [t0][1..] == [];
    assert (set t | t in ts) == (set t | t in [t0]) + (set t | t in rest);
    forall t | t in c
      ensures TallyOf(c, t).reached == TallyOf(a, t).reached + (if Reached(upMax, downMax, t) then Occurrences(ts, t) else 0)
      ensures TallyOf(c, t).collapsed == TallyOf(a, t).collapsed + (if Collapsed(upMax, downMax, t, winner) then Occurrences(ts, t) else 0)
    {
      assert Occurrences(ts, t) == Occurrences([t0], t) + Occurrences(rest, t);
      if t !in b {
        assert t in rest && t !in [t0];
      }
    }
  }

  /** Tallying never lowers a count, adds no more collapses than reaches, and adds at most
      one reach per listing of the threshold. */
  lemma TalliedGrowth(before: map<real, Tally>, after: map<real, Tally>, ts: seq<real>,
                      upMax: real, downMax: real, winner: string)
    requires Tallied(before, after, ts, upMax, downMax, winner)
    ensures forall t :: t in after ==>
              && TallyOf(before, t).reached <= TallyOf(after, t).reached
              && TallyOf(after, t).collapsed - TallyOf(before, t).collapsed
                 <= TallyOf(after, t).reached - TallyOf(before, t).reached
              && TallyOf(after, t).reached - TallyOf(before, t).reached <= Occurrences(ts, t)
  {
  }

  /** The tally half of the threshold loop for one market, over `ts` in order. The loop's
      tally and example updates read nothing of each other, so they are two folds here. */
  function TallyLoop(tallies: map<real, Tally>, ts: seq<real>, upMax: real, downMax: real, winner: string): (r: map<real, Tally>)
    ensures Tallied(tallies, r, ts, upMax, downMax, winner)
    decreases |ts|
  {
    if |ts| == 0 then
      assert (set t | t in ts) == {};
      tallies
    else
      var mid := StepTally(tallies, ts[0], upMax, downMax, winner);
      StepTallied(tallies, ts[0], upMax, downMax, winner);
      var r := TallyLoop(mid, ts[1..], upMax, downMax, winner);
      TalliedCompose(tallies, mid, r, ts[0], ts[1..], upMax, downMax, winner);
      assert [ts[0]] + ts[1..] == ts;
      r
  }

  /** The example half of the threshold loop for one market. */
  function ExampleLoop(ex: seq<Example>, ts: seq<real>, upMax: real, downMax: real, d: ParsedMarket): (r: seq<Example>)
    ensures forall t :: ExamplesFor(ex, t) <= MaxExamplesPerThreshold ==> ExamplesFor(r, t) <= MaxExamplesPerThreshold
    decreases |ts|
  {
    if |ts| == 0 then ex
    else ExampleLoop(StepExamples(ex, ts[0], upMax, downMax, d), ts[1..], upMax, downMax, d)
  }

  /** The parsed market when it takes part in the analysis: it parses, has a winner and
      has at least two tokens. */
  function Counted(input: MarketInput): Option<ParsedMarket> {
    var d := ParseMarketData(input.market);
    if d.Some? && d.value.winnerIdx >= 0 && |d.value.tokenIds| >= 2 then d else None
  }

  /** A counted market won by `side`. */
  predicate WonBy(input: MarketInput, side: string) {
    Counted(input).Some? && Counted(input).value.winner == side
  }

  /** A counted market with at least one non-empty price history. */
  predicate HasHistory(input: MarketInput) {
    Counted(input).Some? && (|input.upHistory| > 0 || |input.downHistory| > 0)
  }

  /** The two maxima the threshold loop compares, for a market whose histories all convert. */
  function Maxima(input: MarketInput): Option<(real, real)> {
    if HasHistory(input) && Prices(input.upHistory).Some? && Prices(input.downHistory).Some?
    then Some((MaxOrDefault(Prices(input.upHistory).value), MaxOrDefault(Prices(input.downHistory).value)))
    else None
  }

  predicate ReachesIn(input: MarketInput, t: real) {
    Maxima(input).Some? && Reached(Maxima(input).value.0, Maxima(input).value.1, t)
  }

  predicate CollapsesIn(input: MarketInput, t: real) {
    Maxima(input).Some? && Collapsed(Maxima(input).value.0, Maxima(input).value.1, t, Counted(input).value.winner)
  }

  /** Reference counts over a list of markets, each market counted on its own. */
  function CountWins(ms: seq<MarketInput>, side: string): (r: nat)
    ensures r <= |ms|
  {
    if |ms| == 0 then 0 else CountWins(ms[..|ms| - 1], side) + (if WonBy(ms[|ms| - 1], side) then 1 else 0)
  }

  function CountHistory(ms: seq<MarketInput>): (r: nat)
    ensures r <= |ms|
  {
    if |ms| == 0 then 0 else CountHistory(ms[..|ms| - 1]) + (if HasHistory(ms[|ms| - 1]) then 1 else 0)
  }

  function CountReaching(ms: seq<MarketInput>, t: real): (r: nat)
    ensures r <= |ms|
  {
    if |ms| == 0 then 0 else CountReaching(ms[..|ms| - 1], t) + (if ReachesIn(ms[|ms| - 1], t) then 1 else 0)
  }

  function CountCollapsing(ms: seq<MarketInput>, t: real): (r: nat)
    ensures r <= |ms|
  {
    if |ms| == 0 then 0 else CountCollapsing(ms[..|ms| - 1], t) + (if CollapsesIn(ms[|ms| - 1], t) then 1 else 0)
  }

  /** `res` holds exactly the reference counts of `ms`, each threshold counted once per
      listing in `ts`. */
  ghost predicate Matches(res: Results, ms: seq<MarketInput>, ts: seq<real>) {
    && res.upWins == CountWins(ms, "Up") && res.downWins == CountWins(ms, "Down")
    && res.withHistory == CountHistory(ms)
    && forall t :: t in ts ==>
         && TallyOf(res.tallies, t).reached == CountReaching(ms, t) * Occurrences(ts, t)
         && TallyOf(res.tallies, t).collapsed == CountCollapsing(ms, t) * Occurrences(ts, t)
  }

  /** One market of the loop in `analyze_collapses`. A market that does not parse, has no
      winner, or has fewer than two tokens changes nothing; a market with neither history
      only adds to the win tallies; a point that fails to convert stops the market after its
      win and history counts. */
  function ProcessMarket(res: Results, input: MarketInput, ts: seq<real>): (r: Results)
    ensures r.totalMarkets == res.totalMarkets
    ensures r.upWins + r.downWins <= res.upWins + res.downWins + 1
    ensures res.upWins <= r.upWins && res.downWins <= r.downWins
    ensures r.withHistory == res.withHistory || r.withHistory == res.withHistory + 1
    ensures var d := ParseMarketData(input.market);
            d.None? || d.value.winnerIdx < 0 || |d.value.tokenIds| < 2 ==> r == res
    ensures r.tallies.Keys == res.tallies.Keys || r.tallies.Keys == res.tallies.Keys + (set t | t in ts)
    ensures forall t :: t in r.tallies ==>
              && TallyOf(res.tallies, t).reached <= TallyOf(r.tallies, t).reached
              && TallyOf(r.tallies, t).collapsed - TallyOf(res.tallies, t).collapsed
                 <= TallyOf(r.tallies, t).reached - TallyOf(res.tallies, t).reached
              && TallyOf(r.tallies, t).reached - TallyOf(res.tallies, t).reached
                 <= (if r.withHistory == res.withHistory then 0 else Occurrences(ts, t))
    ensures forall t :: ExamplesFor(res.examples, t) <= MaxExamplesPerThreshold ==> ExamplesFor(r.examples, t) <= MaxExamplesPerThreshold
    ensures r.upWins == res.upWins + (if WonBy(input, "Up") then 1 else 0)
    ensures r.downWins == res.downWins + (if WonBy(input, "Down") then 1 else 0)
    ensures r.withHistory == res.withHistory + (if HasHistory(input) then 1 else 0)
    ensures Maxima(input).None? ==> r.tallies == res.tallies && r.examples == res.examples
    ensures Maxima(input).Some? ==>
              Tallied(res.tallies, r.tallies, ts, Maxima(input).value.0, Maxima(input).value.1, Counted(input).value.winner)
  {
    match Counted(input)
    case None => res
    case Some(d) =>
      var res1 := if d.winner == "Up" then res.(upWins := res.upWins + 1)
                  else if d.winner == "Down" then res.(downWins := res.downWins + 1)
                  else res;
      if !HasHistory(input) then res1
      else
        var res2 := res1.(withHistory := res1.withHistory + 1);
        match Maxima(input)
        case None => res2
        case Some((upMax, downMax)) =>
          var tallies := TallyLoop(res2.tallies, ts, upMax, downMax, d.winner);
          TalliedGrowth(res2.tallies, tallies, ts, upMax, downMax, d.winner);
          res2.(tallies := tallies, examples := ExampleLoop(res2.examples, ts, upMax, downMax, d))
  }

  /** A count that is `count` times `o` and grows by `o` on a hit is `count + 1` times `o`. */
  lemma ScaledCountStep(before: nat, after: nat, count: nat, hit: bool, o: nat)
    requires before == count * o
    requires after == before + (if hit then o else 0)
    ensures after == (count + (if hit then 1 else 0)) * o
  {
  }

  /** One market adds `Occurrences(ts, t)` to a listed threshold's reach count when it
      reaches `t`, and as much to its collapse count when it collapses there. */
  lemma TallyAtStep(res: Results, next: Results, input: MarketInput, ts: seq<real>, t: real)
    requires next == ProcessMarket(res, input, ts)
    requires t in ts
    ensures TallyOf(next.tallies, t).reached
            == TallyOf(res.tallies, t).reached + (if ReachesIn(input, t) then Occurrences(ts, t) else 0)
    ensures TallyOf(next.tallies, t).collapsed
            == TallyOf(res.tallies, t).collapsed + (if CollapsesIn(input, t) then Occurrences(ts, t) else 0)
  {
    if Maxima(input).Some? {
      assert t in next.tallies;
    }
  }

  /** The reference counts of a list with one more market. */
  lemma ExtendCounts(ms: seq<MarketInput>, input: MarketInput)
    ensures CountWins(ms + [input], "Up") == CountWins(ms, "Up") + (if WonBy(input, "Up") then 1 else 0)
    ensures CountWins(ms + [input], "Down") == CountWins(ms, "Down") + (if WonBy(input, "Down") then 1 else 0)
    ensures CountHistory(ms + [input]) == CountHistory(ms) + (if HasHistory(input) then 1 else 0)
    ensures forall t :: CountReaching(ms + [input], t) == CountReaching(ms, t) + (if ReachesIn(input, t) then 1 else 0)
    ensures forall t :: CountCollapsing(ms + [input], t) == CountCollapsing(ms, t) + (if CollapsesIn(input, t) then 1 else 0)
  {
    var ms' := ms + [input];
    assert ms'[..|ms'| - 1] == ms && ms'[|ms'| - 1] == input;
  }

  /** One threshold's tally, `o` times its reference counts, stays so after one more market. */
  lemma ThresholdStep(before: Tally, after: Tally, ms: seq<MarketInput>, input: MarketInput, t: real, o: nat)
    requires before.reached == CountReaching(ms, t) * o && before.collapsed == CountCollapsing(ms, t) * o
    requires after.reached == before.reached + (if ReachesIn(input, t) then o else 0)
    requires after.collapsed == before.collapsed + (if CollapsesIn(input, t) then o else 0)
    ensures after.reached == CountReaching(ms + [input], t) * o
    ensures after.collapsed == CountCollapsing(ms + [input], t) * o
  {
    ExtendCounts(ms, input);
    ScaledCountStep(before.reached, after.reached, CountReaching(ms, t), ReachesIn(input, t), o);
    ScaledCountStep(before.collapsed, after.collapsed, CountCollapsing(ms, t), CollapsesIn(input, t), o);
  }

  /** One market's additions to the counts keep the result equal to the reference counts. */
  lemma MarketStep(res: Results, next: Results, ms: seq<MarketInput>, input: MarketInput, ts: seq<real>)
    requires Matches(res, ms, ts)
    requires next.upWins == res.upWins + (if WonBy(input, "Up") then 1 else 0)
    requires next.downWins == res.downWins + (if WonBy(input, "Down") then 1 else 0)
    requires next.withHistory == res.withHistory + (if HasHistory(input) then 1 else 0)
    requires forall t :: t in ts ==>
               && TallyOf(next.tallies, t).reached
                  == TallyOf(res.tallies, t).reached + (if ReachesIn(input, t) then Occurrences(ts, t) else 0)
               && TallyOf(next.tallies, t).collapsed
                  == TallyOf(res.tallies, t).collapsed + (if CollapsesIn(input, t) then Occurrences(ts, t) else 0)
    ensures Matches(next, ms + [input], ts)
  {
    var ms' := ms + [input];
    ExtendCounts(ms, input);
    forall t | t in ts
      ensures TallyOf(next.tallies, t).reached == CountReaching(ms', t) * Occurrences(ts, t)
      ensures TallyOf(next.tallies, t).collapsed == CountCollapsing(ms', t) * Occurrences(ts, t)
    {
      ThresholdStep(TallyOf(res.tallies, t), TallyOf(next.tallies, t), ms, input, t, Occurrences(ts, t));
    }
  }

  /** `collapsed / reached`, or 0 when nothing reached the threshold. */
  function CollapseRate(t: Tally): (r: real)
    ensures t.reached == 0 ==> r == 0.0
    ensures t.reached > 0 ==> r * (t.reached as real) == t.collapsed as real
    ensures t.collapsed <= t.reached ==> 0.0 <= r <= 1.0
  {
    if t.reached > 0 then (t.collapsed as real) / (t.reached as real) else 0.0
  }

  /** The bounds the loop of `analyze_collapses` keeps after `n` markets: on the totals,
      on each threshold's tally, and at most ten examples per threshold. */
  ghost predicate Bounded(res: Results, n: nat, ts: seq<real>) {
    && res.upWins + res.downWins <= n && res.withHistory <= n
    && res.tallies.Keys == (set t | t in ts)
    && (forall t :: t in res.tallies ==> res.tallies[t].collapsed <= res.tallies[t].reached)
    && (NoDup(ts) ==> forall t :: t in res.tallies ==> res.tallies[t].reached <= res.withHistory)
    && (forall t :: ExamplesFor(res.examples, t) <= MaxExamplesPerThreshold)
  }

  /** What the loop keeps after the markets `ms`: the bounds and the reference counts. */
  ghost predicate Progress(res: Results, ms: seq<MarketInput>, ts: seq<real>) {
    Bounded(res, |ms|, ts) && Matches(res, ms, ts)
  }

  lemma ProgressStart(ts: seq<real>, total: nat)
    ensures Progress(Results(total, 0, 0, 0, map t | t in ts :: Tally(0, 0), []), [], ts)
  {
    var res := Results(total, 0, 0, 0, map t | t in ts :: Tally(0, 0), []);
    forall t | t in ts
      ensures TallyOf(res.tallies, t).reached == CountReaching([], t) * Occurrences(ts, t)
      ensures TallyOf(res.tallies, t).collapsed == CountCollapsing([], t) * Occurrences(ts, t)
    {
    }
  }

  /** One more market keeps the bounds. */
  lemma BoundedStep(res: Results, n: nat, input: MarketInput, ts: seq<real>)
    requires Bounded(res, n, ts)
    ensures Bounded(ProcessMarket(res, input, ts), n + 1, ts)
  {
    var next := ProcessMarket(res, input, ts);
    if NoDup(ts) {
      forall t | t in next.tallies ensures next.tallies[t].reached <= next.withHistory {
        NoDupOccursAtMostOnce(ts, t);
        assert TallyOf(res.tallies, t) == res.tallies[t];
        assert TallyOf(next.tallies, t) == next.tallies[t];
      }
    }
    forall t | t in next.tallies ensures next.tallies[t].collapsed <= next.tallies[t].reached {
      assert TallyOf(res.tallies, t) == res.tallies[t];
      assert TallyOf(next.tallies, t) == next.tallies[t];
    }
  }

  /** One more market keeps the reference counts. */
  lemma MatchesStep(res: Results, ms: seq<MarketInput>, input: MarketInput, ts: seq<real>)
    requires Matches(res, ms, ts)
    ensures Matches(ProcessMarket(res, input, ts), ms + [input], ts)
  {
    var next := ProcessMarket(res, input, ts);
    forall t | t in ts
      ensures TallyOf(next.tallies, t).reached
              == TallyOf(res.tallies, t).reached + (if ReachesIn(input, t) then Occurrences(ts, t) else 0)
      ensures TallyOf(next.tallies, t).collapsed
              == TallyOf(res.tallies, t).collapsed + (if CollapsesIn(input, t) then Occurrences(ts, t) else 0)
    {
      TallyAtStep(res, next, input, ts, t);
    }
    MarketStep(res, next, ms, input, ts);
  }

  /** One more market keeps every part of `Progress`. */
  lemma ProgressStep(res: Results, ms: seq<MarketInput>, input: MarketInput, ts: seq<real>)
    requires Progress(res, ms, ts)
    ensures Progress(ProcessMarket(res, input, ts), ms + [input], ts)
  {
    BoundedStep(res, |ms|, input, ts);
    MatchesStep(res, ms, input, ts);
  }

  /** One pass of the market loop, seen through `Progress` only. */
  method NextMarket(res: Results, ms: seq<MarketInput>, input: MarketInput, ts: seq<real>) returns (next: Results)
    requires Progress(res, ms, ts)
    ensures Progress(next, ms + [input], ts)
    ensures next.totalMarkets == res.totalMarkets
  {
    next := ProcessMarket(res, input, ts);
    ProgressStep(res, ms, input, ts);
  }

  /** `Progress` read back as plain statements about the tallies. */
  lemma ProgressEnd(res: Results, ms: seq<MarketInput>, ts: seq<real>)
    requires Progress(res, ms, ts)
    ensures res.upWins == CountWins(ms, "Up") && res.downWins == CountWins(ms, "Down")
    ensures res.withHistory == CountHistory(ms)
    ensures forall t :: t in res.tallies ==>
              && res.tallies[t].reached == CountReaching(ms, t) * Occurrences(ts, t)
              && res.tallies[t].collapsed == CountCollapsing(ms, t) * Occurrences(ts, t)
  {
    forall t | t in res.tallies ensures TallyOf(res.tallies, t) == res.tallies[t] { }
  }

  /** The counting part of `analyze_collapses`, with each threshold's collapse rate. */
  method AnalyzeCollapses(markets: seq<MarketInput>, ts: seq<real>) returns (res: Results, rates: map<real, real>)
    ensures res.totalMarkets == |markets|
    ensures res.upWins + res.downWins <= res.totalMarkets
    ensures res.withHistory <= res.totalMarkets
    ensures res.tallies.Keys == set t | t in ts
    ensures forall t :: t in res.tallies ==> res.tallies[t].collapsed <= res.tallies[t].reached
    ensures NoDup(ts) ==> forall t :: t in res.tallies ==> res.tallies[t].reached <= res.withHistory
    ensures forall t :: ExamplesFor(res.examples, t) <= MaxExamplesPerThreshold
    ensures rates.Keys == res.tallies.Keys
    ensures forall t :: t in rates ==> 0.0 <= rates[t] <= 1.0 && rates[t] == CollapseRate(res.tallies[t])
    ensures res.upWins == CountWins(markets, "Up") && res.downWins == CountWins(markets, "Down")
    ensures res.withHistory == CountHistory(markets)
    ensures forall t :: t in res.tallies ==>
              && res.tallies[t].reached == CountReaching(markets, t) * Occurrences(ts, t)
              && res.tallies[t].collapsed == CountCollapsing(markets, t) * Occurrences(ts, t)
  {
    res := Results(|markets|, 0, 0, 0, map t | t in ts :: Tally(0, 0), []);
    ProgressStart(ts, |markets|);
    var i := 0;
    while i < |markets|
      invariant 0 <= i <= |markets|
      invariant res.totalMarkets == |markets|
      invariant Progress(res, markets[..i], ts)
    {
      res := NextMarket(res, markets[..i], markets[i], ts);
      assert markets[..i] + [markets[i]] == markets[..i + 1];
      i := i + 1;
    }
    assert markets[..i] == markets;
    ProgressEnd(res, markets, ts);
    rates := map t | t in res.tallies :: CollapseRate(res.tallies[t]);
  }
}

=== FILE: bot.dfy ===
/** `FastTradingBot` (main.py): the per-market entry decision with its attempt counters, the
    stop-loss pass over the current prices, the hourly redeem gate and the loop's sleep.

    The redeem call itself and the monitor's price fetch are outside the model; the clock is a
    parameter. */
module Bot {
  import opened Wrappers
  import opened Collections
  import opened Config
  import opened Text
  import opened Trader
  import opened RiskManager
  import opened Monitor

  /** The bot's own state: the last market seen, attempts per market id, and the time of the
      last redeem check. */
  datatype BotState = BotState(lastMarketId: Option<string>, attempts: map<string, nat>, lastRedeemCheck: real)

  const InitialBot: BotState := BotState(None, map[], 0.0)

  /** `redeem_interval`: one hour. */
  const RedeemInterval: real := 3600.0

  /** The market id the bot keys its counters by: the first ten characters of the condition id. */
  function MarketId(conditionId: string): (r: string)
    ensures |r| <= 10 && r <= conditionId
    ensures |r| == if |conditionId| < 10 then |conditionId| else 10
  {
    Prefix(conditionId, 10)
  }

  function AttemptsOf(b: BotState, id: string): nat {
    if id in b.attempts then b.attempts[id] else 0
  }

  /** The arguments of one `place_buy_order` call. */
  datatype BuyCall = BuyCall(token: TokenId, side: Side, price: real, size: real, orderType: OrderType)

  /** The state after one `_check_opportunity`, the buy it submitted (if any) and whether
      that buy filled. */
  datatype Opportunity = Opportunity(bot: BotState, trader: TraderState, risk: RiskState,
                                     call: Option<BuyCall>, filled: bool)

  /** The bot state once the market id has been noted: a new id clears every counter. */
  function NoteMarket(b: BotState, id: string): (r: BotState)
    ensures r.lastMarketId == Some(id)
    ensures b.lastMarketId != Some(id) ==> r.attempts == map[]
    ensures b.lastMarketId == Some(id) ==> r == b
    ensures r.lastRedeemCheck == b.lastRedeemCheck
  {
    if b.lastMarketId != Some(id) then b.(lastMarketId := Some(id), attempts := map[]) else b
  }

  /** `_check_opportunity` for one market's prices. `now`, `tickReply` and `post` are the
      clock and the outcomes of the tick-size lookup and of posting the order. */
  function CheckOpportunity(b: BotState, tr: TraderState, rs: RiskState, pd: PriceData,
                            now: real, tickReply: Option<string>, post: PostOutcome): (r: Opportunity)
    // the market id is noted first, whatever follows
    ensures var id := MarketId(pd.market.conditionId);
            && r.bot.lastMarketId == Some(id)
            && r.bot.lastRedeemCheck == b.lastRedeemCheck
            && (b.lastMarketId != Some(id) ==> r.bot.attempts.Keys <= {id})
            && (b.lastMarketId == Some(id) ==> AgreeExcept(b.attempts, r.bot.attempts, id))
    // the buy is submitted exactly when neither token is held, the counter is below the
    // limit, and a side triggers
    ensures var id := MarketId(pd.market.conditionId);
            var n := AttemptsOf(NoteMarket(b, id), id);
            r.call.Some? <==>
              && pd.upToken !in tr.positions && pd.downToken !in tr.positions
              && n < MaxAttemptsPerMarket
              && GetTradeSide(pd.upPrice, pd.downPrice, TriggerPrice).Some?
    // nothing submitted: counters (past the id note), trader and risk state are untouched
    ensures r.call.None? ==>
              && r.bot == NoteMarket(b, MarketId(pd.market.conditionId))
              && r.trader == tr && r.risk == rs && !r.filled
    // the order is on the triggering side's token, at the fixed entry price and size, FOK
    ensures r.call.Some? ==>
              var side := GetTradeSide(pd.upPrice, pd.downPrice, TriggerPrice).value;
              r.call.value == BuyCall(if side == Up then pd.upToken else pd.downToken, side,
                                      EntryPrice, MaxPositionSize, FOK)
    // a submitted but unfilled order leaves the counter one higher
    ensures var id := MarketId(pd.market.conditionId);
            r.call.Some? && !r.filled ==>
              && AttemptsOf(r.bot, id) == AttemptsOf(NoteMarket(b, id), id) + 1
              && r.risk == rs && r.trader.positions == tr.positions
    // a fill sets the counter to the limit and a stop loss at the configured price
    ensures var id := MarketId(pd.market.conditionId);
            r.filled ==>
              && r.call.Some?
              && AttemptsOf(r.bot, id) == MaxAttemptsPerMarket
              && r.call.value.token in r.trader.positions
              && Lookup(r.risk.stopLosses, r.call.value.token) == Some(StopLossPrice)
              && AgreeExcept(tr.positions, r.trader.positions, r.call.value.token)
    ensures r.filled <==> r.call.Some? && tr.hasClient && post.Posted?
  {
    var id := MarketId(pd.market.conditionId);
    var b1 := NoteMarket(b, id);
    if pd.upToken in tr.positions || pd.downToken in tr.positions then Opportunity(b1, tr, rs, None, false)
    else
      var n := AttemptsOf(b1, id);
      if n >= MaxAttemptsPerMarket then Opportunity(b1, tr, rs, None, false)
      else match GetTradeSide(pd.upPrice, pd.downPrice, TriggerPrice)
        case None => Opportunity(b1, tr, rs, None, false)
        case Some(side) =>
          var token := if side == Up then pd.upToken else pd.downToken;
          var b2 := b1.(attempts := b1.attempts[id := n + 1]);
          var placed := PlaceBuyOrder(tr, token, side, EntryPrice, MaxPositionSize, pd.market.conditionId,
                                      now, FOK, tickReply, post);
          var call := BuyCall(token, side, EntryPrice, MaxPositionSize, FOK);
          if placed.response.Some? then
            var rs1 := if EnableStopLoss then SetStopLoss(rs, token, StopLossPrice) else rs;
            Opportunity(b2.(attempts := b2.attempts[id := MaxAttemptsPerMarket]), placed.trader, rs1, Some(call), true)
          else Opportunity(b2, placed.trader, rs, Some(call), false)
  }

  /** How many more buys the counters allow for market `id`. */
  function Budget(b: BotState, id: string): nat {
    if b.lastMarketId != Some(id) then MaxAttemptsPerMarket
    else if AttemptsOf(b, id) >= MaxAttemptsPerMarket then 0
    else MaxAttemptsPerMarket - AttemptsOf(b, id)
  }

  /** Each check of a market either submits nothing or uses up at least one unit of that
      market's budget, whatever the trader and risk state are. */
  lemma OpportunityUsesBudget(b: BotState, tr: TraderState, rs: RiskState, pd: PriceData,
                              now: real, tickReply: Option<string>, post: PostOutcome)
    ensures var r := CheckOpportunity(b, tr, rs, pd, now, tickReply, post);
            var id := MarketId(pd.market.conditionId);
            (if r.call.Some? then 1 else 0) + Budget(r.bot, id) <= Budget(b, id)
  {
  }

  /** One tick of market data with the outcomes its order call would meet. */
  datatype Step = Step(pd: PriceData, now: real, tickReply: Option<string>, post: PostOutcome)

  datatype Run = Run(bot: BotState, trader: TraderState, risk: RiskState, calls: seq<BuyCall>)

  /** Successive `_check_opportunity` calls. */
  function RunOpportunities(b: BotState, tr: TraderState, rs: RiskState, steps: seq<Step>): (r: Run)
    ensures |r.calls| <= |steps|
    decreases |steps|
  {
    if |steps| == 0 then Run(b, tr, rs, [])
    else
      var s := steps[0];
      var o := CheckOpportunity(b, tr, rs, s.pd, s.now, s.tickReply, s.post);
      var rest := RunOpportunities(o.bot, o.trader, o.risk, steps[1..]);
      Run(rest.bot, rest.trader, rest.risk, (if o.call.Some? then [o.call.value] else []) + rest.calls)
  }

  /** Between resets (every tick is for the same market id), at most
      `MAX_ATTEMPTS_PER_MARKET` buys are submitted, and no more than the counters still allow. */
  lemma {:induction false} AtMostMaxAttemptsPerMarket(b: BotState, tr: TraderState, rs: RiskState,
                                                      steps: seq<Step>, id: string)
    requires forall i :: 0 <= i < |steps| ==> MarketId(steps[i].pd.market.conditionId) == id
    ensures |RunOpportunities(b, tr, rs, steps).calls| <= Budget(b, id) <= MaxAttemptsPerMarket
    decreases |steps|
  {
    if |steps| > 0 {
      var s := steps[0];
      var o := CheckOpportunity(b, tr, rs, s.pd, s.now, s.tickReply, s.post);
      OpportunityUsesBudget(b, tr, rs, s.pd, s.now, s.tickReply, s.post);
      AtMostMaxAttemptsPerMarket(o.bot, o.trader, o.risk, steps[1..], id);
    }
  }

  /** The concurrent-position cap is not consulted: with two unrelated positions already
      held, so that `can_open_new_position` is false, a triggering market still gets a buy,
      and it fills into a third position. */
  lemma ConcurrentCapNotConsulted(pd: PriceData, a: TokenId, c: TokenId, pa: Position, pc: Position)
    requires a != c && pd.upToken != pd.downToken
    requires pd.upToken !in {a, c} && pd.downToken !in {a, c}
    requires pd.upPrice >= TriggerPrice
    ensures var tr := TraderState(true, map[a := pa, c := pc], map[]);
            var r := CheckOpportunity(InitialBot, tr, EmptyRisk, pd, 0.0, None, Posted("ok"));
            && !CanOpenNewPosition(tr)
            && r.filled
            && |r.trader.positions| == 3
  {
    var tr := TraderState(true, map[a := pa, c := pc], map[]);
    assert tr.positions.Keys == {a, c};
    var r := CheckOpportunity(InitialBot, tr, EmptyRisk, pd, 0.0, None, Posted("ok"));
    assert r.trader.positions.Keys == {a, c, pd.upToken};
  }

  /** The token→price map `_check_stop_losses` builds: each entry writes its up price, then
      its down price, and later entries overwrite earlier ones. */
  function BuildPriceMap(ps: seq<PriceData>): (r: map<TokenId, real>)
    ensures forall t :: t in r <==> exists i :: 0 <= i < |ps| && (ps[i].upToken == t || ps[i].downToken == t)
    ensures |ps| > 0 ==> r[ps[|ps| - 1].downToken] == ps[|ps| - 1].downPrice
    ensures |ps| > 0 && ps[|ps| - 1].upToken != ps[|ps| - 1].downToken ==> r[ps[|ps| - 1].upToken] == ps[|ps| - 1].upPrice
  {
    if |ps| == 0 then map[]
    else
      var last := ps[|ps| - 1];
      var front := BuildPriceMap(ps[..|ps| - 1]);
      assert forall i :: 0 <= i < |ps| - 1 ==> ps[..|ps| - 1][i] == ps[i];
      front[last.upToken := last.upPrice][last.downToken := last.downPrice]
  }

  /** Last write wins: a token takes the price from the last entry that mentions it. */
  lemma {:induction false} PriceMapLastWriteWins(ps: seq<PriceData>, i: nat, t: TokenId)
    requires i < |ps|
    requires ps[i].upToken == t || ps[i].downToken == t
    requires forall j :: i < j < |ps| ==> ps[j].upToken != t && ps[j].downToken != t
    ensures t in BuildPriceMap(ps)
    ensures BuildPriceMap(ps)[t] == (if ps[i].downToken == t then ps[i].downPrice else ps[i].upPrice)
  {
    if i < |ps| - 1 {
      var front := ps[..|ps| - 1];
      assert front[i] == ps[i];
      assert forall j :: i < j < |front| ==> front[j] == ps[j];
      PriceMapLastWriteWins(front, i, t);
    }
  }

  /** `_check_stop_losses`: nothing when stop losses are disabled; otherwise the risk
      manager's check over the price map of this tick. */
  function StopLossPass(enabled: bool, tr: TraderState, rs: RiskState, ps: seq<PriceData>,
                        sellOk: set<TokenId>, order: seq<TokenId>): (r: CheckResult)
    requires Enumerates(order, tr.positions.Keys)
    ensures !enabled ==> r == CheckResult(tr, rs, [])
    ensures enabled ==> forall t :: t in tr.positions ==>
              TokenRule(ViewOf(tr, rs, t), ViewOf(r.trader, r.risk, t), Lookup(BuildPriceMap(ps), t),
                        t in sellOk, t in r.sellAttempts)
    ensures forall t :: t in r.sellAttempts ==> t in tr.positions
  {
    if !enabled then CheckResult(tr, rs, [])
    else CheckStopLosses(true, tr, rs, BuildPriceMap(ps), sellOk, order)
  }

  /** `_periodic_redeem`: the redeem runs (second component) only when strictly more than
      an hour has passed since the last check, and the check time then becomes `now`. */
  function PeriodicRedeem(b: BotState, now: real): (r: (BotState, bool))
    ensures r.1 <==> now - b.lastRedeemCheck > RedeemInterval
    ensures r.1 ==> r.0 == b.(lastRedeemCheck := now)
    ensures !r.1 ==> r.0 == b
  {
    if now - b.lastRedeemCheck > RedeemInterval then (b.(lastRedeemCheck := now), true) else (b, false)
  }

  /** After a redeem at `t1`, no redeem runs at any `t2` within the following hour. */
  lemma RedeemAtMostOncePerInterval(b: BotState, t1: real, t2: real)
    requires PeriodicRedeem(b, t1).1
    requires t2 <= t1 + RedeemInterval
    ensures !PeriodicRedeem(PeriodicRedeem(b, t1).0, t2).1
  {
  }

  /** The loop's sleep, `max(0, POLL_INTERVAL - latency)`. */
  function SleepTime(latency: real): (r: real)
    ensures r >= 0.0
    ensures latency >= 0.0 ==> r <= PollInterval
    ensures latency + r >= PollInterval
    ensures latency <= PollInterval ==> latency + r == PollInterval
    ensures latency >= PollInterval ==> r == 0.0
  {
    if PollInterval - latency > 0.0 then PollInterval - latency else 0.0
  }
}

=== FILE: clock.dfy ===
/** Wall-clock times as they appear in market questions ("4:45PM-5:00PM ET"), and the
    12-hour to 24-hour arithmetic that monitor.py and overbetted_test/api.py share. */
module Clock {
  import opened Wrappers

  datatype Period = AM | PM

  /** The captured groups `(\d+):(\d+)(AM|PM)` of one time of day. */
  datatype ClockTime = ClockTime(hour: nat, minute: nat, period: Period)

  /** What the two duration patterns capture from a question: either an AM/PM after
      each time ("3:00PM-3:15PM"), or one AM/PM after the end time only ("3:00-3:15PM").
      The first pattern is tried first. */
  datatype TimeMatch =
    | BothPeriods(start: ClockTime, end: ClockTime)
    | EndPeriodOnly(startHour: nat, startMinute: nat, endHour: nat, endMinute: nat, period: Period)
    | NoMatch

  /** The start and end times a match denotes; with a single AM/PM it applies to both. */
  function Resolve(m: TimeMatch): (r: Option<(ClockTime, ClockTime)>)
    ensures r.None? <==> m.NoMatch?
    ensures m.BothPeriods? ==> r == Some((m.start, m.end))
    ensures m.EndPeriodOnly? ==> r.value.0.period == m.period && r.value.1.period == m.period
    ensures m.EndPeriodOnly? ==> r.value.0.hour == m.startHour && r.value.1.hour == m.endHour
    ensures m.EndPeriodOnly? ==> r.value.0.minute == m.startMinute && r.value.1.minute == m.endMinute
  {
    match m
    case BothPeriods(s, e) => Some((s, e))
    case EndPeriodOnly(sh, sm, eh, em, p) => Some((ClockTime(sh, sm, p), ClockTime(eh, em, p)))
    case NoMatch => None
  }

  /** The 24-hour hour monitor.py computes from a 12-hour hour and its period
      (`h % 12`, plus 12 for PM unless `h` is 12, and 0 for 12AM). As written, 12PM
      also comes out as 0, not 12. */
  function Hour24(hour: nat, period: Period): (h: nat)
    ensures h < 24
    ensures period == AM && hour < 12 ==> h == hour
    ensures period == PM && hour < 12 ==> h == hour + 12
    ensures hour == 12 ==> h == 0
    ensures h % 12 == hour % 12
  {
    var base := hour % 12;
    if period == PM && hour != 12 then base + 12
    else if period == AM && hour == 12 then 0
    else base
  }

  /** Minutes after midnight, computed as the duration checks do: `(h % 12) * 60 + m`,
      plus 720 for PM unless the hour is 12. */
  function MinutesOfDay(t: ClockTime): (r: nat)
    ensures r == Hour24(t.hour, t.period) * 60 + t.minute
  {
    var total := (t.hour % 12) * 60 + t.minute;
    if t.period == PM && t.hour != 12 then total + 12 * 60 else total
  }

  const MinutesPerDay: nat := 24 * 60

  /** `end - start`, wrapped once past midnight when negative. */
  function SpanMinutes(start: ClockTime, end: ClockTime): int
  {
    var d := MinutesOfDay(end) - MinutesOfDay(start);
    if d < 0 then d + MinutesPerDay else d
  }

  /** The duration test of both duration checks: the span is exactly 15 minutes. For
      well-formed minutes this is "(end - start) mod 1440 = 15". */
  predicate IsFifteenMinuteSpan(start: ClockTime, end: ClockTime)
  {
    SpanMinutes(start, end) == 15
  }

  lemma FifteenMinuteSpanIsModular(start: ClockTime, end: ClockTime)
    requires start.minute < 60 && end.minute < 60
    ensures IsFifteenMinuteSpan(start, end)
        <==> (MinutesOfDay(end) - MinutesOfDay(start)) % MinutesPerDay == 15
  {
    var d := MinutesOfDay(end) - MinutesOfDay(start);
    assert -(MinutesPerDay as int) < d < MinutesPerDay;
    if d < 0 {
      assert d % MinutesPerDay == d + MinutesPerDay;
    } else {
      assert d % MinutesPerDay == d;
    }
  }

  /** 5:00PM is hour 17 (the example in monitor.py's doc comment). */
  lemma FivePmIsSeventeen()
    ensures Hour24(5, PM) == 17
  {
  }

  /** The as-written 12PM quirk: noon and midnight get the same 24-hour hour. */
  lemma NoonIsMidnight()
    ensures Hour24(12, PM) == Hour24(12, AM) == 0
    ensures MinutesOfDay(ClockTime(12, 0, PM)) == 0
  {
  }

  /** A consequence of the quirk: the market that runs into noon ("11:45AM-12:00PM")
      and the one that runs out of it ("12:45PM-1:00PM") fail the 15-minute test. */
  lemma NoonBoundaryMarketsRejected()
    ensures !IsFifteenMinuteSpan(ClockTime(11, 45, AM), ClockTime(12, 0, PM))
    ensures !IsFifteenMinuteSpan(ClockTime(12, 45, PM), ClockTime(1, 0, PM))
    ensures IsFifteenMinuteSpan(ClockTime(12, 0, PM), ClockTime(12, 15, PM))
    ensures IsFifteenMinuteSpan(ClockTime(11, 45, PM), ClockTime(12, 0, AM))
  {
  }
}

=== FILE: collections.dfy ===
/** Small facts about maps and sequences shared by the component models. */
module Collections {
  import opened Wrappers

  /** `m.get(k)`: the value stored under `k`, if any. */
  function Lookup<K, V>(m: map<K, V>, k: K): (r: Option<V>)
    ensures r.Some? <==> k in m
    ensures k in m ==> r.value == m[k]
  {
    if k in m then Some(m[k]) else None
  }

  /** No element occurs twice in `s`. */
  predicate NoDup<T(==)>(s: seq<T>) {
    forall i, j :: 0 <= i < j < |s| ==> s[i] != s[j]
  }

  /** Joining two repeat-free sequences with no element in common gives a repeat-free one. */
  lemma NoDupConcat<T>(a: seq<T>, b: seq<T>)
    requires NoDup(a) && NoDup(b)
    requires forall x :: x in a ==> x !in b
    ensures NoDup(a + b)
  {
    var s := a + b;
    forall i, j | 0 <= i < j < |s| ensures s[i] != s[j] {
      if j < |a| {
        assert s[i] == a[i] && s[j] == a[j];
      } else if i >= |a| {
        assert s[i] == b[i - |a|] && s[j] == b[j - |a|];
      } else {
        assert s[i] == a[i] && s[j] == b[j - |a|];
        assert a[i] in a;
      }
    }
  }

  /** `s` lists every element of `keys` exactly once, and nothing else
      (what `list(d.keys())` gives for a dictionary `d`). */
  ghost predicate Enumerates<T(!new)>(s: seq<T>, keys: set<T>) {
    NoDup(s) && forall t :: t in s <==> t in keys
  }

  /** `a` and `b` agree on every key other than `k`. */
  ghost predicate AgreeExcept<K(!new), V>(a: map<K, V>, b: map<K, V>, k: K) {
    forall x :: x != k ==> (x in a <==> x in b) && (x in a ==> a[x] == b[x])
  }

  /** `a` and `b` agree on every key outside `ks`. */
  ghost predicate AgreeOutside<K(!new), V>(a: map<K, V>, b: map<K, V>, ks: set<K>) {
    forall x :: x !in ks ==> (x in a <==> x in b) && (x in a ==> a[x] == b[x])
  }
}

=== FILE: config.dfy ===
/** The configuration constants the modelled code reads (config.py and overbetted_test/config.py). */
module Config {

  // Trading parameters
  const TriggerPrice: real := 0.96
  const EntryPrice: real := 0.97
  const StopLossPrice: real := 0.8
  const MaxAttemptsPerMarket: nat := 3
  const MaxPositionSize: real := 5.0

  // Monitoring
  const PollInterval: real := 0.05

  // Risk management
  const MaxConcurrentPositions: nat := 2
  const EnableStopLoss: bool := true

  // Offline analysis
  const CollapseThresholds: seq<real> := [0.95, 0.96, 0.97, 0.98, 0.99]
  const BatchSize: nat := 100
  const MaxBatches: nat := 10
}

=== FILE: data_collector.dfy ===
/** `DataCollector` (data_collector.py): collect at most one price snapshot per second for the
    current market, and post the whole market when it ends.

    The clock is a parameter (one reading serves both `time.time()` and the snapshot's
    timestamp); the POST's outcome is a parameter. */
module Collector {
  import opened Wrappers
  import opened Trader

  datatype Snapshot = Snapshot(timestamp: real, upPrice: real, downPrice: real)

  datatype MarketData = MarketData(
    conditionId: string, question: string, startTime: int, endTime: int,
    upToken: TokenId, downToken: TokenId, snapshots: seq<Snapshot>, winner: Option<string>)

  datatype CollectorState = CollectorState(current: Option<MarketData>, lastRecordTime: real)

  const RecordInterval: real := 1.0

  const NewCollector: CollectorState := CollectorState(None, 0.0)

  /** `start_market`: a fresh market with no snapshots replaces any previous one, and the
      record clock restarts at 0. */
  function StartMarket(c: CollectorState, conditionId: string, question: string, upToken: TokenId,
                       downToken: TokenId, startTime: int, endTime: int): (r: CollectorState)
    ensures HasActiveMarket(r) && GetSnapshotCount(r) == 0
    ensures r.current.value.conditionId == conditionId && r.current.value.upToken == upToken
            && r.current.value.downToken == downToken && r.current.value.winner.None?
    ensures r.lastRecordTime == 0.0
  {
    CollectorState(Some(MarketData(conditionId, question, startTime, endTime, upToken, downToken, [], None)), 0.0)
  }

  /** `record_price` at time `now`: with a market, and at least a second after the last
      record, one snapshot is appended and the record time becomes `now`. The flag is the
      return value. */
  function RecordPrice(c: CollectorState, up: real, down: real, now: real): (r: (CollectorState, bool))
    ensures c.current.None? ==> r == (c, false)
    ensures r.1 <==> c.current.Some? && now - c.lastRecordTime >= RecordInterval
    ensures !r.1 ==> r.0 == c
    ensures r.1 ==>
              && r.0.lastRecordTime == now
              && r.0.current.Some?
              && r.0.current.value.snapshots == c.current.value.snapshots + [Snapshot(now, up, down)]
              && r.0.current.value == c.current.value.(snapshots := r.0.current.value.snapshots)
    ensures GetSnapshotCount(r.0) == GetSnapshotCount(c) + (if r.1 then 1 else 0)
  {
    if c.current.None? then (c, false)
    else if now - c.lastRecordTime < RecordInterval then (c, false)
    else
      var m := c.current.value;
      (CollectorState(Some(m.(snapshots := m.snapshots + [Snapshot(now, up, down)])), now), true)
  }

  /** The rate limit's invariant: recorded times are at least a second apart, and the record
      clock holds the last one. */
  ghost predicate Spaced(c: CollectorState) {
    c.current.Some? ==>
      var s := c.current.value.snapshots;
      && (|s| > 0 ==> c.lastRecordTime == s[|s| - 1].timestamp)
      && forall i :: 0 <= i < |s| - 1 ==> s[i + 1].timestamp - s[i].timestamp >= RecordInterval
  }

  lemma StartMarketIsSpaced(c: CollectorState, conditionId: string, question: string, upToken: TokenId,
                            downToken: TokenId, startTime: int, endTime: int)
    ensures Spaced(StartMarket(c, conditionId, question, upToken, downToken, startTime, endTime))
  {
  }

  lemma RecordPriceKeepsSpacing(c: CollectorState, up: real, down: real, now: real)
    requires Spaced(c)
    ensures Spaced(RecordPrice(c, up, down, now).0)
  {
    var r := RecordPrice(c, up, down, now);
    if r.1 {
      var s := c.current.value.snapshots;
      var s2 := r.0.current.value.snapshots;
      assert forall i :: 0 <= i < |s| ==> s2[i] == s[i];
    }
  }

  /** `get_snapshot_count`. */
  function GetSnapshotCount(c: CollectorState): (r: nat)
    ensures c.current.None? ==> r == 0
  {
    if c.current.None? then 0 else |c.current.value.snapshots|
  }

  /** `has_active_market`. */
  predicate HasActiveMarket(c: CollectorState) {
    c.current.Some?
  }

  /** The reply to the POST: status 200 with or without a `snapshots_saved` field, another
      status, or a raised request. */
  datatype SaveReply = Ok(hasSnapshotsSaved: bool) | OtherStatus | Raised

  datatype PayloadSnapshot = PayloadSnapshot(timestamp: real, upPrice: real, downPrice: real)

  datatype Payload = Payload(
    conditionId: string, question: string, startTime: int, endTime: int,
    upToken: TokenId, downToken: TokenId, winner: Option<string>, snapshots: seq<PayloadSnapshot>)

  function PayloadSnapshots(s: seq<Snapshot>): (r: seq<PayloadSnapshot>)
    ensures |r| == |s|
    ensures forall i :: 0 <= i < |s| ==>
              r[i].timestamp == s[i].timestamp && r[i].upPrice == s[i].upPrice && r[i].downPrice == s[i].downPrice
  {
    seq(|s|, i requires 0 <= i < |s| => PayloadSnapshot(s[i].timestamp, s[i].upPrice, s[i].downPrice))
  }

  datatype Saved = Saved(collector: CollectorState, ok: bool, posted: Option<Payload>)

  /** `save_market`: nothing is posted without a market or without snapshots. Otherwise the
      winner is stored on the market, the payload (snapshots in recording order) is posted,
      and the market is cleared only on a 200 reply that carries `snapshots_saved`; every
      other outcome keeps it (with its winner) and reports failure. */
  function SaveMarket(c: CollectorState, winner: Option<string>, reply: SaveReply): (r: Saved)
    ensures c.current.None? || |c.current.value.snapshots| == 0 ==> r == Saved(c, false, None)
    ensures r.posted.Some? <==> c.current.Some? && |c.current.value.snapshots| > 0
    ensures r.posted.Some? ==>
              var m := c.current.value;
              && r.posted.value.conditionId == m.conditionId
              && r.posted.value.question == m.question
              && r.posted.value.startTime == m.startTime && r.posted.value.endTime == m.endTime
              && r.posted.value.upToken == m.upToken && r.posted.value.downToken == m.downToken
              && r.posted.value.winner == winner
              && |r.posted.value.snapshots| == |m.snapshots|
              && forall i :: 0 <= i < |m.snapshots| ==>
                   r.posted.value.snapshots[i].timestamp == m.snapshots[i].timestamp
                   && r.posted.value.snapshots[i].upPrice == m.snapshots[i].upPrice
                   && r.posted.value.snapshots[i].downPrice == m.snapshots[i].downPrice
    ensures r.ok <==> r.posted.Some? && reply == Ok(true)
    ensures r.ok ==> r.collector.current.None?
    ensures r.posted.Some? && !r.ok ==> r.collector.current == Some(c.current.value.(winner := winner))
    ensures r.collector.lastRecordTime == c.lastRecordTime
  {
    if c.current.None? || |c.current.value.snapshots| == 0 then Saved(c, false, None)
    else
      var m := c.current.value.(winner := winner);
      var payload := Payload(m.conditionId, m.question, m.startTime, m.endTime, m.upToken, m.downToken,
                             m.winner, PayloadSnapshots(m.snapshots));
      var kept := c.(current := Some(m));
      if reply == Ok(true) then Saved(c.(current := None), true, Some(payload))
      else Saved(kept, false, Some(payload))
  }

  /** A failed save can be retried: the kept market is posted again with the same snapshots. */
  lemma FailedSaveCanBeRetried(c: CollectorState, winner: Option<string>, first: SaveReply, second: SaveReply)
    requires c.current.Some? && |c.current.value.snapshots| > 0 && first != Ok(true)
    ensures var r1 := SaveMarket(c, winner, first);
            var r2 := SaveMarket(r1.collector, winner, second);
            !r1.ok && r2.posted == r1.posted && (r2.ok <==> second == Ok(true))
  {
  }
}

=== FILE: monitor.dfy ===
/** `MarketMonitor` (monitor.py): finding the live 15-minute Bitcoin market from time-bucketed
    event slugs, checking a market's question times, picking the up/down tokens, shaping an
    order book, and the "keep the locked market until it ends" cache.

    Times are whole epoch seconds. HTTP replies are parameters; the regular expressions are
    replaced by their captured groups, carried on `Market`; the question's date (parsed with
    the current year and localised to US Eastern) is the epoch second of its midnight. */
module Monitor {
  import opened Wrappers
  import opened Collections
  import opened Text
  import opened Clock
  import opened Trader

  /** The fields of a market dictionary the monitor reads, already decoded. */
  datatype Market = Market(
    conditionId: string,
    question: string,
    enableOrderBook: bool,
    // `None`: the JSON-encoded list did not decode
    clobTokenIds: Option<seq<TokenId>>,
    outcomes: Option<seq<string>>,
    // an element is `None` when `float()` rejects it
    outcomePrices: Option<seq<Option<real>>>,
    // captures of the two duration patterns (AM/PM after each time, or after the end only)
    durationMatch: TimeMatch,
    // captures of the two "<date>, <start>-<end> ET" patterns
    datedMatch: TimeMatch,
    // captures of the end-time pattern
    endMatch: Option<ClockTime>,
    // epoch second of midnight US Eastern on the question's date; `None` if the date does not parse
    dayStart: Option<int>)

  /** The current US Eastern wall clock: the epoch second at the top of the hour, and the
      minute and second within it. */
  datatype WallClock = WallClock(hourStart: int, minute: nat, second: nat)

  function Now(c: WallClock): int {
    c.hourStart + c.minute * 60 + c.second
  }

  const SlugPrefix: string := "btc-updown-15m-"
  const BucketSeconds: nat := 15 * 60

  /** `(minute // 15) * 15`: the start minute of the current quarter hour. */
  function BucketMinute(minute: nat): (r: nat)
    ensures r % 15 == 0
    ensures r <= minute < r + 15
  {
    (minute / 15) * 15
  }

  /** The epoch second of the current quarter hour's start (minute floored, second 0). */
  function BucketStart(c: WallClock): int {
    c.hourStart + BucketMinute(c.minute) * 60
  }

  /** When US Eastern is a whole number of hours from UTC, the bucket start is the current
      epoch second floored to a multiple of 900. */
  lemma BucketStartIsFloor(c: WallClock)
    requires c.hourStart % 3600 == 0 && c.minute < 60 && c.second < 60
    ensures BucketStart(c) == Now(c) - Now(c) % BucketSeconds
    ensures BucketStart(c) <= Now(c) < BucketStart(c) + BucketSeconds
  {
    var q := c.hourStart / 3600;
    var a := 4 * q + c.minute / 15;
    assert c.hourStart == 3600 * q;
    assert BucketStart(c) == 900 * a;
    var off := (c.minute - BucketMinute(c.minute)) * 60 + c.second;
    assert 0 <= off < 900;
    assert Now(c) == 900 * a + off;
    assert (900 * a + off) % 900 == off;
  }

  datatype Candidate = Candidate(slug: string, timestamp: int)

  function SlugFor(timestamp: int): string {
    SlugPrefix + IntToDecimal(timestamp)
  }

  function CandidateAt(timestamp: int): Candidate {
    Candidate(SlugFor(timestamp), timestamp)
  }

  /** The slugs looked up on every search: the quarter hours at offsets -1, 0, +1 and +2
      from the current one, 900 seconds apart. */
  function CandidateSlugs(bucketStart: int): (r: seq<Candidate>)
    ensures |r| == 4
    ensures forall i :: 0 <= i < 4 ==> r[i].timestamp == bucketStart + BucketSeconds * (i - 1)
    ensures forall i :: 0 <= i < 4 ==> r[i].slug == SlugFor(r[i].timestamp)
  {
    assert BucketSeconds == 900;
    [CandidateAt(bucketStart - BucketSeconds), CandidateAt(bucketStart),
     CandidateAt(bucketStart + BucketSeconds), CandidateAt(bucketStart + 2 * BucketSeconds)]
  }

  /** Different timestamps give different slugs. */
  lemma SlugForInjective(a: int, b: int)
    requires a != b
    ensures SlugFor(a) != SlugFor(b)
  {
    IntToDecimalInjective(a, b);
    assert SlugFor(a)[|SlugPrefix|..] == IntToDecimal(a);
    assert SlugFor(b)[|SlugPrefix|..] == IntToDecimal(b);
  }

  /** The four slugs of a search are pairwise distinct, so no lookup is repeated. */
  lemma CandidateSlugsDistinct(bucketStart: int)
    ensures var r := CandidateSlugs(bucketStart);
            forall i, j :: 0 <= i < j < 4 ==> r[i].slug != r[j].slug
  {
    var r := CandidateSlugs(bucketStart);
    forall i, j | 0 <= i < j < 4 ensures r[i].slug != r[j].slug {
      SlugForInjective(r[i].timestamp, r[j].timestamp);
    }
  }

  /** An event as returned by the events lookup; times are `None` when missing or empty. */
  datatype Event = Event(active: bool, closed: bool, startTime: Option<int>, endDate: Option<int>, markets: seq<Market>)

  /** The reply to one slug lookup: `Failed` for a non-200 status or a raised request. */
  datatype SlugReply = Failed | Events(events: seq<Event>)

  /** The market one slug contributes: the first market of its first event, when that event
      is active, not closed, has both times, and `now` lies between them. */
  function EventMarket(reply: SlugReply, now: int): (r: Option<Market>)
    ensures r.Some? <==>
              && reply.Events? && |reply.events| > 0
              && var e := reply.events[0];
                 && e.active && !e.closed
                 && e.startTime.Some? && e.endDate.Some?
                 && e.startTime.value <= now <= e.endDate.value
                 && |e.markets| > 0
    ensures r.Some? ==> r.value == reply.events[0].markets[0]
  {
    match reply
    case Failed => None
    case Events(events) =>
      if |events| == 0 then None
      else
        var e := events[0];
        if !(e.active && !e.closed) then None
        else if e.startTime.None? || e.endDate.None? then None
        else if !(e.startTime.value <= now <= e.endDate.value) then None
        else if |e.markets| == 0 then None
        else Some(e.markets[0])
  }

  /** The reply a slug gets (`Failed` when the lookup has none for it). */
  function ReplyFor(lookup: map<string, SlugReply>, slug: string): SlugReply {
    if slug in lookup then lookup[slug] else Failed
  }

  /** The market one candidate contributes, as a list of zero or one element. */
  function Contribution(cand: Candidate, lookup: map<string, SlugReply>, now: int): seq<Market> {
    var m := EventMarket(ReplyFor(lookup, cand.slug), now);
    if m.Some? then [m.value] else []
  }

  /** The markets the candidates contribute, in candidate order (`CollectMarketsAppend`
      and `CollectMarketsFirst` state the order). */
  function CollectMarkets(cands: seq<Candidate>, lookup: map<string, SlugReply>, now: int): (r: seq<Market>)
    ensures |r| <= |cands|
    ensures forall m :: m in r <==> exists c :: c in cands && EventMarket(ReplyFor(lookup, c.slug), now) == Some(m)
  {
    if |cands| == 0 then []
    else
      var head := EventMarket(ReplyFor(lookup, cands[0].slug), now);
      var rest := CollectMarkets(cands[1..], lookup, now);
      assert forall c :: c in cands <==> c == cands[0] || c in cands[1..];
      if head.Some? then [head.value] + rest else rest
  }

  /** `m` is the market of some candidate, and no earlier candidate contributes one. */
  predicate FirstContributor(cands: seq<Candidate>, lookup: map<string, SlugReply>, now: int, m: Market) {
    exists k :: 0 <= k < |cands| && EventMarket(ReplyFor(lookup, cands[k].slug), now) == Some(m)
                && forall j :: 0 <= j < k ==> EventMarket(ReplyFor(lookup, cands[j].slug), now).None?
  }

  lemma FirstContributorShift(cands: seq<Candidate>, lookup: map<string, SlugReply>, now: int, m: Market)
    requires |cands| > 0 && EventMarket(ReplyFor(lookup, cands[0].slug), now).None?
    requires FirstContributor(cands[1..], lookup, now, m)
    ensures FirstContributor(cands, lookup, now, m)
  {
    var k :| 0 <= k < |cands[1..]| && EventMarket(ReplyFor(lookup, cands[1..][k].slug), now) == Some(m)
             && forall j :: 0 <= j < k ==> EventMarket(ReplyFor(lookup, cands[1..][j].slug), now).None?;
    forall j | 0 <= j < k + 1
      ensures EventMarket(ReplyFor(lookup, cands[j].slug), now).None?
    {
      if j > 0 { assert cands[j] == cands[1..][j - 1]; }
    }
    assert cands[k + 1] == cands[1..][k];
  }

  /** The first market found comes from the first candidate that contributes one. */
  lemma {:induction false} CollectMarketsFirst(cands: seq<Candidate>, lookup: map<string, SlugReply>, now: int)
    ensures var r := CollectMarkets(cands, lookup, now);
            |r| > 0 ==> FirstContributor(cands, lookup, now, r[0])
  {
    var r := CollectMarkets(cands, lookup, now);
    if |cands| > 0 && |r| > 0 {
      if EventMarket(ReplyFor(lookup, cands[0].slug), now).None? {
        assert r == CollectMarkets(cands[1..], lookup, now);
        CollectMarketsFirst(cands[1..], lookup, now);
        FirstContributorShift(cands, lookup, now, r[0]);
      } else {
        assert EventMarket(ReplyFor(lookup, cands[0].slug), now) == Some(r[0]);
      }
    }
  }

  /** Collecting over two lists of candidates is collecting over each, in order: every
      candidate contributes its market at its own place and only once. */
  lemma {:induction false} CollectMarketsAppend(a: seq<Candidate>, b: seq<Candidate>, lookup: map<string, SlugReply>, now: int)
    ensures CollectMarkets(a + b, lookup, now) == CollectMarkets(a, lookup, now) + CollectMarkets(b, lookup, now)
  {
    if |a| == 0 {
      assert a + b == b;
    } else {
      assert (a + b)[1..] == a[1..] + b;
      assert (a + b)[0] == a[0];
      CollectMarketsAppend(a[1..], b, lookup, now);
    }
  }

  /** Over four candidates, the result lists each candidate's contribution in turn. */
  lemma {:induction false} CollectFour(cs: seq<Candidate>, lookup: map<string, SlugReply>, now: int)
    requires |cs| == 4
    ensures CollectMarkets(cs, lookup, now)
            == Contribution(cs[0], lookup, now) + Contribution(cs[1], lookup, now)
               + Contribution(cs[2], lookup, now) + Contribution(cs[3], lookup, now)
  {
    assert cs == [cs[0]] + [cs[1]] + [cs[2]] + [cs[3]];
    forall i | 0 <= i < 4
      ensures CollectMarkets([cs[i]], lookup, now) == Contribution(cs[i], lookup, now)
    {
      assert [cs[i]][1..] == [];
    }
    CollectMarketsAppend([cs[0]] + [cs[1]] + [cs[2]], [cs[3]], lookup, now);
    CollectMarketsAppend([cs[0]] + [cs[1]], [cs[2]], lookup, now);
    CollectMarketsAppend([cs[0]], [cs[1]], lookup, now);
  }

  /** `get_active_btc_15min_markets`: the contributions of the slugs for the previous,
      current, next and following quarter hour, in that order, so the first market is the
      one from the earliest contributing slug. */
  function GetActiveBtc15MinMarkets(c: WallClock, lookup: map<string, SlugReply>): (r: seq<Market>)
    ensures |r| <= 4
    ensures forall m :: m in r <==>
              exists cand :: cand in CandidateSlugs(BucketStart(c)) && EventMarket(ReplyFor(lookup, cand.slug), Now(c)) == Some(m)
    ensures var cs := CandidateSlugs(BucketStart(c));
            r == Contribution(cs[0], lookup, Now(c)) + Contribution(cs[1], lookup, Now(c))
                 + Contribution(cs[2], lookup, Now(c)) + Contribution(cs[3], lookup, Now(c))
    ensures var cs := CandidateSlugs(BucketStart(c));
            |r| > 0 ==>
              exists k :: 0 <= k < 4 && EventMarket(ReplyFor(lookup, cs[k].slug), Now(c)) == Some(r[0])
                          && forall j :: 0 <= j < k ==> EventMarket(ReplyFor(lookup, cs[j].slug), Now(c)).None?
  {
    CollectFour(CandidateSlugs(BucketStart(c)), lookup, Now(c));
    CollectMarketsFirst(CandidateSlugs(BucketStart(c)), lookup, Now(c));
    CollectMarkets(CandidateSlugs(BucketStart(c)), lookup, Now(c))
  }

  /** `_is_15_minute_duration`: a question whose times match one of the two patterns and
      span 15 minutes, midnight wrap included. */
  function IsFifteenMinuteDuration(m: TimeMatch): (r: bool)
    ensures m.NoMatch? ==> !r
    ensures m.EndPeriodOnly? && m.startMinute < 60 && m.endMinute < 60 ==>
              (r <==> (MinutesOfDay(ClockTime(m.endHour, m.endMinute, m.period))
                       - MinutesOfDay(ClockTime(m.startHour, m.startMinute, m.period))) % MinutesPerDay == 15)
    ensures m.BothPeriods? && m.start.minute < 60 && m.end.minute < 60 ==>
              (r <==> (MinutesOfDay(m.end) - MinutesOfDay(m.start)) % MinutesPerDay == 15)
  {
    match Resolve(m)
    case None => false
    case Some((s, e)) =>
      if s.minute < 60 && e.minute < 60 then FifteenMinuteSpanIsModular(s, e); IsFifteenMinuteSpan(s, e)
      else IsFifteenMinuteSpan(s, e)
  }

  /** The second of day a clock time of the question stands for (`None` when `datetime`
      would reject the minute). */
  function SecondOfDay(t: ClockTime): (r: Option<int>)
    ensures r.Some? <==> t.minute < 60
    ensures r.Some? ==> 0 <= r.value < 24 * 3600 && r.value == Hour24(t.hour, t.period) * 3600 + t.minute * 60
  {
    if t.minute < 60 then Some(Hour24(t.hour, t.period) * 3600 + t.minute * 60) else None
  }

  /** The trading window the dated question text states, both ends on the question's date. */
  function QuestionWindow(m: Market): (r: Option<(int, int)>)
    ensures r.Some? ==> m.dayStart.Some? && m.dayStart.value <= r.value.0 < m.dayStart.value + 24 * 3600
    ensures r.Some? ==> m.dayStart.value <= r.value.1 < m.dayStart.value + 24 * 3600
    ensures m.datedMatch.NoMatch? || m.dayStart.None? ==> r.None?
    ensures r.Some? <==>
              && Resolve(m.datedMatch).Some? && m.dayStart.Some?
              && Resolve(m.datedMatch).value.0.minute < 60 && Resolve(m.datedMatch).value.1.minute < 60
    ensures r.Some? ==>
              var (s, e) := Resolve(m.datedMatch).value;
              && r.value.0 == m.dayStart.value + Hour24(s.hour, s.period) * 3600 + s.minute * 60
              && r.value.1 == m.dayStart.value + Hour24(e.hour, e.period) * 3600 + e.minute * 60
  {
    match Resolve(m.datedMatch)
    case None => None
    case Some((s, e)) =>
      if m.dayStart.None? then None
      else match (SecondOfDay(s), SecondOfDay(e))
        case (Some(a), Some(b)) => Some((m.dayStart.value + a, m.dayStart.value + b))
        case _ => None
  }

  /** `_is_market_active_now`: the question's window contains `now` (any parse failure
      counts as not active). */
  function IsMarketActiveNow(m: Market, now: int): (r: bool)
    ensures r ==> QuestionWindow(m).Some?
    ensures QuestionWindow(m).Some? ==> (r <==> QuestionWindow(m).value.0 <= now <= QuestionWindow(m).value.1)
  {
    match QuestionWindow(m)
    case None => false
    case Some((start, end)) => start <= now <= end
  }

  /** The as-written 12PM quirk, seen from the window check: a question for
      "12:00PM-12:15PM" describes a window at midnight, so it is not active at noon. */
  lemma NoonWindowIsAtMidnight(m: Market, day: int)
    requires m.datedMatch == BothPeriods(ClockTime(12, 0, PM), ClockTime(12, 15, PM))
    requires m.dayStart == Some(day)
    ensures QuestionWindow(m) == Some((day, day + 15 * 60))
    ensures !IsMarketActiveNow(m, day + 12 * 3600)
  {
  }

  /** `_is_btc_15min_market`: a Bitcoin up/down question with an order book, a 15-minute
      span, and running now. */
  predicate IsBtc15MinMarket(m: Market, now: int) {
    var q := Lower(m.question);
    && Contains(q, "bitcoin") && Contains(q, "up") && Contains(q, "down")
    && m.enableOrderBook
    && IsFifteenMinuteDuration(m.durationMatch)
    && IsMarketActiveNow(m, now)
  }

  /** `_extract_market_end_time`: the question's end time on its date. */
  function ExtractMarketEndTime(m: Market): (r: Option<int>)
    ensures r.Some? <==> m.endMatch.Some? && m.dayStart.Some? && m.endMatch.value.minute < 60
    ensures r.Some? ==> r.value == m.dayStart.value + Hour24(m.endMatch.value.hour, m.endMatch.value.period) * 3600 + m.endMatch.value.minute * 60
    ensures r.Some? ==> m.dayStart.value <= r.value < m.dayStart.value + 24 * 3600
  {
    if m.endMatch.None? || m.dayStart.None? then None
    else match SecondOfDay(m.endMatch.value)
      case None => None
      case Some(s) => Some(m.dayStart.value + s)
  }

  /** The up and down tokens of a market, and the index of the up one. */
  datatype TokenPair = TokenPair(up: TokenId, down: TokenId, upIndex: nat)

  /** Token selection in `get_current_prices`: the up token is the first one iff the first
      outcome lower-cases to "up", else the second; the down token is the other. */
  function SelectTokens(ids: seq<TokenId>, outcomes: seq<string>): (r: Option<TokenPair>)
    ensures r.Some? <==> |ids| >= 2 && |outcomes| >= 1
    ensures r.Some? ==> (r.value.upIndex == 0 <==> Lower(outcomes[0]) == "up")
    ensures r.Some? ==> r.value.upIndex < 2 && r.value.up == ids[r.value.upIndex] && r.value.down == ids[1 - r.value.upIndex]
    ensures r.Some? && ids[0] != ids[1] ==> r.value.up != r.value.down
  {
    if |ids| < 2 || |outcomes| == 0 then None
    else
      var upIdx := if Lower(outcomes[0]) == "up" then 0 else 1;
      Some(TokenPair(ids[upIdx], ids[1 - upIdx], upIdx))
  }

  /** One book level; `price` is `float(level['price'])`, `None` when the key is missing or
      the conversion raises. */
  datatype Level = Level(price: Option<real>, size: real)

  datatype OrderBook = OrderBook(bids: seq<Level>, asks: seq<Level>, bestBid: real, bestAsk: real, spread: real)

  /** `get_order_book`: the reply's bids and asks (`None` when the request failed) shaped into
      best bid, best ask and spread; `None` unless both sides have a level whose price
      converts (a failed conversion raises into the `except`). */
  function GetOrderBook(reply: Option<(seq<Level>, seq<Level>)>): (r: Option<OrderBook>)
    ensures r.Some? <==>
              && reply.Some? && |reply.value.0| > 0 && |reply.value.1| > 0
              && reply.value.0[0].price.Some? && reply.value.1[0].price.Some?
    ensures r.Some? ==> r.value.bestBid == reply.value.0[0].price.value && r.value.bestAsk == reply.value.1[0].price.value
    ensures r.Some? ==> r.value.bestBid + r.value.spread == r.value.bestAsk
    ensures r.Some? ==> r.value.bids == reply.value.0 && r.value.asks == reply.value.1
  {
    match reply
    case None => None
    case Some((bids, asks)) =>
      if |bids| == 0 || |asks| == 0 then None
      else if bids[0].price.None? || asks[0].price.None? then None
      else
        var bid := bids[0].price.value;
        var ask := asks[0].price.value;
    Some(OrderBook(bids, asks, bid, ask, ask - bid))
  }

  /** One market's prices as the trading loop consumes them. */
  datatype PriceData = PriceData(
    upPrice: real, downPrice: real, upToken: TokenId, downToken: TokenId, market: Market,
    buyPrice: Option<real>, sellPrice: Option<real>)

  /** `get_current_prices`: the two midpoints (`upMid`, `downMid`, `None` when a request
      failed), falling back to `outcomePrices` when either is missing, plus the best ask and
      bid of the up token's order book. */
  function GetCurrentPrices(m: Market, upMid: Option<real>, downMid: Option<real>,
                            upBook: Option<(seq<Level>, seq<Level>)>): (r: Option<PriceData>)
    ensures r.Some? ==> m.clobTokenIds.Some? && m.outcomes.Some?
    ensures r.Some? ==> var pair := SelectTokens(m.clobTokenIds.value, m.outcomes.value);
              pair.Some? && r.value.upToken == pair.value.up && r.value.downToken == pair.value.down
    ensures r.Some? && upMid.Some? && downMid.Some? ==> r.value.upPrice == upMid.value && r.value.downPrice == downMid.value
    ensures r.Some? && (upMid.None? || downMid.None?) ==>
              var ps := m.outcomePrices.GetOr([]); var up := SelectTokens(m.clobTokenIds.value, m.outcomes.value).value.upIndex;
              m.outcomePrices.Some? && |m.outcomePrices.value| >= 2
              && ps[up] == Some(r.value.upPrice) && ps[1 - up] == Some(r.value.downPrice)
    ensures r.Some? ==> r.value.market == m
    ensures r.Some? ==> (r.value.buyPrice.Some? <==> GetOrderBook(upBook).Some?)
    ensures r.Some? && r.value.buyPrice.Some? ==>
              r.value.buyPrice.value == GetOrderBook(upBook).value.bestAsk && r.value.sellPrice == Some(GetOrderBook(upBook).value.bestBid)
    ensures (m.clobTokenIds.Some? && m.outcomes.Some? && SelectTokens(m.clobTokenIds.value, m.outcomes.value).Some?
             && upMid.Some? && downMid.Some?) ==> r.Some?
    // the fallback succeeds whenever both selected entries of `outcomePrices` convert
    ensures m.clobTokenIds.Some? && m.outcomes.Some? && SelectTokens(m.clobTokenIds.value, m.outcomes.value).Some? ==>
              var up := SelectTokens(m.clobTokenIds.value, m.outcomes.value).value.upIndex;
              ((upMid.None? || downMid.None?) && m.outcomePrices.Some? && |m.outcomePrices.value| >= 2
               && m.outcomePrices.value[up].Some? && m.outcomePrices.value[1 - up].Some?) ==> r.Some?
  {
    if m.clobTokenIds.None? || m.outcomes.None? then None
    else match SelectTokens(m.clobTokenIds.value, m.outcomes.value)
      case None => None
      case Some(pair) =>
        var prices :=
          if upMid.Some? && downMid.Some? then Some((upMid.value, downMid.value))
          else if m.outcomePrices.None? || |m.outcomePrices.value| < 2 then None
          else
            var ps := m.outcomePrices.value;
            if ps[pair.upIndex].None? || ps[1 - pair.upIndex].None? then None
            else Some((ps[pair.upIndex].value, ps[1 - pair.upIndex].value));
        if prices.None? then None
        else
          var book := GetOrderBook(upBook);
          Some(PriceData(prices.value.0, prices.value.1, pair.up, pair.down, m,
                         if book.Some? then Some(book.value.bestAsk) else None,
                         if book.Some? then Some(book.value.bestBid) else None))
  }

  /** The monitor's lock: the market it trades and when that market ends. */
  datatype MonitorState = MonitorState(current: Option<Market>, endTime: Option<int>, active: seq<Market>)

  const NoLock: MonitorState := MonitorState(None, None, [])

  /** `_is_current_market_still_active`: a locked market whose end time is still ahead. */
  predicate IsCurrentMarketStillActive(st: MonitorState, now: int) {
    st.current.Some? && st.endTime.Some? && now < st.endTime.value
  }

  /** `update_active_markets`: while the locked market has not ended, it alone is the active
      list and nothing is searched; otherwise a search runs and locks onto its first result
      (with that market's end time), or clears the lock when it finds nothing. The second
      component says whether a search ran. */
  function UpdateActiveMarkets(st: MonitorState, c: WallClock, lookup: map<string, SlugReply>): (r: (MonitorState, bool))
    ensures IsCurrentMarketStillActive(st, Now(c)) ==>
              && !r.1 && r.0.active == [st.current.value]
              && r.0.current == st.current && r.0.endTime == st.endTime
    ensures !IsCurrentMarketStillActive(st, Now(c)) ==>
              && r.1 && r.0.active == GetActiveBtc15MinMarkets(c, lookup)
              && (|r.0.active| > 0 ==> r.0.current == Some(r.0.active[0]) && r.0.endTime == ExtractMarketEndTime(r.0.active[0]))
              && (|r.0.active| == 0 ==> r.0.current.None? && r.0.endTime.None?)
  {
    if IsCurrentMarketStillActive(st, Now(c)) then (st.(active := [st.current.value]), false)
    else
      var found := GetActiveBtc15MinMarkets(c, lookup);
      if |found| > 0 then (MonitorState(Some(found[0]), ExtractMarketEndTime(found[0]), found), true)
      else (MonitorState(None, None, found), true)
  }

  /** Once a search locks a market with a known end time, every later update before that
      end time returns that market without searching, whatever the lookups would say. */
  lemma LockHoldsUntilEnd(st: MonitorState, c1: WallClock, l1: map<string, SlugReply>,
                          c2: WallClock, l2: map<string, SlugReply>)
    requires var (s1, searched) := UpdateActiveMarkets(st, c1, l1);
             searched && s1.current.Some? && s1.endTime.Some? && Now(c2) < s1.endTime.value
    ensures var s1 := UpdateActiveMarkets(st, c1, l1).0;
            var (s2, searched2) := UpdateActiveMarkets(s1, c2, l2);
            !searched2 && s2.active == [s1.current.value] && s2.current == s1.current
  {
  }
}

=== FILE: overbetted_api.dfy ===
/** The market-fetching helpers of the offline analysis (overbetted_test/api.py): which
    closed markets count as resolved 15-minute Bitcoin markets, how a market's winner is
    read off its outcome prices, and the paging loop that collects them.

    A market arrives with its JSON-encoded list fields already decoded (`None` when decoding
    raises); the time pattern's captured groups stand in for the regular expression. */
module OverbettedApi {
  import opened Wrappers
  import opened Text
  import opened Clock
  import opened Config
  import opened Trader
  import Monitor

  datatype ApiMarket = ApiMarket(
    question: string,
    enableOrderBook: bool,
    outcomePrices: Option<seq<string>>,
    outcomes: Option<seq<string>>,
    clobTokenIds: Option<seq<TokenId>>,
    // `float(volumeClob or 0)`; `None` when that raises
    volume: Option<real>,
    // the groups of `(\d+):(\d+)(AM|PM)-(\d+):(\d+)(AM|PM)`, if it matches
    times: Option<(ClockTime, ClockTime)>)

  /** `is_15_minute_duration`: only the pattern with AM/PM after both times is tried. */
  function IsFifteenMinuteDuration(times: Option<(ClockTime, ClockTime)>): (r: bool)
    ensures r ==> times.Some?
    ensures times.Some? && times.value.0.minute < 60 && times.value.1.minute < 60 ==>
              (r <==> (MinutesOfDay(times.value.1) - MinutesOfDay(times.value.0)) % MinutesPerDay == 15)
  {
    match times
    case None => false
    case Some((s, e)) =>
      if s.minute < 60 && e.minute < 60 then FifteenMinuteSpanIsModular(s, e); IsFifteenMinuteSpan(s, e)
      else IsFifteenMinuteSpan(s, e)
  }

  /** On a question with AM/PM after both times, this check and the live monitor's agree;
      the monitor alone also accepts the "3:00-3:15PM" form, which this one never matches. */
  lemma AgreesWithMonitor(s: ClockTime, e: ClockTime)
    ensures IsFifteenMinuteDuration(Some((s, e))) == Monitor.IsFifteenMinuteDuration(BothPeriods(s, e))
    ensures Monitor.IsFifteenMinuteDuration(EndPeriodOnly(3, 0, 3, 15, PM))
    ensures !IsFifteenMinuteDuration(None)
  {
  }

  /** `is_valid_btc_15min_market`: a Bitcoin up/down question with an order book, resolved
      ("1" among the outcome prices, which must decode), over 15 minutes. */
  predicate IsValidBtc15MinMarket(m: ApiMarket) {
    var q := Lower(m.question);
    && Contains(q, "bitcoin") && Contains(q, "up") && Contains(q, "down")
    && m.enableOrderBook
    && m.outcomePrices.Some? && "1" in m.outcomePrices.value
    && IsFifteenMinuteDuration(m.times)
  }

  /** `list.index(x)` guarded by `x in list`: the first position of `x`, or -1. */
  function IndexOf(s: seq<string>, x: string): (r: int)
    ensures r == -1 <==> x !in s
    ensures r != -1 ==> 0 <= r < |s| && s[r] == x && forall j :: 0 <= j < r ==> s[j] != x
  {
    if |s| == 0 then -1
    else if s[0] == x then 0
    else
      var i := IndexOf(s[1..], x);
      if i == -1 then -1 else i + 1
  }

  datatype ParsedMarket = ParsedMarket(
    question: string, winner: string, winnerIdx: int, loser: string, loserIdx: int,
    tokenIds: seq<TokenId>, volume: real)

  const Unknown: string := "Unknown"

  /** The outcome name at `i`, or "Unknown" when `i` is not a position of `outcomes`. */
  function NameAt(outcomes: seq<string>, i: int): string {
    if 0 <= i < |outcomes| then outcomes[i] else Unknown
  }

  /** `parse_market_data`; `None` when one of the decodes or the volume conversion raises. */
  function ParseMarketData(m: ApiMarket): (r: Option<ParsedMarket>)
    ensures r.Some? <==> m.outcomes.Some? && m.outcomePrices.Some? && m.clobTokenIds.Some? && m.volume.Some?
    ensures r.Some? ==>
              var ps := m.outcomePrices.value;
              && (r.value.winnerIdx >= 0 <==> "1" in ps)
              && (r.value.winnerIdx >= 0 ==> r.value.winnerIdx < |ps| && ps[r.value.winnerIdx] == "1"
                                              && forall j :: 0 <= j < r.value.winnerIdx ==> ps[j] != "1")
              && (r.value.winnerIdx < 0 ==> r.value.winnerIdx == -1 && r.value.loserIdx == -1)
              && (r.value.winnerIdx >= 0 ==> r.value.loserIdx == 1 - r.value.winnerIdx)
    ensures r.Some? ==>
              && r.value.winner == NameAt(m.outcomes.value, r.value.winnerIdx)
              && r.value.loser == NameAt(m.outcomes.value, r.value.loserIdx)
              && r.value.tokenIds == m.clobTokenIds.value
              && r.value.question == m.question
  {
    if m.outcomes.None? || m.outcomePrices.None? || m.clobTokenIds.None? || m.volume.None? then None
    else
      var outcomes := m.outcomes.value;
      var winnerIdx := IndexOf(m.outcomePrices.value, "1");
      var loserIdx := if winnerIdx >= 0 then 1 - winnerIdx else -1;
      Some(ParsedMarket(m.question, NameAt(outcomes, winnerIdx), winnerIdx,
                        NameAt(outcomes, loserIdx), loserIdx, m.clobTokenIds.value, m.volume.value))
  }

  /** A valid market that parses has a winner; on the usual two-outcome market the loser
      is the other outcome. */
  lemma ValidMarketHasWinner(m: ApiMarket)
    requires IsValidBtc15MinMarket(m)
    requires ParseMarketData(m).Some?
    ensures var d := ParseMarketData(m).value;
            d.winnerIdx >= 0
            && (|m.outcomes.value| == 2 && d.winnerIdx < 2 ==>
                  d.winner == m.outcomes.value[d.winnerIdx] && d.loser == m.outcomes.value[1 - d.winnerIdx])
  {
  }

  /** The as-written edge: when "1" sits at position 2 or later, the loser index is
      negative and the loser is "Unknown". */
  lemma WinnerPastSecondHasNoLoser(m: ApiMarket)
    requires m.outcomes == Some(["Up", "Down", "Other"]) && m.outcomePrices == Some(["0", "0", "1"])
    requires m.clobTokenIds.Some? && m.volume.Some?
    ensures var d := ParseMarketData(m).value;
            d.winnerIdx == 2 && d.winner == "Other" && d.loserIdx == -1 && d.loser == Unknown
  {
    assert IndexOf(["0", "0", "1"], "1") == 2 by {
      assert ["0", "0", "1"][1..] == ["0", "1"];
      assert ["0", "1"][1..] == ["1"];
    }
  }

  /** The reply to one page request: a decoded list, or a raised request. */
  datatype PageReply = Page(markets: seq<ApiMarket>) | Failed

  /** The answer to the `b`-th request (a request past the end of `replies` fails). */
  function ReplyAt(replies: seq<PageReply>, b: nat): PageReply {
    if b < |replies| then replies[b] else Failed
  }

  /** The markets the `b`-th request brought (none when it failed). */
  function PageOf(replies: seq<PageReply>, b: nat): seq<ApiMarket> {
    match ReplyAt(replies, b)
    case Page(ms) => ms
    case Failed => []
  }

  /** The loop ends at request `b`: it failed or brought an empty page. */
  predicate Stops(replies: seq<PageReply>, b: nat) {
    ReplyAt(replies, b).Failed? || |PageOf(replies, b)| == 0
  }

  /** The valid markets of one page, in page order. */
  function ValidOf(page: seq<ApiMarket>): (r: seq<ApiMarket>)
    ensures |r| <= |page|
    ensures forall m :: m in r ==> IsValidBtc15MinMarket(m)
  {
    if |page| == 0 then []
    else ValidOf(page[..|page| - 1]) + (if IsValidBtc15MinMarket(page[|page| - 1]) then [page[|page| - 1]] else [])
  }

  /** The valid markets of the first `b` pages, in order. */
  function PagesUpTo(replies: seq<PageReply>, b: nat): (r: seq<ApiMarket>)
    ensures forall m :: m in r ==> IsValidBtc15MinMarket(m)
  {
    if b == 0 then [] else PagesUpTo(replies, b - 1) + ValidOf(PageOf(replies, b - 1))
  }

  /** The first request, from `b` on, that ends the loop, or `MaxBatches`. */
  function FirstStop(replies: seq<PageReply>, b: nat): (r: nat)
    ensures b <= MaxBatches ==> b <= r <= MaxBatches
    decreases MaxBatches - b
  {
    if b >= MaxBatches || Stops(replies, b) then b else FirstStop(replies, b + 1)
  }

  /** Every valid market the pages offer: those of the pages before the loop would stop. */
  function AllValid(replies: seq<PageReply>): seq<ApiMarket> {
    PagesUpTo(replies, FirstStop(replies, 0))
  }

  /** The first `max` elements of `s` (none when `max <= 0`). */
  function Take(s: seq<ApiMarket>, max: int): (r: seq<ApiMarket>)
    ensures |r| == if max <= 0 then 0 else if |s| <= max then |s| else max
    ensures r <= s
  {
    if max <= 0 then [] else if |s| <= max then s else s[..max]
  }

  /** The number of requests made from request `b` on: one is made while fewer than `max`
      markets are held, and the loop goes on after it only when its page was non-empty. */
  function RequestsFrom(replies: seq<PageReply>, max: int, b: nat): (r: nat)
    ensures b <= MaxBatches ==> r <= MaxBatches - b
    decreases MaxBatches - b
  {
    if b >= MaxBatches || |PagesUpTo(replies, b)| >= max then 0
    else if Stops(replies, b) then 1
    else 1 + RequestsFrom(replies, max, b + 1)
  }

  /** Later pages only extend the collected markets. */
  lemma {:induction false} PagesUpToGrows(replies: seq<PageReply>, b: nat, c: nat)
    requires b <= c
    ensures PagesUpTo(replies, b) <= PagesUpTo(replies, c)
    decreases c - b
  {
    if b < c {
      PagesUpToGrows(replies, b, c - 1);
    }
  }

  /** Once `max` markets are held, further markets change nothing of the first `max`. */
  lemma TakeFull(s: seq<ApiMarket>, t: seq<ApiMarket>, max: int)
    requires s <= t && |s| >= max
    ensures Take(t, max) == Take(s, max)
  {
    if max > 0 {
      assert t[..max] == s[..max];
    }
  }

  /** One pass of the inner loop while fewer than `max` markets are held. */
  lemma ScanStep(held: seq<ApiMarket>, page: seq<ApiMarket>, j: nat, markets: seq<ApiMarket>, max: int)
    requires j < |page| && markets == Take(held + ValidOf(page[..j]), max) && |markets| < max
    ensures (if IsValidBtc15MinMarket(page[j]) then markets + [page[j]] else markets)
            == Take(held + ValidOf(page[..j + 1]), max)
  {
    var next := page[..j + 1];
    assert next[..|next| - 1] == page[..j];
    assert markets == held + ValidOf(page[..j]);
  }

  /** The inner loop's early exit: with `max` markets held, the rest of the page adds nothing. */
  lemma ScanFull(held: seq<ApiMarket>, page: seq<ApiMarket>, j: nat, markets: seq<ApiMarket>, max: int)
    requires j <= |page| && markets == Take(held + ValidOf(page[..j]), max) && |markets| >= max
    ensures markets == Take(held + ValidOf(page), max)
  {
    var a := ValidOf(page[..j]);
    var b := ValidOf(page);
    ValidOfPrefix(page, j);
    PrefixExtends(held, a, b);
    TakeFull(held + a, held + b, max);
  }

  /** A common front keeps one sequence a prefix of another. */
  lemma PrefixExtends(h: seq<ApiMarket>, a: seq<ApiMarket>, b: seq<ApiMarket>)
    requires a <= b
    ensures h + a <= h + b
  {
    assert (h + b)[..|h + a|] == h + b[..|a|];
  }

  /** The inner loop over one page: valid markets are appended while fewer than `max` are
      held. */
  method ScanPage(markets0: seq<ApiMarket>, held: seq<ApiMarket>, page: seq<ApiMarket>, max: int)
    returns (markets: seq<ApiMarket>)
    requires markets0 == Take(held, max)
    ensures markets == Take(held + ValidOf(page), max)
  {
    markets := markets0;
    var j := 0;
    assert held + ValidOf(page[..0]) == held;
    while j < |page|
      invariant 0 <= j <= |page|
      invariant markets == Take(held + ValidOf(page[..j]), max)
    {
      if |markets| >= max {
        ScanFull(held, page, j, markets, max);
        return;
      }
      ScanStep(held, page, j, markets, max);
      if IsValidBtc15MinMarket(page[j]) {
        markets := markets + [page[j]];
      }
      j := j + 1;
    }
    assert page[..|page|] == page;
  }

  /** The valid markets of a prefix of a page are a prefix of the page's. */
  lemma {:induction false} ValidOfPrefix(page: seq<ApiMarket>, j: nat)
    requires j <= |page|
    ensures ValidOf(page[..j]) <= ValidOf(page)
    decreases |page| - j
  {
    if j < |page| {
      ValidOfPrefix(page, j + 1);
      var next := page[..j + 1];
      assert next[..|next| - 1] == page[..j];
      assert ValidOf(page[..j]) <= ValidOf(next);
    } else {
      assert page[..j] == page;
    }
  }

  /** The state of the fetch loop before request `b`: `markets` holds the first `max` valid
      markets of the earlier pages, none of which stopped the loop. */
  ghost predicate Fetched(replies: seq<PageReply>, max: int, b: nat, markets: seq<ApiMarket>) {
    && b <= MaxBatches
    && FirstStop(replies, 0) == FirstStop(replies, b)
    && RequestsFrom(replies, max, 0) == b + RequestsFrom(replies, max, b)
    && markets == Take(PagesUpTo(replies, b), max)
  }

  lemma FetchStart(replies: seq<PageReply>, max: int)
    ensures Fetched(replies, max, 0, [])
  {
  }

  /** A request with a non-empty page: the loop goes on to the next one. */
  lemma FetchStep(replies: seq<PageReply>, max: int, b: nat, markets: seq<ApiMarket>, next: seq<ApiMarket>)
    requires Fetched(replies, max, b, markets) && b < MaxBatches && !Stops(replies, b) && |markets| < max
    requires next == Take(PagesUpTo(replies, b) + ValidOf(PageOf(replies, b)), max)
    ensures Fetched(replies, max, b + 1, next)
  {
    assert FirstStop(replies, b) == FirstStop(replies, b + 1);
    assert RequestsFrom(replies, max, b) == 1 + RequestsFrom(replies, max, b + 1);
  }

  /** A request that fails or brings an empty page is the last one. */
  lemma FetchStop(replies: seq<PageReply>, max: int, b: nat, markets: seq<ApiMarket>)
    requires Fetched(replies, max, b, markets) && b < MaxBatches && Stops(replies, b) && |markets| < max
    ensures markets == Take(AllValid(replies), max)
    ensures RequestsFrom(replies, max, 0) == b + 1
  {
    assert FirstStop(replies, b) == b;
    assert RequestsFrom(replies, max, b) == 1;
  }

  /** Once `max` markets are held, the result is complete and no further request is made. */
  lemma FetchFull(replies: seq<PageReply>, max: int, b: nat, markets: seq<ApiMarket>)
    requires Fetched(replies, max, b, markets) && |markets| >= max
    ensures markets == Take(AllValid(replies), max)
    ensures RequestsFrom(replies, max, 0) == b
  {
    PagesUpToGrows(replies, b, FirstStop(replies, b));
    TakeFull(PagesUpTo(replies, b), AllValid(replies), max);
  }

  /** After the last batch, every page has been read. */
  lemma FetchEnd(replies: seq<PageReply>, max: int, markets: seq<ApiMarket>)
    requires Fetched(replies, max, MaxBatches, markets)
    ensures markets == Take(AllValid(replies), max)
    ensures RequestsFrom(replies, max, 0) == MaxBatches
  {
    assert FirstStop(replies, MaxBatches) == MaxBatches;
  }

  /** The offsets of the first `n` requests: `batch * BATCH_SIZE` for each batch number. */
  function OffsetsUpTo(n: nat): (r: seq<nat>)
    ensures |r| == n
    ensures forall i :: 0 <= i < n ==> r[i] == i * BatchSize
  {
    if n == 0 then [] else OffsetsUpTo(n - 1) + [(n - 1) * BatchSize]
  }

  /** The batch loop of `get_btc_15min_markets` from request `b` on, with `markets` held:
      the markets it keeps and the number of requests it makes in all. */
  method FetchFrom(maxMarkets: int, replies: seq<PageReply>, b: nat, markets: seq<ApiMarket>)
    returns (kept: seq<ApiMarket>, sent: nat)
    requires Fetched(replies, maxMarkets, b, markets)
    ensures kept == Take(AllValid(replies), maxMarkets)
    ensures sent == RequestsFrom(replies, maxMarkets, 0)
    decreases MaxBatches - b
  {
    if b >= MaxBatches {
      FetchEnd(replies, maxMarkets, markets);
      return markets, b;
    }
    if |markets| >= maxMarkets {
      FetchFull(replies, maxMarkets, b, markets);
      return markets, b;
    }
    if Stops(replies, b) {
      FetchStop(replies, maxMarkets, b, markets);
      return markets, b + 1;
    }
    var next := ScanPage(markets, PagesUpTo(replies, b), PageOf(replies, b), maxMarkets);
    FetchStep(replies, maxMarkets, b, markets, next);
    kept, sent := FetchFrom(maxMarkets, replies, b + 1, next);
  }

  /** `get_btc_15min_markets`: up to `MAX_BATCHES` requests at offsets `batch * BATCH_SIZE`,
      stopping at a failure, an empty page, or once `maxMarkets` valid markets are held.
      `replies[i]` answers the `i`-th request. Returns the markets and the offsets requested:
      the markets are the first `maxMarkets` of every valid market the pages offer, in order. */
  method GetBtc15MinMarkets(maxMarkets: int, replies: seq<PageReply>) returns (markets: seq<ApiMarket>, offsets: seq<nat>)
    ensures markets == Take(AllValid(replies), maxMarkets)
    ensures |offsets| == RequestsFrom(replies, maxMarkets, 0)
    ensures maxMarkets <= 0 ==> |markets| == 0 && |offsets| == 0
    ensures |offsets| <= MaxBatches
    ensures forall i :: 0 <= i < |offsets| ==> offsets[i] == i * BatchSize
    ensures forall m :: m in markets ==> IsValidBtc15MinMarket(m)
  {
    var sent;
    FetchStart(replies, maxMarkets);
    markets, sent := FetchFrom(maxMarkets, replies, 0, []);
    offsets := OffsetsUpTo(sent);
    assert forall m :: m in markets ==> m in AllValid(replies) by {
      var all := AllValid(replies);
      assert markets == all[..|markets|];
    }
  }
}

=== FILE: risk_manager.dfy ===
/** `FastRiskManager` (risk_manager.py): stop-loss prices and consecutive missing-price
    counters per token, checked against the trader's position table on every tick.

    The stop-loss sell goes through `trader.execute_presigned_stop_loss`, which trader.py
    does not define; its outcome is a parameter here (`sellOk`: the tokens whose sell comes
    back truthy). With the shipped trader.py the call raises, which is the failure outcome. */
module RiskManager {
  import opened Wrappers
  import opened Collections
  import Config
  import opened Trader

  /** After this many consecutive checks without a price, the market is taken as resolved. */
  const NoPriceThreshold: nat := 10

  datatype RiskState = RiskState(stopLosses: map<TokenId, real>, noPriceCount: map<TokenId, nat>)

  const EmptyRisk: RiskState := RiskState(map[], map[])

  /** The trader and risk manager after a check, and the tokens for which a stop-loss sell
      was attempted, in the order attempted. */
  datatype CheckResult = CheckResult(trader: TraderState, risk: RiskState, sellAttempts: seq<TokenId>)

  /** Everything a check can change about one token. */
  datatype TokenView = TokenView(held: Option<Position>, stop: Option<real>, misses: Option<nat>)

  function ViewOf(tr: TraderState, rs: RiskState, t: TokenId): TokenView {
    TokenView(Lookup(tr.positions, t), Lookup(rs.stopLosses, t), Lookup(rs.noPriceCount, t))
  }

  /** The stop price a check uses for `t`: the armed one, or the configured default it arms. */
  function StopOf(rs: RiskState, t: TokenId): real {
    if t in rs.stopLosses then rs.stopLosses[t] else Config.StopLossPrice
  }

  /** The consecutive missing-price count of `t` (0 when untracked). */
  function MissesOf(rs: RiskState, t: TokenId): nat {
    if t in rs.noPriceCount then rs.noPriceCount[t] else 0
  }

  /** `set_stop_loss`: arms (or re-arms) `token` at `price`, touching nothing else. */
  function SetStopLoss(rs: RiskState, token: TokenId, price: real): (r: RiskState)
    ensures Lookup(r.stopLosses, token) == Some(price)
    ensures AgreeExcept(rs.stopLosses, r.stopLosses, token)
    ensures r.noPriceCount == rs.noPriceCount
  {
    rs.(stopLosses := rs.stopLosses[token := price])
  }

  /** `remove_stop_loss`: forgets the stop price and the miss counter of `token` only; a
      no-op when neither is present. */
  function RemoveStopLoss(rs: RiskState, token: TokenId): (r: RiskState)
    ensures token !in r.stopLosses && token !in r.noPriceCount
    ensures AgreeExcept(rs.stopLosses, r.stopLosses, token)
    ensures AgreeExcept(rs.noPriceCount, r.noPriceCount, token)
    ensures token !in rs.stopLosses && token !in rs.noPriceCount ==> r == rs
  {
    RiskState(rs.stopLosses - {token}, rs.noPriceCount - {token})
  }

  /** `_cleanup_resolved_position`: the position leaves the trader's table and the
      risk manager's own entries for the token go too. No order is sent. */
  function CleanupResolvedPosition(tr: TraderState, rs: RiskState, token: TokenId): (r: CheckResult)
    ensures ViewOf(r.trader, r.risk, token) == TokenView(None, None, None)
    ensures r.sellAttempts == []
  {
    CheckResult(RemovePosition(tr, token), RemoveStopLoss(rs, token), [])
  }

  /** `_handle_no_price`: one more miss; on reaching the threshold the position is cleaned up. */
  function HandleNoPrice(tr: TraderState, rs: RiskState, token: TokenId): (r: CheckResult)
    ensures MissesOf(rs, token) + 1 < NoPriceThreshold ==>
              ViewOf(r.trader, r.risk, token)
                == TokenView(Lookup(tr.positions, token), Lookup(rs.stopLosses, token), Some(MissesOf(rs, token) + 1))
    ensures MissesOf(rs, token) + 1 >= NoPriceThreshold ==> ViewOf(r.trader, r.risk, token) == TokenView(None, None, None)
    ensures r.sellAttempts == []
  {
    var count := MissesOf(rs, token) + 1;
    var rs1 := rs.(noPriceCount := rs.noPriceCount[token := count]);
    if count >= NoPriceThreshold then CleanupResolvedPosition(tr, rs1, token)
    else CheckResult(tr, rs1, [])
  }

  /** `_execute_stop_loss`: a sell is attempted; only a truthy answer clears the token's
      stop-loss bookkeeping (so a failed one is retried next check). The trader's position
      is not removed here. */
  function ExecuteStopLoss(tr: TraderState, rs: RiskState, token: TokenId, sellOk: bool): (r: CheckResult)
    ensures r.sellAttempts == [token]
    ensures r.trader == tr
    ensures sellOk ==> token !in r.risk.stopLosses && token !in r.risk.noPriceCount
    ensures !sellOk ==> r.risk == rs
  {
    if sellOk then CheckResult(tr, RemoveStopLoss(rs, token), [token]) else CheckResult(tr, rs, [token])
  }

  /** What one check does to one held token, stated declaratively from the token's own
      entries before (`before`) and after (`after`), its price this tick, whether a stop-loss
      sell would succeed, and whether one was attempted:
      - the stop price used is the armed one, or the configured default, which gets armed;
      - no price: the miss counter goes up by exactly one and nothing is sold, until the
        counter reaches the threshold, when position, stop and counter all go;
      - a price: the position stays, the counter restarts at 0, and a sell is attempted
        exactly when the price is at or below the stop; a successful one clears the token's
        stop and counter (the position is kept), a failed one keeps them for a retry. */
  ghost predicate TokenRule(before: TokenView, after: TokenView, price: Option<real>, sellOk: bool, attempted: bool) {
    var stop := before.stop.GetOr(Config.StopLossPrice);
    var misses := before.misses.GetOr(0);
    && (price.None? ==>
          && !attempted
          && (if misses + 1 < NoPriceThreshold
              then after == TokenView(before.held, Some(stop), Some(misses + 1))
              else after == TokenView(None, None, None)))
    && (price.Some? ==>
          && (attempted <==> price.value <= stop)
          && after.held == before.held
          && (if attempted && sellOk
              then after.stop.None? && after.misses.None?
              else after.stop == Some(stop) && after.misses == Some(0)))
  }

  /** The body of the loop in `check_stop_losses`, for one position's token: arm the
      default stop if none is armed, then count a miss or compare the price to the stop. */
  function CheckPosition(tr: TraderState, rs: RiskState, token: TokenId,
                         prices: map<TokenId, real>, sellOk: set<TokenId>): (r: CheckResult)
    ensures TokenRule(ViewOf(tr, rs, token), ViewOf(r.trader, r.risk, token),
                      Lookup(prices, token), token in sellOk, token in r.sellAttempts)
    ensures AgreeExcept(tr.positions, r.trader.positions, token)
    ensures AgreeExcept(rs.stopLosses, r.risk.stopLosses, token)
    ensures AgreeExcept(rs.noPriceCount, r.risk.noPriceCount, token)
    ensures r.trader.hasClient == tr.hasClient && r.trader.tickSizes == tr.tickSizes
    ensures r.sellAttempts == [] || r.sellAttempts == [token]
  {
    var rs1 := if token in rs.stopLosses then rs else SetStopLoss(rs, token, Config.StopLossPrice);
    if token !in prices then HandleNoPrice(tr, rs1, token)
    else
      var rs2 := rs1.(noPriceCount := rs1.noPriceCount[token := 0]);
      if prices[token] <= rs2.stopLosses[token] then ExecuteStopLoss(tr, rs2, token, token in sellOk)
      else CheckResult(tr, rs2, [])
  }

  /** `r` is what checking the tokens of `order` from `tr` and `rs` may give: each listed
      token obeys `TokenRule` against its entries at the start, as if its loop body had run
      alone; every other token is untouched; sells are attempted only for listed tokens,
      each at most once. */
  ghost predicate ChecksOnly(tr: TraderState, rs: RiskState, order: seq<TokenId>,
                             prices: map<TokenId, real>, sellOk: set<TokenId>, r: CheckResult) {
    && (forall t :: t !in order ==> ViewOf(r.trader, r.risk, t) == ViewOf(tr, rs, t))
    && (forall t :: t in order ==>
          TokenRule(ViewOf(tr, rs, t), ViewOf(r.trader, r.risk, t), Lookup(prices, t), t in sellOk, t in r.sellAttempts))
    && (forall t :: t in r.sellAttempts ==> t in order)
    && NoDup(r.sellAttempts)
    && r.trader.hasClient == tr.hasClient && r.trader.tickSizes == tr.tickSizes
  }

  /** The loop body for one token is a check of that token alone. */
  lemma PositionChecksOnly(tr: TraderState, rs: RiskState, token: TokenId,
                           prices: map<TokenId, real>, sellOk: set<TokenId>)
    ensures ChecksOnly(tr, rs, [token], prices, sellOk, CheckPosition(tr, rs, token, prices, sellOk))
  {
    var r := CheckPosition(tr, rs, token, prices, sellOk);
    assert forall t :: t in [token] <==> t == token;
    forall t | t != token ensures ViewOf(r.trader, r.risk, t) == ViewOf(tr, rs, t) { }
  }

  /** Checking one token and then the rest of the order is a check of the whole order:
      the later tokens see the first one's entries untouched, and it sees theirs untouched. */
  lemma ChecksCompose(tr: TraderState, rs: RiskState, first: TokenId, rest: seq<TokenId>,
                      prices: map<TokenId, real>, sellOk: set<TokenId>, step: CheckResult, later: CheckResult)
    requires first !in rest
    requires ChecksOnly(tr, rs, [first], prices, sellOk, step)
    requires ChecksOnly(step.trader, step.risk, rest, prices, sellOk, later)
    ensures ChecksOnly(tr, rs, [first] + rest, prices, sellOk,
                       CheckResult(later.trader, later.risk, step.sellAttempts + later.sellAttempts))
  {
    var r := CheckResult(later.trader, later.risk, step.sellAttempts + later.sellAttempts);
    var order := [first] + rest;
    assert forall t :: t in order <==> t in [first] || t in rest;
    assert forall t :: t in r.sellAttempts <==> t in step.sellAttempts || t in later.sellAttempts;
    NoDupConcat(step.sellAttempts, later.sellAttempts);
  }

  /** The loop of `check_stop_losses` over the tokens of the positions snapshot, in order. */
  function CheckTokens(tr: TraderState, rs: RiskState, order: seq<TokenId>,
                       prices: map<TokenId, real>, sellOk: set<TokenId>): (r: CheckResult)
    requires NoDup(order)
    ensures ChecksOnly(tr, rs, order, prices, sellOk, r)
    decreases |order|
  {
    if |order| == 0 then CheckResult(tr, rs, [])
    else
      var first := order[0];
      assert NoDup(order[1..]) && first !in order[1..] by {
        forall i | 0 <= i < |order[1..]| ensures order[1..][i] != first {
          assert order[1..][i] == order[i + 1];
        }
      }
      var step := CheckPosition(tr, rs, first, prices, sellOk);
      var rest := CheckTokens(step.trader, step.risk, order[1..], prices, sellOk);
      PositionChecksOnly(tr, rs, first, prices, sellOk);
      ChecksCompose(tr, rs, first, order[1..], prices, sellOk, step, rest);
      assert [first] + order[1..] == order;
      CheckResult(rest.trader, rest.risk, step.sellAttempts + rest.sellAttempts)
  }

  /** `check_stop_losses(current_prices)`. `order` is the iteration order of the positions
      snapshot (every tracked token once); `enabled` is `ENABLE_STOP_LOSS`. */
  function CheckStopLosses(enabled: bool, tr: TraderState, rs: RiskState, prices: map<TokenId, real>,
                           sellOk: set<TokenId>, order: seq<TokenId>): (r: CheckResult)
    requires Enumerates(order, tr.positions.Keys)
    ensures !enabled ==> r == CheckResult(tr, rs, [])
    ensures enabled ==> forall t :: t in tr.positions ==>
              TokenRule(ViewOf(tr, rs, t), ViewOf(r.trader, r.risk, t), Lookup(prices, t), t in sellOk, t in r.sellAttempts)
    ensures forall t :: t !in tr.positions ==> ViewOf(r.trader, r.risk, t) == ViewOf(tr, rs, t)
    ensures forall t :: t in r.sellAttempts ==> t in tr.positions
    ensures NoDup(r.sellAttempts)
    ensures r.trader.hasClient == tr.hasClient && r.trader.tickSizes == tr.tickSizes
  {
    if !enabled then CheckResult(tr, rs, []) else CheckTokens(tr, rs, order, prices, sellOk)
  }

  /** `check_take_profit`: a sell at the current price for the position's shares, only
      when there is a position and the price reached `takeProfit`; the bookkeeping is
      cleared only after a truthy sell. */
  function CheckTakeProfit(tr: TraderState, rs: RiskState, token: TokenId, price: real, takeProfit: real,
                           tickReply: Option<string>, post: PostOutcome): (r: (Placed, RiskState, bool))
    ensures token !in tr.positions || price < takeProfit ==> r == (Placed(tr, None, None), rs, false)
    ensures r.2 ==> token !in r.0.trader.positions && token !in r.1.stopLosses && token !in r.1.noPriceCount
    ensures r.2 <==> token in tr.positions && price >= takeProfit && tr.hasClient && post.Posted?
    ensures !r.2 ==> r.1 == rs && r.0.trader.positions == tr.positions
    ensures r.0.request.Some? ==>
              && r.0.request.value.price == Round2(price)
              && !r.0.request.value.isBuy
              && r.0.request.value.size == Round2(tr.positions[token].shares)
    ensures r.0.request.Some? <==> token in tr.positions && price >= takeProfit && tr.hasClient
    ensures r.0.request.Some? ==> r.0.request.value.token == token && r.0.request.value.orderType == FOK
  {
    if token !in tr.positions then (Placed(tr, None, None), rs, false)
    else if price >= takeProfit then
      var placed := PlaceSellOrder(tr, token, price, tr.positions[token].shares, FOK, tickReply, post);
      if placed.response.Some? then (placed, RemoveStopLoss(rs, token), true)
      else (placed, rs, false)
    else (Placed(tr, None, None), rs, false)
  }

  /** `can_open_new_position`: room for another position under the concurrent cap. */
  function CanOpenNewPosition(tr: TraderState): (r: bool)
    ensures !r <==> |tr.positions| >= Config.MaxConcurrentPositions
  {
    |tr.positions| < Config.MaxConcurrentPositions
  }

  /** Some iteration order of a positions snapshot. */
  ghost function SnapshotOrder(keys: set<TokenId>): (s: seq<TokenId>)
    ensures Enumerates(s, keys)
    decreases keys
  {
    if keys == {} then []
    else
      var k :| k in keys;
      var rest := SnapshotOrder(keys - {k});
      assert forall i :: 0 <= i < |rest| ==> ([k] + rest)[i + 1] == rest[i];
      [k] + rest
  }

  /** Consecutive checks, one per price map in `ticks`, with stop-loss enabled. */
  ghost function RunChecks(tr: TraderState, rs: RiskState, ticks: seq<map<TokenId, real>>, sellOk: set<TokenId>): (r: CheckResult)
    decreases |ticks|
  {
    if |ticks| == 0 then CheckResult(tr, rs, [])
    else
      var first := CheckStopLosses(true, tr, rs, ticks[0], sellOk, SnapshotOrder(tr.positions.Keys));
      var rest := RunChecks(first.trader, first.risk, ticks[1..], sellOk);
      CheckResult(rest.trader, rest.risk, first.sellAttempts + rest.sellAttempts)
  }

  /** A token without a position is never touched again, and never sold. */
  lemma {:induction false} UnheldStaysUntouched(tr: TraderState, rs: RiskState, ticks: seq<map<TokenId, real>>,
                                                sellOk: set<TokenId>, t: TokenId)
    requires t !in tr.positions
    ensures var r := RunChecks(tr, rs, ticks, sellOk);
            ViewOf(r.trader, r.risk, t) == ViewOf(tr, rs, t) && t !in r.sellAttempts
    decreases |ticks|
  {
    if |ticks| > 0 {
      var first := CheckStopLosses(true, tr, rs, ticks[0], sellOk, SnapshotOrder(tr.positions.Keys));
      UnheldStaysUntouched(first.trader, first.risk, ticks[1..], sellOk, t);
    }
  }

  /** One check of a held token that has no price. */
  lemma OneMissingCheck(tr: TraderState, rs: RiskState, prices: map<TokenId, real>, sellOk: set<TokenId>, t: TokenId)
    requires t in tr.positions && t !in prices
    ensures var r := CheckStopLosses(true, tr, rs, prices, sellOk, SnapshotOrder(tr.positions.Keys));
            && t !in r.sellAttempts
            && (MissesOf(rs, t) + 1 < NoPriceThreshold ==>
                  && Lookup(r.trader.positions, t) == Lookup(tr.positions, t)
                  && MissesOf(r.risk, t) == MissesOf(rs, t) + 1 && t in r.risk.noPriceCount
                  && t in r.risk.stopLosses)
            && (MissesOf(rs, t) + 1 >= NoPriceThreshold ==>
                  t !in r.trader.positions && t !in r.risk.stopLosses && t !in r.risk.noPriceCount)
  {
    var r := CheckStopLosses(true, tr, rs, prices, sellOk, SnapshotOrder(tr.positions.Keys));
    assert TokenRule(ViewOf(tr, rs, t), ViewOf(r.trader, r.risk, t), Lookup(prices, t), t in sellOk, t in r.sellAttempts);
  }

  /** A token that gets no price is never sold, held or not. */
  lemma {:induction false} NoSellWithoutPrice(tr: TraderState, rs: RiskState, ticks: seq<map<TokenId, real>>,
                                              sellOk: set<TokenId>, t: TokenId)
    requires forall i :: 0 <= i < |ticks| ==> t !in ticks[i]
    ensures t !in RunChecks(tr, rs, ticks, sellOk).sellAttempts
    decreases |ticks|
  {
    if |ticks| > 0 {
      var first := CheckStopLosses(true, tr, rs, ticks[0], sellOk, SnapshotOrder(tr.positions.Keys));
      assert t in tr.positions ==> Lookup(ticks[0], t).None?;
      assert ticks[1..] == ticks[1..] && forall i :: 0 <= i < |ticks[1..]| ==> ticks[1..][i] == ticks[i + 1];
      NoSellWithoutPrice(first.trader, first.risk, ticks[1..], sellOk, t);
    }
  }

  /** Below the threshold, each price-less check adds one miss and keeps the position. */
  lemma {:induction false} MissesBelowThreshold(tr: TraderState, rs: RiskState, ticks: seq<map<TokenId, real>>,
                                                sellOk: set<TokenId>, t: TokenId)
    requires t in tr.positions
    requires MissesOf(rs, t) + |ticks| < NoPriceThreshold
    requires forall i :: 0 <= i < |ticks| ==> t !in ticks[i]
    ensures var r := RunChecks(tr, rs, ticks, sellOk);
            && Lookup(r.trader.positions, t) == Lookup(tr.positions, t)
            && MissesOf(r.risk, t) == MissesOf(rs, t) + |ticks|
            && (|ticks| > 0 ==> t in r.risk.stopLosses)
    decreases |ticks|
  {
    if |ticks| > 0 {
      var first := CheckStopLosses(true, tr, rs, ticks[0], sellOk, SnapshotOrder(tr.positions.Keys));
      OneMissingCheck(tr, rs, ticks[0], sellOk, t);
      assert forall i :: 0 <= i < |ticks[1..]| ==> ticks[1..][i] == ticks[i + 1];
      MissesBelowThreshold(first.trader, first.risk, ticks[1..], sellOk, t);
    }
  }

  /** Once the misses reach the threshold, position, stop and counter are gone for good. */
  lemma {:induction false} MissesReachThreshold(tr: TraderState, rs: RiskState, ticks: seq<map<TokenId, real>>,
                                                sellOk: set<TokenId>, t: TokenId)
    requires t in tr.positions
    requires MissesOf(rs, t) < NoPriceThreshold <= MissesOf(rs, t) + |ticks|
    requires forall i :: 0 <= i < |ticks| ==> t !in ticks[i]
    ensures var r := RunChecks(tr, rs, ticks, sellOk);
            t !in r.trader.positions && t !in r.risk.stopLosses && t !in r.risk.noPriceCount
    decreases |ticks|
  {
    var first := CheckStopLosses(true, tr, rs, ticks[0], sellOk, SnapshotOrder(tr.positions.Keys));
    OneMissingCheck(tr, rs, ticks[0], sellOk, t);
    assert forall i :: 0 <= i < |ticks[1..]| ==> ticks[1..][i] == ticks[i + 1];
    if MissesOf(rs, t) + 1 < NoPriceThreshold {
      MissesReachThreshold(first.trader, first.risk, ticks[1..], sellOk, t);
    } else {
      UnheldStaysUntouched(first.trader, first.risk, ticks[1..], sellOk, t);
    }
  }

  /** Resolved-market inference: while a held token gets no price, its miss counter counts
      the checks; it stays held while the count is below `NoPriceThreshold`, and on reaching
      it the position, stop and counter are all gone. No sell is ever attempted for it. */
  lemma MissingPriceRun(tr: TraderState, rs: RiskState, ticks: seq<map<TokenId, real>>,
                        sellOk: set<TokenId>, t: TokenId)
    requires t in tr.positions
    requires MissesOf(rs, t) < NoPriceThreshold
    requires forall i :: 0 <= i < |ticks| ==> t !in ticks[i]
    ensures var r := RunChecks(tr, rs, ticks, sellOk);
            && t !in r.sellAttempts
            && (MissesOf(rs, t) + |ticks| < NoPriceThreshold ==>
                  && Lookup(r.trader.positions, t) == Lookup(tr.positions, t)
                  && MissesOf(r.risk, t) == MissesOf(rs, t) + |ticks|
                  && (|ticks| > 0 ==> t in r.risk.stopLosses))
            && (MissesOf(rs, t) + |ticks| >= NoPriceThreshold ==>
                  t !in r.trader.positions && t !in r.risk.stopLosses && t !in r.risk.noPriceCount)
  {
    NoSellWithoutPrice(tr, rs, ticks, sellOk, t);
    if MissesOf(rs, t) + |ticks| < NoPriceThreshold {
      MissesBelowThreshold(tr, rs, ticks, sellOk, t);
    } else {
      MissesReachThreshold(tr, rs, ticks, sellOk, t);
    }
  }

  /** With a fresh counter, a position survives nine price-less checks and is cleaned up on
      the tenth, without any sell. */
  lemma SurvivesNineMissesGoneOnTenth(tr: TraderState, rs: RiskState, ticks: seq<map<TokenId, real>>,
                                      sellOk: set<TokenId>, t: TokenId)
    requires t in tr.positions && t !in rs.noPriceCount
    requires |ticks| == NoPriceThreshold
    requires forall i :: 0 <= i < |ticks| ==> t !in ticks[i]
    ensures t in RunChecks(tr, rs, ticks[..NoPriceThreshold - 1], sellOk).trader.positions
    ensures t !in RunChecks(tr, rs, ticks, sellOk).trader.positions
    ensures t !in RunChecks(tr, rs, ticks, sellOk).sellAttempts
  {
    MissingPriceRun(tr, rs, ticks[..NoPriceThreshold - 1], sellOk, t);
    MissingPriceRun(tr, rs, ticks, sellOk, t);
  }

  /** As written, a successful stop-loss sell keeps the trader's position, so the next check
      re-arms the default stop and, while the price stays at or below it, sells again. */
  lemma StopLossRepeatsWhilePositionHeld(tr: TraderState, rs: RiskState, prices: map<TokenId, real>,
                                         sellOk: set<TokenId>, t: TokenId)
    requires t in tr.positions && t in prices && t in sellOk
    requires prices[t] <= StopOf(rs, t) && prices[t] <= Config.StopLossPrice
    ensures var once := CheckStopLosses(true, tr, rs, prices, sellOk, SnapshotOrder(tr.positions.Keys));
            && t in once.sellAttempts
            && t in once.trader.positions
            && t !in once.risk.stopLosses
            && var twice := CheckStopLosses(true, once.trader, once.risk, prices, sellOk, SnapshotOrder(once.trader.positions.Keys));
               t in twice.sellAttempts
  {
    var once := CheckStopLosses(true, tr, rs, prices, sellOk, SnapshotOrder(tr.positions.Keys));
    assert TokenRule(ViewOf(tr, rs, t), ViewOf(once.trader, once.risk, t), Lookup(prices, t), t in sellOk, t in once.sellAttempts);
    var twice := CheckStopLosses(true, once.trader, once.risk, prices, sellOk, SnapshotOrder(once.trader.positions.Keys));
    assert TokenRule(ViewOf(once.trader, once.risk, t), ViewOf(twice.trader, twice.risk, t), Lookup(prices, t), t in sellOk, t in twice.sellAttempts);
  }
}

=== FILE: text.dfy ===
/** Text helpers: ASCII lower-casing, substring search, slicing and decimal rendering. */
module Text {

  /** ASCII lower-casing of one character. */
  function LowerChar(c: char): (r: char)
    ensures 'A' <= c <= 'Z' ==> r as int == c as int + 32
    ensures !('A' <= c <= 'Z') ==> r == c
  {
    if 'A' <= c <= 'Z' then (c as int + 32) as char else c
  }

  /** `s.lower()`, restricted to ASCII letters. */
  function Lower(s: string): (r: string)
    ensures |r| == |s|
    ensures forall i :: 0 <= i < |s| ==> r[i] == LowerChar(s[i])
  {
    if |s| == 0 then "" else [LowerChar(s[0])] + Lower(s[1..])
  }

  /** `sub` occurs in `s` starting at index `i`. */
  predicate OccursAt(s: string, sub: string, i: nat) {
    i + |sub| <= |s| && s[i..i + |sub|] == sub
  }

  /** Python's `sub in s` for strings. */
  predicate Contains(s: string, sub: string) {
    exists i: nat | i <= |s| :: OccursAt(s, sub, i)
  }

  /** `s[:n]` for a non-negative `n`. */
  function Prefix(s: string, n: nat): (r: string)
    ensures |r| == if |s| < n then |s| else n
    ensures r <= s
  {
    if |s| <= n then s else s[..n]
  }

  predicate IsDigit(c: char) {
    '0' <= c <= '9'
  }

  function DigitChar(d: nat): (c: char)
    requires d < 10
    ensures IsDigit(c) && (c as int) - ('0' as int) == d
  {
    (('0' as int) + d) as char
  }

  function DigitValue(c: char): (d: nat)
    requires IsDigit(c)
    ensures d < 10
  {
    (c as int) - ('0' as int)
  }

  /** The decimal rendering of `n`, as `f"{n}"` prints it: no sign, no leading zero. */
  function NatToDecimal(n: nat): (s: string)
    ensures 1 <= |s|
    ensures forall i :: 0 <= i < |s| ==> IsDigit(s[i])
    ensures |s| > 1 ==> s[0] != '0'
    decreases n
  {
    if n < 10 then [DigitChar(n)] else NatToDecimal(n / 10) + [DigitChar(n % 10)]
  }

  /** The number a string of decimal digits denotes (the inverse of `NatToDecimal`). */
  function DecimalValue(s: string): nat
    requires forall i :: 0 <= i < |s| ==> IsDigit(s[i])
  {
    if |s| == 0 then 0 else 10 * DecimalValue(s[..|s| - 1]) + DigitValue(s[|s| - 1])
  }

  lemma {:induction false} DecimalRoundTrip(n: nat)
    ensures DecimalValue(NatToDecimal(n)) == n
    decreases n
  {
    if n >= 10 {
      var s := NatToDecimal(n);
      assert s[..|s| - 1] == NatToDecimal(n / 10);
      DecimalRoundTrip(n / 10);
    }
  }

  /** `f"{x}"` for any integer. */
  function IntToDecimal(x: int): (s: string)
    ensures 1 <= |s|
    ensures x < 0 <==> s[0] == '-'
  {
    if x < 0 then "-" + NatToDecimal(-x) else NatToDecimal(x)
  }

  /** Reads back what `IntToDecimal` writes: an optional minus sign and at least one digit. */
  function ParseInt(s: string): (r: int)
    requires 1 <= |s|
    requires s[0] == '-' ==> 2 <= |s|
    requires forall i :: (if s[0] == '-' then 1 else 0) <= i < |s| ==> IsDigit(s[i])
  {
    if s[0] == '-' then -(DecimalValue(s[1..]) as int) else DecimalValue(s)
  }

  lemma IntRoundTrip(x: int)
    ensures var s := IntToDecimal(x); s[0] == '-' ==> 2 <= |s|
    ensures var s := IntToDecimal(x);
      forall i :: (if s[0] == '-' then 1 else 0) <= i < |s| ==> IsDigit(s[i])
    ensures ParseInt(IntToDecimal(x)) == x
  {
    var s := IntToDecimal(x);
    if x < 0 {
      assert s[1..] == NatToDecimal(-x);
      DecimalRoundTrip(-x);
    } else {
      DecimalRoundTrip(x);
    }
  }

  /** Distinct integers render as distinct strings. */
  lemma IntToDecimalInjective(x: int, y: int)
    requires x != y
    ensures IntToDecimal(x) != IntToDecimal(y)
  {
    IntRoundTrip(x);
    IntRoundTrip(y);
  }
}

=== FILE: trade_history.dfy ===
/** The summaries of trade_history.py: keeping the Bitcoin up/down trades of a wallet's
    history, and totalling its buys and sells. Fetching the trades is left out. */
module TradeHistory {
  import opened Wrappers

  /** One trade record: `outcome` and `side` as given (a missing side is ""); `price` and
      `size` are `float(...)` of the fields, defaulting to 0, and `None` when that raises. */
  datatype Trade = Trade(outcome: Option<string>, side: string, price: Option<real>, size: Option<real>)

  predicate IsBtcTrade(t: Trade) {
    t.outcome == Some("Up") || t.outcome == Some("Down")
  }

  /** `filter_btc_trades`: the trades on an "Up" or "Down" outcome, in their original order. */
  function FilterBtcTrades(trades: seq<Trade>): (r: seq<Trade>)
    ensures |r| <= |trades|
    ensures forall t :: t in r <==> t in trades && IsBtcTrade(t)
  {
    if |trades| == 0 then []
    else
      var rest := FilterBtcTrades(trades[1..]);
      assert forall t :: t in trades <==> t == trades[0] || t in trades[1..];
      if IsBtcTrade(trades[0]) then [trades[0]] + rest else rest
  }

  /** Filtering distributes over concatenation, so it keeps the relative order of trades. */
  lemma {:induction false} FilterDistributes(a: seq<Trade>, b: seq<Trade>)
    ensures FilterBtcTrades(a + b) == FilterBtcTrades(a) + FilterBtcTrades(b)
    decreases |a|
  {
    if |a| == 0 {
      assert a + b == b;
    } else {
      assert (a + b)[0] == a[0];
      assert (a + b)[1..] == a[1..] + b;
      FilterDistributes(a[1..], b);
    }
  }

  /** Filtering twice keeps the same trades. */
  lemma {:induction false} FilterIdempotent(trades: seq<Trade>)
    ensures FilterBtcTrades(FilterBtcTrades(trades)) == FilterBtcTrades(trades)
    decreases |trades|
  {
    if |trades| > 0 {
      FilterIdempotent(trades[1..]);
    }
  }

  datatype Totals = Totals(
    buyCount: nat, sellCount: nat,
    totalBuysUsd: real, totalSellsUsd: real,
    totalBuyVolume: real, totalSellVolume: real,
    netPnl: real)

  predicate Converts(t: Trade) {
    t.price.Some? && t.size.Some?
  }

  /** Reference sums over the trades with side `side`: how many, Σ price·size and Σ size. */
  function SideCount(ts: seq<Trade>, side: string): nat {
    if |ts| == 0 then 0 else SideCount(ts[..|ts| - 1], side) + (if ts[|ts| - 1].side == side then 1 else 0)
  }

  function SideUsd(ts: seq<Trade>, side: string): real {
    if |ts| == 0 then 0.0
    else
      var t := ts[|ts| - 1];
      SideUsd(ts[..|ts| - 1], side) + (if t.side == side then t.price.GetOr(0.0) * t.size.GetOr(0.0) else 0.0)
  }

  function SideVolume(ts: seq<Trade>, side: string): real {
    if |ts| == 0 then 0.0
    else
      var t := ts[|ts| - 1];
      SideVolume(ts[..|ts| - 1], side) + (if t.side == side then t.size.GetOr(0.0) else 0.0)
  }

  lemma {:induction false} CountsWithinLength(ts: seq<Trade>)
    ensures SideCount(ts, "BUY") + SideCount(ts, "SELL") <= |ts|
  {
    if |ts| > 0 {
      CountsWithinLength(ts[..|ts| - 1]);
    }
  }

  /** `calculate_totals`: `None` when a price or size fails to convert (the exception is not
      caught); otherwise the BUY and SELL sums, with `net_pnl = sells - buys`. Trades with any
      other side add nothing. */
  method CalculateTotals(trades: seq<Trade>) returns (r: Option<Totals>)
    ensures r.Some? <==> forall i :: 0 <= i < |trades| ==> Converts(trades[i])
    ensures r.Some? ==>
              && r.value.buyCount == SideCount(trades, "BUY") && r.value.sellCount == SideCount(trades, "SELL")
              && r.value.totalBuysUsd == SideUsd(trades, "BUY") && r.value.totalSellsUsd == SideUsd(trades, "SELL")
              && r.value.totalBuyVolume == SideVolume(trades, "BUY") && r.value.totalSellVolume == SideVolume(trades, "SELL")
              && r.value.netPnl == r.value.totalSellsUsd - r.value.totalBuysUsd
              && r.value.buyCount + r.value.sellCount <= |trades|
    ensures |trades| == 0 ==> r == Some(Totals(0, 0, 0.0, 0.0, 0.0, 0.0, 0.0))
  {
    var buys, sells, buyVolume, sellVolume := 0.0, 0.0, 0.0, 0.0;
    var buyCount, sellCount := 0, 0;
    var i := 0;
    while i < |trades|
      invariant 0 <= i <= |trades|
      invariant forall j :: 0 <= j < i ==> Converts(trades[j])
      invariant buyCount == SideCount(trades[..i], "BUY") && sellCount == SideCount(trades[..i], "SELL")
      invariant buys == SideUsd(trades[..i], "BUY") && sells == SideUsd(trades[..i], "SELL")
      invariant buyVolume == SideVolume(trades[..i], "BUY") && sellVolume == SideVolume(trades[..i], "SELL")
    {
      var t := trades[i];
      if t.price.None? || t.size.None? {
        return None;
      }
      var total := t.price.value * t.size.value;
      assert trades[..i + 1][..i] == trades[..i];
      assert trades[..i + 1][i] == t;
      if t.side == "BUY" {
        buys := buys + total;
        buyVolume := buyVolume + t.size.value;
        buyCount := buyCount + 1;
      } else if t.side == "SELL" {
        sells := sells + total;
        sellVolume := sellVolume + t.size.value;
        sellCount := sellCount + 1;
      }
      i := i + 1;
    }
    assert trades[..i] == trades;
    CountsWithinLength(trades);
    r := Some(Totals(buyCount, sellCount, buys, sells, buyVolume, sellVolume, sells - buys));
  }
}

=== FILE: trader.dfy ===
/** The bookkeeping of `FastTrader` (trader.py): the token -> position table, the tick-size
    cache, and the choice of side. Signing and posting through the exchange client are
    replaced by their outcome, passed in as a parameter. */
module Trader {
  import opened Wrappers
  import opened Collections
  import Config

  type TokenId = string

  datatype Side = Up | Down

  datatype OrderType = FOK | GTC

  /** What `post_order` gave back: a truthy response, a falsy one, or an exception
      (raised while signing or posting). Only the first counts as filled. */
  datatype PostOutcome = Posted(response: string) | Falsy | Raised

  /** One entry of `active_positions`; `market` is the market's condition id. */
  datatype Position = Position(side: Side, shares: real, entryPrice: real, entryTime: real, market: string)

  /** `hasClient` is false when no exchange client could be built (no signing key). */
  datatype TraderState = TraderState(
    hasClient: bool,
    positions: map<TokenId, Position>,
    tickSizes: map<TokenId, string>)

  /** The order arguments handed to the client. */
  datatype OrderRequest = OrderRequest(token: TokenId, price: real, size: real, isBuy: bool, orderType: OrderType)

  /** The trader after a call, the order it sent (if any) and the response it returned. */
  datatype Placed = Placed(trader: TraderState, request: Option<OrderRequest>, response: Option<string>)

  datatype TickLookup = TickLookup(trader: TraderState, tickSize: string)

  const DefaultTickSize: string := "0.01"

  /** A trader with a client and nothing tracked yet. */
  function NewTrader(hasClient: bool): TraderState {
    TraderState(hasClient, map[], map[])
  }

  /** `round(x, 2)`, rounding halves up. */
  function Round2(x: real): (r: real)
    ensures x - 0.005 < r <= x + 0.005
  {
    ((x * 100.0 + 0.5).Floor as real) / 100.0
  }

  lemma EntryPriceIsRounded()
    ensures Round2(Config.EntryPrice) == Config.EntryPrice
  {
  }

  /** `_get_tick_size`: the cached value when there is one; otherwise the client's answer
      (`reply`, `None` when it raised or returned nothing) if non-empty, else "0.01". The
      answer is cached either way. */
  function GetTickSize(t: TraderState, token: TokenId, reply: Option<string>): (r: TickLookup)
    ensures token in t.tickSizes ==> r.trader == t && r.tickSize == t.tickSizes[token]
    ensures token in r.trader.tickSizes && r.trader.tickSizes[token] == r.tickSize
    ensures AgreeExcept(t.tickSizes, r.trader.tickSizes, token)
    ensures r.trader.positions == t.positions && r.trader.hasClient == t.hasClient
    ensures token !in t.tickSizes && t.hasClient && reply.Some? && reply.value != "" ==> r.tickSize == reply.value
    ensures token !in t.tickSizes && (!t.hasClient || reply.None? || reply == Some("")) ==> r.tickSize == DefaultTickSize
  {
    if token in t.tickSizes then TickLookup(t, t.tickSizes[token])
    else
      var ts := if t.hasClient && reply.Some? && reply.value != "" then reply.value else DefaultTickSize;
      TickLookup(t.(tickSizes := t.tickSizes[token := ts]), ts)
  }

  /** After the first lookup, later lookups return the cached size whatever the client says. */
  lemma TickSizeIsCached(t: TraderState, token: TokenId, first: Option<string>, later: Option<string>)
    ensures var l := GetTickSize(t, token, first);
      GetTickSize(l.trader, token, later) == l
  {
  }

  /** `place_buy_order`: without a client nothing happens; otherwise a buy at the rounded
      price is sent, and only a truthy post records `active_positions[token]`. */
  function PlaceBuyOrder(t: TraderState, token: TokenId, side: Side, price: real, size: real,
                         market: string, now: real, orderType: OrderType,
                         tickReply: Option<string>, post: PostOutcome): (r: Placed)
    ensures !t.hasClient ==> r == Placed(t, None, None)
    ensures t.hasClient ==> r.request == Some(OrderRequest(token, Round2(price), size, true, orderType))
    ensures r.response.Some? <==> t.hasClient && post.Posted?
    ensures r.response.Some? ==>
              && token in r.trader.positions
              && r.trader.positions[token] == Position(side, size, Round2(price), now, market)
    ensures r.response.Some? ==> AgreeExcept(t.positions, r.trader.positions, token)
    ensures r.response.None? ==> r.trader.positions == t.positions
    ensures r.trader.hasClient == t.hasClient
  {
    if !t.hasClient then Placed(t, None, None)
    else
      var priceRounded := Round2(price);
      var t1 := GetTickSize(t, token, tickReply).trader;
      var request := OrderRequest(token, priceRounded, size, true, orderType);
      match post
      case Posted(resp) =>
        var pos := Position(side, size, priceRounded, now, market);
        Placed(t1.(positions := t1.positions[token := pos]), Some(request), Some(resp))
      case _ => Placed(t1, Some(request), None)
  }

  /** `place_sell_order`: without a client nothing happens; otherwise a sell at the rounded
      price and size is sent, and only a truthy post drops the token's position. */
  function PlaceSellOrder(t: TraderState, token: TokenId, price: real, size: real, orderType: OrderType,
                          tickReply: Option<string>, post: PostOutcome): (r: Placed)
    ensures !t.hasClient ==> r == Placed(t, None, None)
    ensures t.hasClient ==> r.request == Some(OrderRequest(token, Round2(price), Round2(size), false, orderType))
    ensures r.response.Some? <==> t.hasClient && post.Posted?
    ensures r.response.Some? ==> r.trader.positions == t.positions - {token}
    ensures r.response.None? ==> r.trader.positions == t.positions
    ensures r.trader.hasClient == t.hasClient
  {
    if !t.hasClient then Placed(t, None, None)
    else
      var t1 := GetTickSize(t, token, tickReply).trader;
      var request := OrderRequest(token, Round2(price), Round2(size), false, orderType);
      match post
      case Posted(resp) => Placed(RemovePosition(t1, token), Some(request), Some(resp))
      case _ => Placed(t1, Some(request), None)
  }

  /** `get_position`: the tracked position of `token`, or nothing when it is not tracked. */
  function GetPosition(t: TraderState, token: TokenId): (r: Option<Position>)
    ensures r.Some? <==> token in t.positions
    ensures r.Some? ==> r.value == t.positions[token]
  {
    Lookup(t.positions, token)
  }

  /** `remove_position`: drops only `token`, and does nothing when it is not tracked. */
  function RemovePosition(t: TraderState, token: TokenId): (r: TraderState)
    ensures token !in r.positions
    ensures AgreeExcept(t.positions, r.positions, token)
    ensures token !in t.positions ==> r == t
    ensures r.hasClient == t.hasClient && r.tickSizes == t.tickSizes
  {
    if token in t.positions then t.(positions := t.positions - {token}) else t
  }

  lemma RemovePositionIdempotent(t: TraderState, token: TokenId)
    ensures RemovePosition(RemovePosition(t, token), token) == RemovePosition(t, token)
  {
  }

  /** `should_enter_trade`: the price has reached the trigger. */
  predicate ShouldEnterTrade(price: real, trigger: real) {
    price >= trigger
  }

  /** `get_trade_side`: up when the up price reaches the trigger (up wins a tie), else down
      when the down price does, else no trade. */
  function GetTradeSide(upPrice: real, downPrice: real, trigger: real): (r: Option<Side>)
    ensures r == Some(Up) <==> ShouldEnterTrade(upPrice, trigger)
    ensures r == Some(Down) <==> !ShouldEnterTrade(upPrice, trigger) && ShouldEnterTrade(downPrice, trigger)
    ensures r.None? <==> !ShouldEnterTrade(upPrice, trigger) && !ShouldEnterTrade(downPrice, trigger)
  {
    if upPrice >= trigger then Some(Up)
    else if downPrice >= trigger then Some(Down)
    else None
  }
}

=== FILE: wrappers.dfy ===
/** Failure-compatible optional values, used wherever the bot uses `None`. */
module Wrappers {

  /** `None` plays the part of Python's `None` (a missing key, a failed call). */
  datatype Option<+T> = None | Some(value: T) {

    /** The carried value, or `default` when there is none (Python's `d.get(k, default)`). */
    function GetOr(default: T): T {
      match this
      case Some(v) => v
      case None => default
    }
  }
}

=== FILE: ws_monitor.dfy ===
/** `WebSocketPriceMonitor` and `HybridPriceMonitor` (ws_monitor.py): the token→price table
    fed by trade events, subset reads, subscription bookkeeping, the reconnect backoff, and the
    hybrid "both prices or nothing" read with its HTTP seed.

    Socket sends and connects are boolean outcomes; a JSON message arrives already decoded
    as a `Message`. */
module WsMonitor {
  import opened Wrappers
  import opened Collections
  import opened Trader

  /** The socket's state: `connected` stands for "has a socket and is connected". */
  datatype WsState = WsState(
    connected: bool,
    subscribed: seq<TokenId>,
    prices: map<TokenId, real>,
    reconnectDelay: real,
    messageCount: nat)

  const InitialDelay: real := 1.0
  const MaxReconnectDelay: real := 30.0

  const NewWs: WsState := WsState(false, [], map[], InitialDelay, 0)

  predicate ValidDelay(ws: WsState) {
    InitialDelay <= ws.reconnectDelay <= MaxReconnectDelay
  }

  /** One decoded event object: a missing `asset_id` or `price` is the empty string (both
      are falsy); `priceValue` is `float(price)`, `None` when that raises. */
  datatype WsEvent = WsEvent(eventType: Option<string>, assetId: TokenId, priceText: string, priceValue: Option<real>)

  /** An element of a list message: an object, or anything else (on which `.get` raises). */
  datatype Item = Obj(event: WsEvent) | NotObj

  /** A raw message after `json.loads`: undecodable, a list, an object, or another JSON value. */
  datatype Message = InvalidJson | ListMsg(items: seq<Item>) | ObjMsg(event: WsEvent) | OtherJson

  /** A call of `on_price_update` (made when a callback is installed). */
  datatype Notification = Notification(token: TokenId, price: real)

  datatype Processed = Processed(ws: WsState, notes: seq<Notification>)

  /** A trade event that would write the table: the right type with a non-empty asset and price. */
  predicate IsTrade(e: WsEvent) {
    e.eventType == Some("last_trade_price") && e.assetId != "" && e.priceText != ""
  }

  /** Processing this element raises, which ends the handling of its message. */
  predicate Raises(item: Item) {
    item.NotObj? || (IsTrade(item.event) && item.event.priceValue.None?)
  }

  /** `_process_event`: a valid trade event maps its asset to its price, notifying only when
      the stored value changes; every other event leaves the table alone. `None` when the
      price does not parse. */
  function ProcessEvent(ws: WsState, e: WsEvent): (r: Option<Processed>)
    ensures r.None? <==> Raises(Obj(e))
    ensures r.Some? && IsTrade(e) ==>
              && r.value.ws == ws.(prices := ws.prices[e.assetId := e.priceValue.value])
              && (|r.value.notes| > 0 <==> Lookup(ws.prices, e.assetId) != Some(e.priceValue.value))
              && (|r.value.notes| > 0 ==> r.value.notes == [Notification(e.assetId, e.priceValue.value)])
    ensures r.Some? && !IsTrade(e) ==> r.value == Processed(ws, [])
  {
    if !IsTrade(e) then Some(Processed(ws, []))
    else match e.priceValue
      case None => None
      case Some(p) =>
        if e.assetId in ws.prices && ws.prices[e.assetId] == p then Some(Processed(ws, []))
        else Some(Processed(ws.(prices := ws.prices[e.assetId := p]), [Notification(e.assetId, p)]))
  }

  /** The loop over a list message: elements in order, stopping at the first that raises
      (the changes made before it stay). */
  function ProcessItems(ws: WsState, items: seq<Item>): (r: Processed)
    ensures r.ws.connected == ws.connected && r.ws.subscribed == ws.subscribed
    ensures r.ws.reconnectDelay == ws.reconnectDelay && r.ws.messageCount == ws.messageCount
    decreases |items|
  {
    if |items| == 0 then Processed(ws, [])
    else match items[0]
      case NotObj => Processed(ws, [])
      case Obj(e) =>
        match ProcessEvent(ws, e)
        case None => Processed(ws, [])
        case Some(p) =>
          var rest := ProcessItems(p.ws, items[1..]);
          Processed(rest.ws, p.notes + rest.notes)
  }

  /** `_handle_message`: invalid JSON changes nothing; otherwise the message is counted and
      a list is processed element by element, an object once, anything else not at all. */
  function HandleMessage(ws: WsState, msg: Message): (r: Processed)
    ensures msg.InvalidJson? ==> r == Processed(ws, [])
    ensures !msg.InvalidJson? ==> r.ws.messageCount == ws.messageCount + 1
    ensures msg.OtherJson? ==> r.ws == ws.(messageCount := ws.messageCount + 1) && r.notes == []
    ensures msg.ObjMsg? && Raises(Obj(msg.event)) ==> r.ws == ws.(messageCount := ws.messageCount + 1)
    ensures msg.ObjMsg? && !Raises(Obj(msg.event)) ==> r == ProcessEvent(ws.(messageCount := ws.messageCount + 1), msg.event).value
    ensures msg.ObjMsg? && !Raises(Obj(msg.event)) ==>
              forall t :: Lookup(r.ws.prices, t)
                          == if IsTrade(msg.event) && t == msg.event.assetId then msg.event.priceValue else Lookup(ws.prices, t)
    ensures msg.ListMsg? && (forall i :: 0 <= i < |msg.items| ==> !Raises(msg.items[i])) ==>
              forall t :: Lookup(r.ws.prices, t) == LastTradePrice(msg.items, t, Lookup(ws.prices, t))
    ensures r.ws.connected == ws.connected && r.ws.subscribed == ws.subscribed
  {
    match msg
    case InvalidJson => Processed(ws, [])
    case ListMsg(items) =>
      var ws1 := ws.(messageCount := ws.messageCount + 1);
      var r := ProcessItems(ws1, items);
      assert (forall i :: 0 <= i < |items| ==> !Raises(items[i])) ==>
               forall t :: Lookup(r.ws.prices, t) == LastTradePrice(items, t, Lookup(ws.prices, t)) by {
        if forall i :: 0 <= i < |items| ==> !Raises(items[i]) {
          forall t ensures Lookup(r.ws.prices, t) == LastTradePrice(items, t, Lookup(ws.prices, t)) {
            ProcessItemsLastWriteWins(ws1, items, t);
          }
        }
      }
      r
    case ObjMsg(e) =>
      var ws1 := ws.(messageCount := ws.messageCount + 1);
      (match ProcessEvent(ws1, e)
       case None => Processed(ws1, [])
       case Some(p) => p)
    case OtherJson => Processed(ws.(messageCount := ws.messageCount + 1), [])
  }

  /** Reference reading of a list of events: the price a token holds after them is the one
      from the last trade event for it, or what it held before when there is none. */
  function LastTradePrice(items: seq<Item>, t: TokenId, before: Option<real>): Option<real>
  {
    if |items| == 0 then before
    else
      var now :=
        if items[0].Obj? && IsTrade(items[0].event) && items[0].event.assetId == t && items[0].event.priceValue.Some?
        then items[0].event.priceValue
        else before;
      LastTradePrice(items[1..], t, now)
  }

  /** When no element raises, the table after a list message agrees token by token with
      the last-trade reference reading. */
  lemma {:induction false} ProcessItemsLastWriteWins(ws: WsState, items: seq<Item>, t: TokenId)
    requires forall i :: 0 <= i < |items| ==> !Raises(items[i])
    ensures Lookup(ProcessItems(ws, items).ws.prices, t) == LastTradePrice(items, t, Lookup(ws.prices, t))
    decreases |items|
  {
    if |items| > 0 {
      assert !Raises(items[0]);
      var p := ProcessEvent(ws, items[0].event).value;
      assert forall i :: 0 <= i < |items[1..]| ==> items[1..][i] == items[i + 1];
      ProcessItemsLastWriteWins(p.ws, items[1..], t);
    }
  }

  /** An element that raises ends the message: the elements after it have no effect. */
  lemma {:induction false} RaiseDropsRest(ws: WsState, items: seq<Item>, k: nat)
    requires k < |items| && Raises(items[k])
    ensures ProcessItems(ws, items) == ProcessItems(ws, items[..k])
    decreases k
  {
    if k == 0 {
    } else {
      match items[0]
      case NotObj =>
      case Obj(e) =>
        match ProcessEvent(ws, e)
        case None =>
        case Some(p) =>
          assert items[1..][k - 1] == items[k];
          RaiseDropsRest(p.ws, items[1..], k - 1);
          assert items[1..][..k - 1] == items[..k][1..];
    }
  }

  /** `get_prices`: exactly the requested tokens the table holds, with the table's values. */
  function GetPrices(ws: WsState, ids: seq<TokenId>): (r: map<TokenId, real>)
    ensures forall t :: t in r <==> t in ids && t in ws.prices
    ensures forall t :: t in r ==> r[t] == ws.prices[t]
  {
    map t | t in ids && t in ws.prices :: ws.prices[t]
  }

  /** `list.remove`: drops the first occurrence of `x`, if any. */
  function RemoveFirst(s: seq<TokenId>, x: TokenId): (r: seq<TokenId>)
    ensures x in s ==> |r| == |s| - 1
    ensures x !in s ==> r == s
    ensures forall t :: t in r ==> t in s
    ensures NoDup(s) ==> NoDup(r) && forall t :: t in r <==> t in s && t != x
  {
    if |s| == 0 then s
    else if s[0] == x then s[1..]
    else
      var rest := RemoveFirst(s[1..], x);
      assert NoDup(s) ==> NoDup(s[1..]) && s[0] !in s[1..];
      [s[0]] + rest
  }

  /** `subscribe`: when connected and the send succeeds, the list becomes the new
      subscription; otherwise nothing changes. The flag is the return value. */
  function Subscribe(ws: WsState, ids: seq<TokenId>, sendOk: bool): (r: (WsState, bool))
    ensures r.1 <==> ws.connected && sendOk
    ensures r.1 ==> r.0 == ws.(subscribed := ids)
    ensures !r.1 ==> r.0 == ws
  {
    if ws.connected && sendOk then (ws.(subscribed := ids), true) else (ws, false)
  }

  /** The removal loop of `unsubscribe` over a list other than the subscription itself. */
  function RemoveEach(subscribed: seq<TokenId>, prices: map<TokenId, real>, ids: seq<TokenId>): (r: (seq<TokenId>, map<TokenId, real>))
    ensures r.1 == prices - (set t | t in ids)
    ensures NoDup(subscribed) ==> NoDup(r.0) && forall t :: t in r.0 <==> t in subscribed && t !in ids
    decreases |ids|
  {
    if |ids| == 0 then (subscribed, prices)
    else
      var rest := RemoveEach(RemoveFirst(subscribed, ids[0]), prices - {ids[0]}, ids[1..]);
      assert (set t | t in ids) == {ids[0]} + (set t | t in ids[1..]);
      rest
  }

  /** `unsubscribe(ids)` with `ids` a separate list: when connected and the send succeeds,
      the ids leave the subscription and the table; otherwise nothing changes. */
  function Unsubscribe(ws: WsState, ids: seq<TokenId>, sendOk: bool): (r: WsState)
    ensures !(ws.connected && sendOk) ==> r == ws
    ensures ws.connected && sendOk ==> r.prices == ws.prices - (set t | t in ids)
    ensures ws.connected && sendOk && NoDup(ws.subscribed) ==>
              NoDup(r.subscribed) && forall t :: t in r.subscribed <==> t in ws.subscribed && t !in ids
    ensures r.connected == ws.connected && r.reconnectDelay == ws.reconnectDelay
  {
    if !(ws.connected && sendOk) then ws
    else
      var (subs, prices) := RemoveEach(ws.subscribed, ws.prices, ids);
      ws.(subscribed := subs, prices := prices)
  }

  /** Unsubscribing a copy of the whole subscription empties it and drops every one of its
      prices. */
  lemma UnsubscribeAllClearsSubscription(ws: WsState)
    requires ws.connected && NoDup(ws.subscribed)
    ensures var r := Unsubscribe(ws, ws.subscribed, true);
            (forall t :: t !in r.subscribed) && forall t :: t in ws.subscribed ==> t !in r.prices
  {
  }

  /** `unsubscribe(self.subscribed_tokens)`, as `subscribe_to_market` calls it: the loop
      walks the very list it removes from, by index. */
  function IterRemove(list: seq<TokenId>, i: nat, prices: map<TokenId, real>): (r: (seq<TokenId>, map<TokenId, real>))
    ensures |r.0| <= |list|
    ensures forall t :: t in r.1 ==> t in prices && r.1[t] == prices[t]
    decreases |list| - i
  {
    if i >= |list| then (list, prices)
    else
      var tid := list[i];
      IterRemove(RemoveFirst(list, tid), i + 1, prices - {tid})
  }

  /** On a list without repeats, unsubscribing the subscription itself keeps the tokens at odd
      positions subscribed and priced, and drops only those at even positions. */
  function UnsubscribeOwnList(ws: WsState, sendOk: bool): (r: WsState)
    ensures !(ws.connected && sendOk) ==> r == ws
    ensures ws.connected && sendOk && NoDup(ws.subscribed) ==>
              && r.subscribed == Odds(ws.subscribed)
              && forall i :: 0 <= i < |ws.subscribed| ==>
                   && (i % 2 == 0 ==> ws.subscribed[i] !in r.prices)
                   && (i % 2 == 1 ==> Lookup(r.prices, ws.subscribed[i]) == Lookup(ws.prices, ws.subscribed[i]))
    ensures forall t :: t in r.prices ==> t in ws.prices && r.prices[t] == ws.prices[t]
    ensures r.connected == ws.connected && r.reconnectDelay == ws.reconnectDelay
  {
    if !(ws.connected && sendOk) then ws
    else
      var (subs, prices) := IterRemove(ws.subscribed, 0, ws.prices);
      OwnListWalk(ws.subscribed, ws.prices);
      ws.(subscribed := subs, prices := prices)
  }

  /** The walk from the start of a repeat-free list, stated by position. */
  lemma OwnListWalk(s: seq<TokenId>, prices: map<TokenId, real>)
    ensures NoDup(s) ==>
              && IterRemove(s, 0, prices).0 == Odds(s)
              && IterRemove(s, 0, prices).1 == prices - EvenSet(s)
              && forall i :: 0 <= i < |s| ==> (s[i] in EvenSet(s) <==> i % 2 == 0)
  {
    if NoDup(s) {
      IterRemoveKeepsOdds([], s, prices);
      assert [] + s == s;
      EvenSetByIndex(s);
    }
  }

  /** The elements at odd positions, and the set of those at even positions. */
  function Odds(s: seq<TokenId>): seq<TokenId> {
    if |s| < 2 then [] else [s[1]] + Odds(s[2..])
  }

  function EvenSet(s: seq<TokenId>): set<TokenId> {
    if |s| == 0 then {} else if |s| == 1 then {s[0]} else {s[0]} + EvenSet(s[2..])
  }

  /** Every element of `EvenSet(s)` is an element of `s`. */
  lemma {:induction false} EvenSetWithin(s: seq<TokenId>)
    ensures forall t :: t in EvenSet(s) ==> t in s
    decreases |s|
  {
    if |s| >= 2 {
      EvenSetWithin(s[2..]);
      assert forall t :: t in s[2..] ==> t in s;
    }
  }

  /** On a repeat-free list, an element is in `EvenSet` exactly when it sits at an even position. */
  lemma {:induction false} EvenSetByIndex(s: seq<TokenId>)
    requires NoDup(s)
    ensures forall i :: 0 <= i < |s| ==> (s[i] in EvenSet(s) <==> i % 2 == 0)
    decreases |s|
  {
    if |s| >= 2 {
      var rest := s[2..];
      assert NoDup(rest) by {
        assert forall i :: 0 <= i < |rest| ==> rest[i] == s[i + 2];
      }
      EvenSetByIndex(rest);
      EvenSetWithin(rest);
      assert EvenSet(s) == {s[0]} + EvenSet(rest);
      forall i | 0 <= i < |s| ensures s[i] in EvenSet(s) <==> i % 2 == 0 {
        if i == 1 {
          assert s[1] !in rest by {
            forall j | 0 <= j < |rest| ensures rest[j] != s[1] {
              assert rest[j] == s[j + 2];
            }
          }
        } else if i >= 2 {
          assert s[i] == rest[i - 2];
          assert s[i] != s[0];
        }
      }
    }
  }

  /** Removing an element that is not in the prefix only touches the suffix. */
  lemma {:induction false} RemoveFirstSkipsPrefix(k: seq<TokenId>, s: seq<TokenId>, x: TokenId)
    requires x !in k
    ensures RemoveFirst(k + s, x) == k + RemoveFirst(s, x)
    decreases |k|
  {
    if |k| > 0 {
      assert (k + s)[0] == k[0];
      assert (k + s)[1..] == k[1..] + s;
      RemoveFirstSkipsPrefix(k[1..], s, x);
      assert k == [k[0]] + k[1..];
    } else {
      assert k + s == s;
    }
  }

  /** One step of the walk: the element under the index is the suffix's head, and it goes. */
  lemma IterRemoveStep(k: seq<TokenId>, s: seq<TokenId>, prices: map<TokenId, real>)
    requires |s| > 0 && s[0] !in k
    ensures IterRemove(k + s, |k|, prices) == IterRemove(k + s[1..], |k| + 1, prices - {s[0]})
  {
    assert (k + s)[|k|] == s[0];
    RemoveFirstSkipsPrefix(k, s, s[0]);
    assert RemoveFirst(k + s, s[0]) == k + s[1..];
  }

  /** Passing two elements keeps the walk's precondition: the second joins the kept prefix. */
  lemma ShiftKeepsDisjoint(k: seq<TokenId>, s: seq<TokenId>)
    requires |s| >= 2 && NoDup(s) && forall t :: t in k ==> t !in s
    ensures NoDup(s[2..])
    ensures forall t :: t in k + [s[1]] ==> t !in s[2..]
    ensures k + s[1..] == (k + [s[1]]) + s[2..]
  {
    assert forall i :: 0 <= i < |s[2..]| ==> s[2..][i] == s[i + 2];
    forall t | t in k + [s[1]] ensures t !in s[2..] {
      if t in k {
        assert forall u :: u in s[2..] ==> u in s;
      }
    }
  }

  lemma OddsUnfold(k: seq<TokenId>, s: seq<TokenId>)
    requires |s| >= 2
    ensures (k + [s[1]]) + Odds(s[2..]) == k + Odds(s)
  {
    assert Odds(s) == [s[1]] + Odds(s[2..]);
    assert (k + [s[1]]) + Odds(s[2..]) == k + ([s[1]] + Odds(s[2..]));
  }

  lemma EvensUnfold(s: seq<TokenId>, prices: map<TokenId, real>)
    requires |s| >= 2
    ensures prices - {s[0]} - EvenSet(s[2..]) == prices - EvenSet(s)
  {
    var rest := EvenSet(s[2..]);
    assert EvenSet(s) == {s[0]} + rest;
    var lhs := prices - {s[0]} - rest;
    var rhs := prices - EvenSet(s);
    assert lhs.Keys == rhs.Keys;
  }

  /** The walk's result after its first removal, with the next element kept, is the whole result. */
  lemma KeepsOddsStep(k: seq<TokenId>, s: seq<TokenId>, prices: map<TokenId, real>)
    requires |s| >= 2 && k + s[1..] == (k + [s[1]]) + s[2..]
    requires IterRemove(k + s, |k|, prices) == IterRemove(k + s[1..], |k| + 1, prices - {s[0]})
    requires IterRemove((k + [s[1]]) + s[2..], |k + [s[1]]|, prices - {s[0]})
             == ((k + [s[1]]) + Odds(s[2..]), prices - {s[0]} - EvenSet(s[2..]))
    ensures IterRemove(k + s, |k|, prices) == (k + Odds(s), prices - EvenSet(s))
  {
    OddsUnfold(k, s);
    EvensUnfold(s, prices);
  }

  /** On a list without repeats, the self-referential walk removes only the elements at even
      positions: each removal shifts the next element under the index just passed. */
  lemma {:induction false} IterRemoveKeepsOdds(k: seq<TokenId>, s: seq<TokenId>, prices: map<TokenId, real>)
    requires NoDup(s) && forall t :: t in k ==> t !in s
    ensures IterRemove(k + s, |k|, prices) == (k + Odds(s), prices - EvenSet(s))
    decreases |s|
  {
    if |s| == 0 {
      assert k + s == k;
      assert prices - EvenSet(s) == prices;
    } else {
      assert s[0] in s;
      IterRemoveStep(k, s, prices);
      if |s| == 1 {
        assert k + s[1..] == k;
        assert IterRemove(k, |k| + 1, prices - {s[0]}) == (k, prices - {s[0]});
      } else {
        var k2 := k + [s[1]];
        ShiftKeepsDisjoint(k, s);
        IterRemoveKeepsOdds(k2, s[2..], prices - {s[0]});
        KeepsOddsStep(k, s, prices);
      }
    }
  }

  /** With the two tokens of the previous market subscribed, the self-referential unsubscribe
      leaves the second one subscribed and priced, where unsubscribing a copy removes both. */
  lemma OwnListUnsubscribeLeavesStalePrice(ws: WsState, a: TokenId, b: TokenId)
    requires a != b && ws.connected
    requires ws.subscribed == [a, b] && a in ws.prices && b in ws.prices
    ensures var r := UnsubscribeOwnList(ws, true);
            r.subscribed == [b] && b in r.prices && r.prices[b] == ws.prices[b] && a !in r.prices
    ensures var c := Unsubscribe(ws, ws.subscribed, true);
            a !in c.subscribed && b !in c.subscribed && a !in c.prices && b !in c.prices
  {
    assert NoDup(ws.subscribed);
    IterRemoveKeepsOdds([], [a, b], ws.prices);
    assert [] + [a, b] == [a, b];
    assert EvenSet([a, b]) == {a};
    UnsubscribeAllClearsSubscription(ws);
  }

  function Min(a: real, b: real): real {
    if a <= b then a else b
  }

  /** The delay after `k` failed attempts starting from `d`: doubled each time, capped at 30. */
  function DelayAfter(d: real, k: nat): (r: real)
    ensures r <= MaxReconnectDelay || (k == 0 && r == d)
  {
    if k == 0 then d else Min(2.0 * DelayAfter(d, k - 1), MaxReconnectDelay)
  }

  /** The delay stays within [1, 30] and, from the initial 1 second, reaches the cap after
      five failures. */
  lemma {:induction false} DelayAfterBounds(d: real, k: nat)
    requires InitialDelay <= d <= MaxReconnectDelay
    ensures InitialDelay <= DelayAfter(d, k) <= MaxReconnectDelay
    ensures k >= 5 ==> DelayAfter(d, k) == MaxReconnectDelay
  {
    if k > 0 {
      DelayAfterBounds(d, k - 1);
      if k >= 5 {
        if k - 1 >= 5 {
        } else {
          assert DelayAfter(d, 1) >= 2.0;
          assert DelayAfter(d, 2) >= 4.0;
          assert DelayAfter(d, 3) >= 8.0;
          assert DelayAfter(d, 4) >= 16.0;
        }
      }
    }
  }

  /** `connect`: success marks the socket connected and resets the delay to 1 second. */
  function Connect(ws: WsState, ok: bool): (r: WsState)
    ensures r.connected == ok
    ensures ok ==> r.reconnectDelay == InitialDelay
    ensures !ok ==> r.reconnectDelay == ws.reconnectDelay
    ensures r.prices == ws.prices && r.subscribed == ws.subscribed
  {
    if ok then ws.(connected := true, reconnectDelay := InitialDelay) else ws.(connected := false)
  }

  /** A successful attempt: connected with the delay reset, then the remembered tokens
      resubscribed when there are any. */
  function Reconnected(ws: WsState, resubscribeOk: bool): (r: WsState)
    ensures r.connected && r.reconnectDelay == InitialDelay
    ensures r.prices == ws.prices && r.subscribed == ws.subscribed
  {
    var c := Connect(ws, true);
    if |c.subscribed| > 0 then Subscribe(c, c.subscribed, resubscribeOk).0 else c
  }

  /** `_reconnect` while the monitor keeps running for `|outcomes|` connect attempts:
      sleep the current delay, try to connect, and on failure double the delay up to the
      cap; on success resubscribe the remembered tokens. Returns the sleeps taken. */
  method Reconnect(ws: WsState, outcomes: seq<bool>, resubscribeOk: bool) returns (r: WsState, sleeps: seq<real>)
    ensures r.connected <==> true in outcomes
    ensures |sleeps| <= |outcomes|
    ensures forall i :: 0 <= i < |sleeps| ==> sleeps[i] == DelayAfter(ws.reconnectDelay, i)
    ensures forall i :: 0 <= i < |sleeps| - 1 ==> !outcomes[i]
    ensures r.connected ==> |sleeps| > 0 && outcomes[|sleeps| - 1] && r.reconnectDelay == InitialDelay
    ensures !r.connected ==> |sleeps| == |outcomes| && r.reconnectDelay == DelayAfter(ws.reconnectDelay, |outcomes|)
    ensures r.prices == ws.prices && r.subscribed == ws.subscribed
  {
    var delay := ws.reconnectDelay;
    sleeps := [];
    var i := 0;
    while i < |outcomes|
      invariant 0 <= i <= |outcomes|
      invariant |sleeps| == i
      invariant forall j :: 0 <= j < i ==> !outcomes[j]
      invariant forall j :: 0 <= j < i ==> sleeps[j] == DelayAfter(ws.reconnectDelay, j)
      invariant delay == DelayAfter(ws.reconnectDelay, i)
    {
      sleeps := sleeps + [delay];
      if outcomes[i] {
        r := Reconnected(ws, resubscribeOk);
        assert outcomes[|sleeps| - 1];
        return;
      }
      delay := Min(2.0 * delay, MaxReconnectDelay);
      i := i + 1;
    }
    assert true !in outcomes by {
      forall j | 0 <= j < |outcomes| ensures !outcomes[j] { }
    }
    r := ws.(connected := false, reconnectDelay := delay);
  }

  /** The hybrid monitor: the socket table plus the current market's two tokens (`None` or
      empty when unset). */
  datatype Hybrid = Hybrid(ws: WsState, upToken: Option<TokenId>, downToken: Option<TokenId>)

  predicate IsSet(t: Option<TokenId>) {
    t.Some? && t.value != ""
  }

  /** `HybridPriceMonitor.get_prices`: both current tokens' prices, or nothing. */
  function HybridGetPrices(h: Hybrid): (r: Option<map<TokenId, real>>)
    ensures r.Some? <==>
              IsSet(h.upToken) && IsSet(h.downToken) && h.upToken.value in h.ws.prices && h.downToken.value in h.ws.prices
    ensures r.Some? ==>
              && r.value.Keys == {h.upToken.value, h.downToken.value}
              && r.value[h.upToken.value] == h.ws.prices[h.upToken.value]
              && r.value[h.downToken.value] == h.ws.prices[h.downToken.value]
  {
    if !IsSet(h.upToken) || !IsSet(h.downToken) then None
    else
      var up := h.upToken.value;
      var down := h.downToken.value;
      if up !in h.ws.prices || down !in h.ws.prices then None
      else Some(map[up := h.ws.prices[up], down := h.ws.prices[down]])
  }

  /** `get_prices_with_fallback`: the socket's prices when it has both, else the HTTP batch
      reply for the two tokens (`http`), else nothing. */
  function GetPricesWithFallback(h: Hybrid, http: Option<map<TokenId, real>>): (r: Option<map<TokenId, real>>)
    ensures HybridGetPrices(h).Some? ==> r == HybridGetPrices(h)
    ensures HybridGetPrices(h).None? && IsSet(h.upToken) && IsSet(h.downToken) ==> r == http
    ensures !(IsSet(h.upToken) && IsSet(h.downToken)) ==> r.None?
  {
    var p := HybridGetPrices(h);
    if p.Some? && |p.value| > 0 then p
    else if IsSet(h.upToken) && IsSet(h.downToken) then http
    else None
  }

  /** The end of `subscribe_to_market`: when the table lacks either new price, both are
      seeded from the HTTP reply if it has both. Nothing else in the state changes. */
  function SeedPrices(ws: WsState, up: TokenId, down: TokenId, http: Option<map<TokenId, real>>): (r: WsState)
    ensures r.subscribed == ws.subscribed && r.connected == ws.connected
    ensures up in ws.prices && down in ws.prices ==> r == ws
    ensures forall t :: t != up && t != down ==> Lookup(r.prices, t) == Lookup(ws.prices, t)
    ensures r.prices != ws.prices ==>
              && http.Some? && up in http.value && down in http.value
              && Lookup(r.prices, up) == Some(http.value[up]) && Lookup(r.prices, down) == Some(http.value[down])
    ensures http.Some? && up in http.value && down in http.value ==> up in r.prices && down in r.prices
  {
    if up in ws.prices && down in ws.prices then ws
    else if http.Some? && |http.value| > 0 && up in http.value && down in http.value then
      ws.(prices := ws.prices[up := http.value[up]][down := http.value[down]])
    else ws
  }

  /** `subscribe_to_market`: remember the tokens, unsubscribe the previous ones by passing the
      subscription list itself, subscribe the new pair, and when the table lacks either price,
      seed both from the HTTP reply if it has both. */
  function SubscribeToMarket(h: Hybrid, up: TokenId, down: TokenId, unsubOk: bool, subOk: bool,
                             http: Option<map<TokenId, real>>): (r: Hybrid)
    ensures r.upToken == Some(up) && r.downToken == Some(down)
    ensures h.ws.connected && subOk ==> r.ws.subscribed == [up, down]
    // when the new subscription fails, the odd-positioned previous tokens are still subscribed
    ensures h.ws.connected && unsubOk && !subOk && NoDup(h.ws.subscribed) ==> r.ws.subscribed == Odds(h.ws.subscribed)
    // only the even-positioned previous tokens lose their prices; the odd-positioned keep theirs
    ensures h.ws.connected && unsubOk && NoDup(h.ws.subscribed) ==>
              forall i :: 0 <= i < |h.ws.subscribed| && h.ws.subscribed[i] != up && h.ws.subscribed[i] != down ==>
                && (i % 2 == 0 ==> h.ws.subscribed[i] !in r.ws.prices)
                && (i % 2 == 1 ==> Lookup(r.ws.prices, h.ws.subscribed[i]) == Lookup(h.ws.prices, h.ws.subscribed[i]))
    // the table only changes at the two new tokens, apart from the dropped old ones
    ensures forall t :: t != up && t != down && t in r.ws.prices ==> t in h.ws.prices && r.ws.prices[t] == h.ws.prices[t]
    // a seed writes both tokens from one HTTP reply, or neither
    ensures (up in r.ws.prices && (up !in h.ws.prices || r.ws.prices[up] != h.ws.prices[up])) ||
            (down in r.ws.prices && (down !in h.ws.prices || r.ws.prices[down] != h.ws.prices[down])) ==>
              && http.Some? && up in http.value && down in http.value
              && Lookup(r.ws.prices, up) == Some(http.value[up]) && Lookup(r.ws.prices, down) == Some(http.value[down])
    ensures r.ws.connected == h.ws.connected
  {
    var ws1 := if |h.ws.subscribed| > 0 then UnsubscribeOwnList(h.ws, unsubOk) else h.ws;
    var ws2 := Subscribe(ws1, [up, down], subOk).0;
    Hybrid(SeedPrices(ws2, up, down, http), Some(up), Some(down))
  }

  /** `subscribe_to_market` as evidently intended: the previous tokens are unsubscribed from a
      copy of the list, so all of them leave the subscription and the table. */
  function SubscribeToMarketIntended(h: Hybrid, up: TokenId, down: TokenId, unsubOk: bool, subOk: bool,
                             http: Option<map<TokenId, real>>): (r: Hybrid)
    ensures r.upToken == Some(up) && r.downToken == Some(down)
    ensures h.ws.connected && subOk ==> r.ws.subscribed == [up, down]
    // every previous token loses its price
    ensures h.ws.connected && unsubOk ==>
              forall t :: t in h.ws.subscribed && t != up && t != down ==> t !in r.ws.prices
    // the table only changes at the two new tokens, apart from the dropped old ones
    ensures forall t :: t != up && t != down && t in r.ws.prices ==> t in h.ws.prices && r.ws.prices[t] == h.ws.prices[t]
    // a seed writes both tokens from one HTTP reply, or neither
    ensures (up in r.ws.prices && (up !in h.ws.prices || r.ws.prices[up] != h.ws.prices[up])) ||
            (down in r.ws.prices && (down !in h.ws.prices || r.ws.prices[down] != h.ws.prices[down])) ==>
              && http.Some? && up in http.value && down in http.value
              && Lookup(r.ws.prices, up) == Some(http.value[up]) && Lookup(r.ws.prices, down) == Some(http.value[down])
    ensures r.ws.connected == h.ws.connected
  {
    var ws1 := if |h.ws.subscribed| > 0 then Unsubscribe(h.ws, h.ws.subscribed, unsubOk) else h.ws;
    var ws2 := Subscribe(ws1, [up, down], subOk).0;
    Hybrid(SeedPrices(ws2, up, down, http), Some(up), Some(down))
  }

  /** Once the pair is subscribed and priced (by the socket or the seed), the hybrid read
      returns exactly those two tokens. */
  lemma SeededMarketIsReadable(h: Hybrid, up: TokenId, down: TokenId, unsubOk: bool, subOk: bool,
                               http: map<TokenId, real>)
    requires up != "" && down != "" && up in http && down in http
    ensures var r := SubscribeToMarket(h, up, down, unsubOk, subOk, Some(http));
            HybridGetPrices(r).Some? && HybridGetPrices(r).value.Keys == {up, down}
  {
  }

  /** Switching away from a two-token market: as written, the second previous token keeps its
      old price in the table; with the intended unsubscribe, it has none. */
  lemma MarketSwitchLeavesStalePrice(h: Hybrid, a: TokenId, b: TokenId, up: TokenId, down: TokenId,
                                     subOk: bool, http: Option<map<TokenId, real>>)
    requires h.ws.connected && h.ws.subscribed == [a, b] && a != b
    requires b in h.ws.prices && b != up && b != down
    ensures var r := SubscribeToMarket(h, up, down, true, subOk, http);
            b in r.ws.prices && r.ws.prices[b] == h.ws.prices[b]
    ensures b !in SubscribeToMarketIntended(h, up, down, true, subOk, http).ws.prices
  {
    assert NoDup(h.ws.subscribed);
    assert h.ws.subscribed[1] == b;
  }
}
